=== FILE: README.md ===
# Gym backend, modelled in Dafny

This project models the core of a gym-membership REST backend. The backend is written in TypeScript on Express, Kysely (PostgreSQL) and Zod.

Clients register, sign in and receive a session token shaped like a JWT. They keep bank cards, subscribe to a membership at one of three levels (SIMPLE, INFINITY, PREMIUM), and freeze, unfreeze and revoke it. They enter and leave gyms, and a graph of time spent in the gym per calendar day is derived from their visit history. Employees (ADMIN, INSTRUCTOR, TRAINER) are promoted clients. Trainers take paid appointments.

The model covers these parts:

- the generic repository (`add`, `delete`, `get`, `getAll`, `validate`), modelled as `Repository.Table`, a class over a `map` from serial key to row;
- every repository that specialises it: clients, sessions, bank cards, gyms, employees, memberships, visit history, trainer appointments and payment history;
- the two middlewares, `authenticate` and `admin`;
- the routes that subscribe to a membership, freeze one, log in and enter a gym;
- the utilities for errors and the API version, bearer tokens, prices, dates, the visit graph and the route logger.

Module by module:

- `Tables`, `Rows` and `Values`: the rows of the database and their JSON shapes.
- `Zod`: the subset of Zod the schemas use. Each schema is a list of (field, rule) pairs. `Zod.Validate` is `safeParse`: it accepts exactly the objects whose every field passes its rule. It returns the parsed fields on success. Otherwise it returns the issues, one per failed check: a string runs every check of its chain, so an empty `email_address` fails both `min(1)` and `email()`, and an array gives one issue per failing element.
- `Calendar`: JavaScript `Date` on a zero UTC offset. Times are milliseconds since the epoch, and the civil calendar is proved invertible.
- `Dates` and `Graph`: `date.ts` and `graph.ts`. Objects with insertion order are modelled by `Dates.Dict`, an ordered list of keys plus a map.
- `Base64`: `base64url` without padding, with its round trip proved.
- `Sessions`: the JWT builder.
  - HMAC-SHA512, UTF-8 and `JSON.stringify` are left uninterpreted as fields of `Sessions.Env`.
  - What is proved is the token's shape: three dot-free segments whose first two decode to the stringified header and claims.
- `Api`, `Middleware` and `Routes`: Express. A `Response` object holds the status and JSON body, and a route is a method that writes it.

Database failures that the model cannot derive (constraint violations, lost connections) enter as `fault: Option<string>` parameters. The current time enters as `now`.

Where a route's documentation or the schema comments disagree with the code, the model follows the code. Three cases:

- `createDaysArray`'s doc example lists three days for a two-day range, but the code produces two (`Dates.DaysArrayExample`).
- `trainerAppoint` passes its two dates to `getAppointmentPrice` in swapped order (`Payments.AppointmentsChargeMinimum`).
- The trainer-appointment `Add` schema describes a gym (`Appointments.AddIsAGymForm`).

## Model

| member | source | states |
|---|---|---|
| Repository.Table.constructor | src/repositories/index.ts:15-19 | a new table is empty and its serial starts at 1 |
| Repository.Table.Add | src/repositories/index.ts:21-36 | on success the row is stored under the next serial, which was unused, and the serial advances; on a fault the error is returned and nothing changes |
| Repository.Table.Delete | src/repositories/index.ts:38-43 | the row with that key is removed and every other row is kept |
| Repository.Table.Get | src/repositories/index.ts:45-53 | finds the row exactly when the key is present, and returns that row |
| Repository.Table.UpdateRow | src/repositories/membership.ts:49-56 | the `UPDATE ... WHERE pk = id` shape: only that row changes, by the given change; a missing key changes nothing |
| Repository.Table.Update | src/repositories/visitHistory.ts:71-82 | the `UPDATE ... WHERE` shape: the matching rows change, the others stay, and the keys are kept |
| Repository.Table.Restore | src/repositories/paymentHistory.ts:85-120 | a rolled-back transaction puts the table back to the saved rows and serial |
| Repository.Updated | src/repositories/visitHistory.ts:71-82 | same keys; matching rows changed, all others equal |
| Repository.Select | src/repositories/index.ts:55-60 | every returned pair is a stored matching row; keys strictly ascend; every matching row below the serial is returned |
| Repository.SelectFromSorted | src/repositories/index.ts:55-60 | the scan yields strictly ascending keys |
| Repository.SelectFromComplete | src/repositories/index.ts:55-60 | the scan misses no matching row in its range |
| Repository.GetAll | src/repositories/index.ts:55-60 | every stored row, once, in ascending key order |
| Repository.First | src/repositories/membership.ts:30-37 | `executeTakeFirst`: a matching row with the lowest key; `None` exactly when no row matches |
| Repository.Last | src/repositories/visitHistory.ts:48-54 | `ORDER BY pk DESC` then take first: a matching row with the highest key; `None` exactly when none matches |
| Repository.FirstAgrees | src/repositories/session.ts:58-65 | two tables with the same keys and filters that agree per key give the same first row |
| Repository.DeleteKeepsOthers | src/repositories/index.ts:38-43 | deleting one key leaves every other row untouched and removes that key |
| Zod.Accepts | src/repositories/index.ts:62-64 | one rule on one field: `undefined()` wants it absent, `never()` accepts nothing, `optional()` also accepts it absent; otherwise it must be present: a number, a string within its length bounds and format, a digit string, one of an enum's names, a date no earlier than the minimum, or an array of the given length of `datetime` strings |
| Zod.Validate | src/repositories/index.ts:62-64 | `safeParse` succeeds exactly when the data is an object whose every field passes its rule; the result is the parsed object; a failure has at least one issue |
| Zod.Failing | src/repositories/index.ts:62-64 | no issue exactly when every field passes its rule |
| Zod.FieldIssues | src/repositories/index.ts:62-64 | a field gives no issue exactly when its rule accepts it, and each issue lies under that field |
| Zod.ElementIssues | src/repositories/trainerAppointment.ts:26 | the elements of a `datetime` array give no issue exactly when all are such strings; each issue lies under the field |
| Zod.FailingSound | src/repositories/index.ts:62-64 | every issue lies under a field whose rule rejects it |
| Zod.FailingComplete | src/repositories/index.ts:62-64 | every field whose rule rejects it has at least one issue |
| Zod.Parsed | src/repositories/index.ts:62-64 | the parsed object holds only schema keys, each the rule's output for the input field |
| Zod.Output | src/repositories/visitHistory.ts:29 | a digit string under `.transform(Number)` becomes its number; other rules pass the value through; an absent field stays absent |
| Values.Lookup | src/repositories/index.ts:62-64 | an object field is found exactly when present |
| Values.Strings | src/routes/membership/freeze/index.post.ts:78-81 | a JSON array of the strings, element by element |
| Api.StatusCode | src/utils/api.ts:30-31 | 401 exactly for the plain string `"Unauthorized"`, else 400 |
| Api.IssuesValue | src/utils/api.ts:41-47 | one JSON entry per Zod issue |
| Api.Reported | src/utils/api.ts:33-52 | what goes under `error`: a non-`Error` value itself, a `ZodError`'s issues, another `Error`'s message |
| Api.ErrorBody | src/utils/api.ts:33-52 | the body is `{ success: false, error }`, where `error` is the reported value (the string or value, the `Error`'s message, or the Zod issues), and has no other key |
| Api.UnauthorizedErrorIsBadRequest | src/utils/api.ts:30-31 | an `Error("Unauthorized")` is answered 400, only the string gets 401 |
| Api.StringAndErrorShareBody | src/utils/api.ts:33-52 | a string and an `Error` with the same message give the same body; their status codes differ exactly for "Unauthorized" |
| Api.ErrorBodyReports | src/utils/api.ts:33-52 | two thrown values with the same body report the same error |
| Api.Response.ThrowError | src/utils/api.ts:26-53 | the response gets the status and error body of the thrown value |
| Api.Response.Json | src/routes/membership/index.post.ts:62-65 | `res.json(v)` sets the body and keeps the status |
| Api.Response.AssertError | src/utils/api.ts:11-19 | true exactly for an error, which is then answered 400 with its message; otherwise the response is untouched |
| Api.Major | src/utils/api.ts:60 | `split(".")[0]`: the dot-free prefix, ending at the first dot or the end |
| Api.GetAPIVersion | src/utils/api.ts:59-61 | a number exactly when the major part is empty (0) or all digits |
| Api.VersionOfRelease | src/utils/api.ts:59-61 | the version of `"<n>.<rest>"` is `n` |
| Api.MajorOfPrefix | src/utils/api.ts:60 | the major part of a dot-free `m` followed by a dot is `m` |
| Api.VersionPrefix | src/middleware/authenticate.ts:18 | the route prefix starts with `/v` and has at least one more character |
| Bearer.FindFrom | src/utils/jwt.ts:10 | the first occurrence of the pattern at or after `i`, or `None` when there is none |
| Bearer.ReplaceFirst | src/utils/jwt.ts:10 | `String.replace` with a string pattern: unchanged without an occurrence, else one occurrence swapped (length arithmetic) |
| Bearer.GetToken | src/utils/jwt.ts:9-11 | no header gives `""`; a header without `"Bearer "` is returned as is; otherwise exactly the prefix's length is removed |
| Bearer.BearerHeader | src/utils/jwt.ts:9-11 | `getToken("Bearer " + t) == t` |
| Bearer.FirstOccurrenceRemoved | src/utils/jwt.ts:10 | the token is the header with its first `"Bearer "`, wherever it is, cut out |
| Bearer.UnchangedIff | src/utils/jwt.ts:10 | the header comes back unchanged exactly when it holds no `"Bearer "` |
| Calendar.ToCivil | src/utils/date.ts:14-16 | the civil date of a day number has a month in 1..12 and a day in 1..31 |
| Calendar.CivilRoundTrip | src/utils/date.ts:14-16 | converting a day number to a civil date and back gives the day number |
| Calendar.ToCivilInjective | src/utils/date.ts:14-16 | distinct days have distinct civil dates |
| Calendar.SetDate | src/utils/date.ts:64 | `setDate(d)`: the same year, month and time of day with day of month `d`, rolling past the month end |
| Calendar.SetHours | src/utils/graph.ts:38-41 | `setHours(h, m, s, ms)`: the same day at the given time of day |
| Calendar.SetDateShift | src/utils/date.ts:64 | `setDate(getDate() + k)` moves the instant exactly `k` days, across month ends |
| Calendar.DaysLater | src/repositories/paymentHistory.ts:129-130 | `setDate(getDate() + k)` is `t + k` days |
| Calendar.IsoDate | src/utils/date.ts:15 | `toISOString`'s date part has at least ten characters |
| Decimal.Pad | src/utils/date.ts:15 | zero-padded decimal: digits only, at least the width |
| Decimal.ValuePad | src/utils/date.ts:15 | reading a padded numeral gives back the number |
| Decimal.PadLength | src/utils/date.ts:15 | a number below 10^w pads to exactly w digits |
| Decimal.PadInjective | src/utils/date.ts:15 | distinct numbers pad to distinct numerals |
| Decimal.NatToStringRoundTrip | src/utils/api.ts:60 | a number's decimal string is all digits and reads back as the number |
| Dates.ToDateString | src/utils/date.ts:14-16 | ten characters, the day key of the instant's day |
| Dates.JoinedDate | src/utils/date.ts:4 | joining four, two and two digits with dashes gives a `YYYY-MM-DD` string whose parts are the pieces |
| Dates.IsoDateFields | src/utils/date.ts:14-16 | for years 0..9999 the first ten characters are a full date whose year, month and day read back |
| Dates.DateStringIsFullDate | src/utils/date.ts:14-16 | `toDateString` gives `YYYY-MM-DD` for four-digit years |
| Dates.KeyIdentifiesDay | src/utils/date.ts:14-16 | two days share a date string exactly when they are the same day |
| Dates.UnifyDay | src/utils/date.ts:26-38 | `unifyDay`: the date rebuilt from its year, month and day with the time fields zeroed, a year 0..99 read as 19xx |
| Dates.UnifyDayIsMidnight | src/utils/date.ts:26-38 | outside years 0..99: the day's midnight, at or before the instant and less than a day before; same civil date and date string; idempotent |
| Dates.UnifyDayTwoDigitYear | src/utils/date.ts:26-38 | in year 24 `new Date(y, ...)` jumps to 1924: the two-digit-year rule |
| Dates.Dict.Set | src/utils/date.ts:62-63 | assigning a key keeps validity, updates the value, and appends the key only when new |
| Dates.EmptyDict | src/utils/date.ts:61 | the empty object is valid |
| Dates.DayCount | src/utils/date.ts:59 | `maxDays`: the day-of-month difference of end and start, none when it is not positive |
| Dates.DaysArray | src/utils/date.ts:53-68 | what `createDaysArray` returns: from an empty object, `maxDays` steps each writing the current day's string with the initial value and moving a day on |
| Dates.CreateDaysArray | src/utils/date.ts:53-68 | the loop computes `DaysArray`, the specification of `createDaysArray` |
| Dates.IterateValid | src/utils/date.ts:61-67 | the loop keeps keys and values consistent |
| Dates.IterateLength | src/utils/date.ts:61-67 | n iterations add at most n keys |
| Dates.IterateValues | src/utils/date.ts:61-67 | every value is the initial value when it started so |
| Dates.DaysArrayInit | src/utils/date.ts:53-68 | valid; at most `getDate(end) - getDate(start)` keys; every value the initial one |
| Dates.YearOfPlainDay | src/utils/date.ts:26-38 | days in the plain range have four-digit years from 100 on |
| Dates.Keys | src/utils/date.ts:61-67 | n consecutive day keys |
| Dates.KeysAt | src/utils/date.ts:61-67 | the i-th key is the key of day z + i |
| Dates.KeysDistinct | src/utils/date.ts:61-67 | an injective key function gives pairwise distinct keys |
| Dates.KeysFrom | src/utils/date.ts:61-67 | n date strings |
| Dates.FillStep | src/utils/date.ts:62-64 | one step writes the current day's string and moves exactly one day ahead |
| Dates.FillKeysValid | src/utils/date.ts:61-67 | filling keeps the object valid |
| Dates.FillKeysValues | src/utils/date.ts:61-67 | filled keys get the initial value; others keep theirs; nothing else appears |
| Dates.FillKeysOrder | src/utils/date.ts:61-67 | fresh distinct keys are appended in order |
| Dates.IterateDays | src/utils/date.ts:61-67 | over plain days the `reduce` is filling consecutive day keys |
| Dates.StepsArePlainDays | src/utils/date.ts:62-64 | in four-digit years every step writes its day's key and advances a day |
| Dates.KeysFromDistinct | src/utils/date.ts:61-67 | consecutive day strings are distinct |
| Dates.DaysArrayShape | src/utils/date.ts:53-68 | the keys are exactly the consecutive dates from the start, `getDate(end) - getDate(start)` of them, all with the initial value |
| Dates.FillFresh | src/utils/date.ts:61-67 | distinct keys into an empty object appear in order with the initial value |
| Dates.DaysArrayExample | src/utils/date.ts:46-51 | `['2024-01-01', '2024-01-03']` gives two keys, 01 and 02 (the end day is not included) |
| Dates.DaysArrayAcrossMonths | src/utils/date.ts:59 | 31 January to 2 February gives no key: `maxDays` compares days of the month |
| Graph.Period | src/utils/graph.ts:32-43 | the `switch`: one key holds the whole visit; otherwise the first key gets the rest of the entering day and the last key the part of the leaving day |
| Graph.PeriodValues | src/utils/graph.ts:28-43 | a one-day visit counts left minus entered; otherwise the first day to 23:59:59.999, the last from midnight, middle days 86400 |
| Graph.PeriodCovers | src/utils/graph.ts:28-43 | every key of the visit's days has a period value |
| Graph.PeriodNonNegative | src/utils/graph.ts:28-43 | a visit that does not leave before it enters contributes no negative amount |
| Graph.VisitSeeded | src/utils/graph.ts:28 | the visit's day array satisfies the seeding invariant |
| Graph.GraphOf | src/utils/graph.ts:11-52 | what `getGraph` returns: the range's days seeded with zero, then each visit's per-day durations added in row order |
| Graph.GetGraph | src/utils/graph.ts:11-52 | the loop computes `GraphOf`, the fold of each visit's contribution over the day array |
| Graph.AddVisit | src/utils/graph.ts:17-48 | one loop iteration computes `Contribute` |
| Graph.Accumulate | src/utils/graph.ts:46-47 | `if (!p[key]) p[key] = 0; p[key] += v` is `AddValue` |
| Graph.SetEdges | src/utils/graph.ts:32-43 | the `switch` computes `Period` |
| Graph.SpreadVisit | src/utils/graph.ts:45-48 | the inner loop computes `AddAll` |
| Graph.AddValueValues | src/utils/graph.ts:46-47 | the key's value grows by v (from 0 when missing); old keys stay |
| Graph.AddAllValues | src/utils/graph.ts:45-48 | adding distinct keys adds each period once and touches nothing else |
| Graph.SpreadValues | src/utils/graph.ts:45-48 | a visit adds its part to each of its keys and nothing else |
| Graph.PartOfNonNegative | src/utils/graph.ts:28-43 | a visit's part of any day is non-negative |
| Graph.SpreadOnValues | src/utils/graph.ts:45-48 | the result's values depend only on the accumulator's values |
| Graph.SpreadTwiceAt | src/utils/graph.ts:45-48 | two visits add their parts to a key |
| Graph.SpreadCommutes | src/utils/graph.ts:45-48 | two visits' contributions commute |
| Graph.ContributeValues | src/utils/graph.ts:17-48 | each day gets the old value plus the visit's part; the keys are the old ones and the visit's days |
| Graph.SameDayVisitAddsNothing | src/utils/graph.ts:28 | a visit within one day has an empty day array and adds nothing |
| Graph.GraphKeepsRange | src/utils/graph.ts:15 | the requested range's day keys open the graph's key list, in order, and each has a value |
| Graph.GraphHasVisitDays | src/utils/graph.ts:45-48 | every day of every visit is in the graph |
| Graph.PartNonNegative | src/utils/graph.ts:28-43 | a visit's part is non-negative |
| Graph.GraphNonNegative | src/utils/graph.ts:11-52 | with no visit leaving before it enters, every graph value is non-negative |
| Graph.ContributeGrows | src/utils/graph.ts:45-48 | a visit never lowers any day |
| Graph.ContributeOnValues | src/utils/graph.ts:17-48 | a visit's contribution depends only on the accumulator's values |
| Graph.ContributeCommutes | src/utils/graph.ts:17-48 | two visits' contributions commute |
| Graph.GraphSnoc | src/utils/graph.ts:17-49 | the graph of a list plus one visit adds that visit's contribution |
| Graph.GraphSwap | src/utils/graph.ts:17-49 | swapping adjacent visits leaves the graph's values unchanged: row order does not matter |
| Pricing.MembershipPrice | src/utils/pricing.ts:6-10 | 790, 1490 and 1790 for the three levels |
| Pricing.PricesIncreaseWithLevel | src/utils/pricing.ts:6-10 | SIMPLE < INFINITY < PREMIUM |
| Pricing.GetAppointmentPrice | src/utils/pricing.ts:19-26 | at least 1000; `floor(diff / 3600)` when that is at least 1000 |
| Pricing.NonPositiveDurationCostsMinimum | src/utils/pricing.ts:23-25 | an appointment that ends before it starts costs the minimum |
| Pricing.WholeHours | src/utils/pricing.ts:14-26 | h hours cost 1000 * h, the documented rate |
| Pricing.PriceMonotone | src/utils/pricing.ts:19-26 | longer appointments never cost less |
| Pricing.SwappedArgumentsChargeMinimum | src/repositories/paymentHistory.ts:87 | with the arguments swapped, as `trainerAppoint` passes them, every proper appointment costs the minimum |
| Base64.Char | src/repositories/session.ts:160-166 | each sextet maps to a `base64url` character |
| Base64.Index | src/repositories/session.ts:160-166 | a character has an index exactly when it is in the alphabet, and the index maps back to it |
| Base64.IndexOfChar | src/repositories/session.ts:160-166 | the index of each sextet's character is that sextet |
| Base64.Encode | src/repositories/session.ts:160-166 | unpadded `base64url`: alphabet characters only, `4 * (n / 3)` plus 0, 2 or 3 characters |
| Base64.Sextets | src/repositories/session.ts:160-166 | decoding characters gives one sextet each |
| Base64.SextetsOfChars | src/repositories/session.ts:160-166 | reading back encoded sextets gives them back |
| Base64.GroupRoundTrip | src/repositories/session.ts:160-166 | one three-byte group decodes to its bytes |
| Base64.ShortGroup | src/repositories/session.ts:160-166 | a short final group is the full group with its zero sextets dropped |
| Base64.DecodeGroup | src/repositories/session.ts:160-166 | decoding a group and then the rest concatenates them |
| Base64.RoundTrip | src/repositories/session.ts:160-166 | `decode(encode(b)) == b` for every byte string |
| Base64.ShortRoundTrip | src/repositories/session.ts:160-166 | the same for one or two bytes |
| Base64.TwoBytes | src/repositories/session.ts:160-166 | two bytes round-trip |
| Base64.OneByte | src/repositories/session.ts:160-166 | one byte round-trips |
| Base64.DecodeShort | src/repositories/session.ts:160-166 | a two- or three-character tail decodes to the leading bytes of its padded group |
| Base64.NoDot | src/repositories/session.ts:172 | an encoding holds no `.`, so the token's dots separate segments |
| Sessions.Hex | src/repositories/session.ts:128-132 | `digest("hex")`: two lower-case digits per byte, high nibble first |
| Sessions.HexInjective | src/repositories/session.ts:128-132 | distinct digests give distinct hex strings |
| Sessions.HashPassword | src/repositories/session.ts:128-132 | the hash is twice as long as the salted HMAC digest |
| Sessions.SameHashSameDigest | src/repositories/session.ts:128-132 | two passwords hash equally exactly when their salted digests are equal |
| Sessions.Segment | src/repositories/session.ts:160-166 | a `base64url` JSON segment holds no dot |
| Sessions.Signature | src/repositories/session.ts:168-170 | the signature holds no dot |
| Sessions.YieldJWT | src/repositories/session.ts:140-173 | a token exactly when the client exists |
| Sessions.Split | src/repositories/session.ts:172 | splitting gives at least one part |
| Sessions.TokenSegments | src/repositories/session.ts:147-172 | the token splits into header, payload and the signature over `header.payload` |
| Sessions.IssuedTokensVerify | src/repositories/session.ts:168-172 | every issued token's signature verifies against its first two segments |
| Sessions.PayloadDecodes | src/repositories/session.ts:152-166 | the middle segment decodes to the UTF-8 JSON of the claims |
| Sessions.SegmentDecodes | src/repositories/session.ts:160-166 | every segment decodes to the UTF-8 JSON it encodes |
| Sessions.CreateSchemaRejectsAll | src/repositories/session.ts:16-22 | `session_id: z.never()` with a required key makes the Create schema reject every input |
| Sessions.GetByToken | src/repositories/session.ts:37-53 | a session with that token; `None` exactly when no row has it; under unique tokens the only one |
| Sessions.Create | src/repositories/session.ts:111-126 | inserts an unrevoked session of the client expiring 30 days later, exactly when the client exists, the token is new and there is no fault; a duplicate token fails with the unique-constraint message; on failure nothing changes |
| Sessions.Revoke | src/repositories/session.ts:103-109 | that session becomes revoked, nothing else changes, and tokens stay unique |
| Sessions.Schemas | src/repositories/session.ts:15-23 | the session schemas; `min(new Date())` is the instant the schemas were built |
| Sessions.Usable | src/repositories/session.ts:60-70 | the session has this token, is not revoked, and its expiry is not before now |
| Sessions.GetClient | src/repositories/session.ts:55-74 | a client reachable from an unrevoked session with that token not yet expired; `None` exactly when no such session has an existing client |
| Sessions.ExpiringNowIsUsable | src/repositories/session.ts:68 | a session is usable up to and including its expiry instant and not after |
| Sessions.GetEmployee | src/repositories/session.ts:76-101 | an employee row whose client holds a usable session with that token; under unique tokens, `None` exactly when no usable session with the token belongs to an existing client who is an employee |
| Rows.LevelName | src/database/migrations/1.index.ts:37-39 | each level has one of the enum's names |
| Rows.LevelOf | src/database/migrations/1.index.ts:37-39 | a string names a level exactly when it is in the enum, and that level's name is the string |
| Rows.LevelNameRoundTrip | src/database/migrations/1.index.ts:37-39 | the level named by a level's name is that level |
| Rows.EmployeeTypeName | src/database/migrations/1.index.ts:57-59 | each type has one of the enum's names |
| Rows.EmployeeTypeOf | src/database/migrations/1.index.ts:57-59 | a string names a type exactly when it is in the enum, and round-trips |
| Rows.PublicKeepsTheRest | src/repositories/employee.ts:75-96 | the public columns of a client determine every column but the password hash |
| Rows.Without | src/routes/client/login.post.ts:85-86 | `delete o[key]` removes that key and keeps the others |
| Rows.ClientValue | src/database/migrations/1.index.ts:5-18 | the client row's JSON has its key, creation date and password hash |
| Rows.SessionValue | src/database/migrations/1.index.ts:22-35 | the session row's JSON has `client_id` |
| Rows.MembershipValue | src/database/migrations/1.index.ts:41-54 | the membership row's JSON carries its key |
| Rows.VisitValue | src/database/migrations/1.index.ts:152-165 | the visit row's JSON has `client_id` |
| Rows.EmployeeValue | src/database/migrations/1.index.ts:61-74 | the employee row's JSON carries its key |
| Rows.AppointmentValue | src/database/migrations/1.index.ts:168-197 | the appointment row's JSON carries its key and the employee |
| Clients.Schemas | src/repositories/client.ts:15-32 | the client schemas, key by key, as Zod rules per field |
| Clients.SignUpAccepts | src/repositories/client.ts:16-25 | `SignUp` accepts exactly the registration form: names, patronymic, URL, e-mail, phone and password within their bounds, and no key |
| Clients.SignUpFormAccepted | src/repositories/client.ts:16-25 | the registration form is accepted |
| Clients.SignUpAcceptedForm | src/repositories/client.ts:16-25 | whatever is accepted is the registration form |
| Clients.SignUpFits | src/repositories/client.ts:16-25 | accepted text fits the `client` table's varchar widths |
| Clients.SignInAccepts | src/repositories/client.ts:26-29 | `SignIn` accepts exactly an e-mail of 1..255 characters and a password of at least 8 |
| Clients.EmptyEmailTwoIssues | src/repositories/client.ts:26-29 | signing in with an empty e-mail fails `min(1)` and `email()`: two issues under `email_address` |
| Clients.GetParsesDigits | src/repositories/client.ts:30-32 | `Get` accepts exactly an all-digit `client_id` and yields its number |
| Clients.GetByEmail | src/repositories/client.ts:39-47 | a client with that e-mail; `None` exactly when there is none; the only one when e-mails are unique |
| BankCards.Schemas | src/repositories/bankCard.ts:15-30 | the bank-card schemas, key by key, as Zod rules per field |
| BankCards.AddAccepts | src/repositories/bankCard.ts:16-23 | `Add` accepts exactly the card form |
| BankCards.AddFormAccepted | src/repositories/bankCard.ts:16-23 | the card form is accepted |
| BankCards.AddAcceptedForm | src/repositories/bankCard.ts:16-23 | whatever is accepted is the card form |
| BankCards.AddFits | src/repositories/bankCard.ts:16-23 | accepted text fits the `bank_card` table's widths |
| BankCards.DeleteNeedsNumber | src/repositories/bankCard.ts:24-26 | `Delete` accepts exactly a numeric `bank_card_id` |
| BankCards.GetByClient | src/repositories/bankCard.ts:36-42 | exactly the client's cards, each a stored row |
| Gyms.Schemas | src/repositories/gym.ts:14-25 | the gym schemas, key by key, as Zod rules per field |
| Gyms.AddAccepts | src/repositories/gym.ts:15-21 | `Add` accepts exactly an address of three 1..64-character strings and a description, and no key |
| Gyms.AddFormAccepted | src/repositories/gym.ts:15-21 | the gym form is accepted |
| Gyms.AddAcceptedForm | src/repositories/gym.ts:15-21 | whatever is accepted is the gym form |
| Gyms.AddFits | src/repositories/gym.ts:15-21 | accepted address parts fit the `gym` table's widths |
| Gyms.EmptyDescriptionAccepted | src/repositories/gym.ts:20 | an empty description is accepted |
| Gyms.DeleteNeedsDigits | src/repositories/gym.ts:22-24 | `Delete` accepts exactly an all-digit `gym_id` |
| Employees.Schemas | src/repositories/employee.ts:15-29 | the employee schemas, key by key; `min(new Date())` is the instant the schemas were built |
| Employees.PromoteAccepts | src/repositories/employee.ts:16-25 | `Promote` accepts exactly a numeric client, a type name and an optional leaving date no earlier than when the schema was built |
| Employees.PromoteFormAccepted | src/repositories/employee.ts:16-25 | the promotion form is accepted |
| Employees.PromoteAcceptedForm | src/repositories/employee.ts:16-25 | whatever is accepted is the promotion form |
| Employees.PastLeavingDateAccepted | src/repositories/employee.ts:24 | `z.date().min(new Date())` is evaluated once, so a leaving date already past can still be accepted |
| Employees.FireNeedsNumber | src/repositories/employee.ts:26-28 | `Fire` accepts exactly a numeric `employee_id` |
| Employees.Add | src/repositories/employee.ts:35-55 | inserts the employee hired now under the next serial; a fault returns its message and changes nothing |
| Employees.Delete | src/repositories/employee.ts:57-63 | a soft delete: `left_at` becomes now, the row and all others stay |
| Employees.GetByClient | src/repositories/employee.ts:65-73 | the client's employee row with the lowest key; `None` exactly when there is none |
| Employees.FiredStillFound | src/repositories/employee.ts:57-73 | a fired employee is still found by client |
| Employees.GetExpanded | src/repositories/employee.ts:75-96 | every employee with an existing client, joined with that client's public columns, in key order |
| Memberships.Schemas | src/repositories/membership.ts:16-28 | the membership schemas, key by key, as Zod rules per field |
| Memberships.SubscribeAccepts | src/repositories/membership.ts:17-21 | exactly a numeric card and a level name, without a membership id |
| Memberships.FreezeNeedsDigits | src/repositories/membership.ts:22-28 | exactly an all-digit `membership_id`; `Cancel` is the same schema |
| Memberships.Unexpired | src/repositories/membership.ts:35 | `expires_at >= now` |
| Memberships.Unfrozen | src/repositories/membership.ts:45 | `freezed_at is null` |
| Memberships.GetAny | src/repositories/membership.ts:30-37 | an unexpired membership of the client; `None` exactly when the client has none |
| Memberships.GetActive | src/repositories/membership.ts:39-47 | an unexpired, unfrozen membership; `None` exactly when there is none |
| Memberships.ActiveIsAny | src/repositories/membership.ts:30-47 | an active membership implies `getAny` finds one, at a key no higher |
| Memberships.FreezeAt | src/repositories/membership.ts:49-56 | `freezed_at` becomes now on that row only, and the updated row is returned |
| Memberships.Thawed | src/repositories/membership.ts:58-72 | the row `unfreeze` writes: `freezed_at` cleared, the expiry moved forward by `now - freezed_at` of the membership as read |
| Memberships.Unfreeze | src/repositories/membership.ts:58-72 | throws (modelled as `Failure(NotFrozen)`, with no change) exactly when the membership was read while not frozen; otherwise that row becomes `Thawed`: `freezed_at` cleared and the expiry moved by the time spent frozen |
| Memberships.FreezeThenUnfreeze | src/repositories/membership.ts:49-72 | freezing at t and then thawing at now gives `expiresAt + (now - t)`, still unexpired at now; thawing at the instant of freezing gives back the unfrozen membership |
| Memberships.Revoke | src/repositories/membership.ts:74-80 | the row expires now and is unfrozen; nothing else changes |
| Memberships.RevokedExpires | src/repositories/membership.ts:74-80 | a revoked membership counts as unexpired at the instant of revocation and expired right after it |
| Memberships.RevokedNotFound | src/repositories/membership.ts:30-37 | after revocation `getAny` no longer returns that membership |
| Visits.Schemas | src/repositories/visitHistory.ts:16-31 | the visit-history schemas, key by key, as Zod rules per field |
| Visits.EnterAccepts | src/repositories/visitHistory.ts:17-20 | exactly a numeric gym and, optionally, a numeric client |
| Visits.HistoryParamsParsesDigits | src/repositories/visitHistory.ts:28-30 | exactly an all-digit `client_id`, yielding its number |
| Visits.HistoryQueryNeedsTwoDatetimes | src/repositories/visitHistory.ts:25-27 | exactly a range of two date-time strings |
| Visits.AtMostOneOpen | src/repositories/visitHistory.ts:47-69 | under the invariant, a client has at most one open visit per gym |
| Visits.LatestTellsInGym | src/repositories/visitHistory.ts:48-56 | the latest visit is open exactly when the client is in the gym |
| Visits.AddOpenKeepsOneOpen | src/repositories/visitHistory.ts:56-62 | adding an open visit for someone not in the gym keeps the invariant |
| Visits.InGym | src/repositories/visitHistory.ts:47-58 | one of the client's visits to that gym has no `left_at` |
| Visits.EnterGym | src/repositories/visitHistory.ts:47-69 | "Already in the gym" when inside; otherwise a new open visit, or the fault; the invariant holds and a success means inside |
| Visits.CloseKeepsOneOpen | src/repositories/visitHistory.ts:71-82 | closing open visits keeps the invariant |
| Visits.LeaveGym | src/repositories/visitHistory.ts:71-82 | every open visit of the client at the gym is closed now, the others are unchanged, the client is no longer inside, and the closed rows are returned |
| Visits.DeleteKeepsOneOpen | src/repositories/index.ts:38-43 | deleting a visit keeps the invariant |
| Visits.History | src/repositories/visitHistory.ts:37-45 | exactly the client's visits entered within the range, with the selected columns, in key order |
| Appointments.Schemas | src/repositories/trainerAppointment.ts:16-36 | the trainer-appointment schemas, key by key, as Zod rules per field |
| Appointments.AddIsAGymForm | src/repositories/trainerAppointment.ts:17-23 | the `Add` schema accepts exactly what the gym `Add` schema accepts |
| Appointments.GetAccepts | src/repositories/trainerAppointment.ts:24-27 | an optional "true"/"false" flag and two date-times |
| Appointments.GetByClientAccepts | src/repositories/trainerAppointment.ts:28-32 | an all-digit client, the optional flag and two date-times |
| Appointments.ByClientFormAccepted | src/repositories/trainerAppointment.ts:28-32 | that form is accepted |
| Appointments.ByClientAcceptedForm | src/repositories/trainerAppointment.ts:28-32 | whatever is accepted is that form |
| Appointments.DeleteNeedsDigits | src/repositories/trainerAppointment.ts:33-35 | exactly an all-digit `trainer_appointment_id` |
| Appointments.Delete | src/repositories/trainerAppointment.ts:42-49 | revokes the appointment only when it starts after now; otherwise nothing changes |
| Appointments.WithTrainer | src/repositories/trainerAppointment.ts:51-80 | the joined row carries no password hash |
| Appointments.WithTrainerColumns | src/repositories/trainerAppointment.ts:51-80 | the joined `client_id` and `created_at` are the trainer's, not the appointment's |
| Appointments.GetByClient | src/repositories/trainerAppointment.ts:51-80 | exactly the client's appointments within the range whose trainer exists, in key order |
| Appointments.ByClientShowsTrainersId | src/repositories/trainerAppointment.ts:51-80 | each listed row's `client_id` is the trainer's client id |
| Appointments.WithClient | src/repositories/trainerAppointment.ts:82-110 | the joined row carries no password hash |
| Appointments.WithClientColumns | src/repositories/trainerAppointment.ts:82-110 | the joined row keeps the appointment's key and employee, and the client's id and creation date |
| Appointments.GetByEmployee | src/repositories/trainerAppointment.ts:82-110 | exactly the trainer's appointments within the range whose client exists, in key order |
| Payments.Schemas | src/repositories/paymentHistory.ts:61-67 | no schema is registered for `TrainerAppointment` |
| Payments.DeleteAcceptsAnyObject | src/repositories/paymentHistory.ts:66 | `z.object({})` accepts every object and keeps nothing |
| Payments.Faults.Reason | src/repositories/paymentHistory.ts:132-172 | the transaction fails with its earliest failing insert |
| Payments.MembershipSubscribe | src/repositories/paymentHistory.ts:123-173 | all three rows (payment at the level's price, membership expiring 30 days later, link) or none; the first failure is returned |
| Payments.TrainerAppoint | src/repositories/paymentHistory.ts:69-121 | payment and appointment both inserted, or neither; priced with the arguments swapped |
| Payments.AppointmentsChargeMinimum | src/repositories/paymentHistory.ts:87 | every appointment that does not end before it starts is charged 1000 |
| Payments.GetAllParsed | src/repositories/paymentHistory.ts:175-180 | always empty |
| Logger.Spaces | src/utils/logger.ts:25 | `" ".repeat(n)` |
| Logger.AddSpace | src/utils/logger.ts:24-26 | defined exactly when the word fits; the word right-aligned in spaces to that width |
| Logger.GetMaxMethodLength | src/utils/logger.ts:10-16 | undefined for no routes; otherwise the maximum width, an unregistered route counting 0 |
| Logger.RegisteredMethodsAlign | src/utils/logger.ts:52-63 | every registered route's method pads to the common width |
| Logger.AddSpaceInjective | src/utils/logger.ts:24-26 | padding keeps equal-length words distinct |
| Middleware.Allowed | src/middleware/authenticate.ts:20-34 | the path is among `allowedUrls` and the method among its listed methods |
| Middleware.AllowedExactly | src/middleware/authenticate.ts:20-36 | exactly register and login by POST, gym listing and documentation by GET pass without a session |
| Middleware.Authenticate | src/middleware/authenticate.ts:31-56 | public requests pass; others pass exactly with a non-empty header whose token `getClient` accepts, and carry that client; otherwise 401 |
| Middleware.AuthenticatedHasSession | src/middleware/authenticate.ts:45-52 | a passing token belongs to a usable session of an existing client |
| Middleware.Guarded | src/middleware/admin.ts:12-22 | the path is among `matchingUrls` and the method among its listed methods |
| Middleware.IsAdmin | src/middleware/admin.ts:33 | a staff member was found and its `employee_type` is `ADMIN` |
| Middleware.Admin | src/middleware/admin.ts:10-42 | unguarded requests pass; guarded ones pass exactly for an administrator's token; otherwise 401 |
| Middleware.GymEndpointSplit | src/middleware/admin.ts:12-15 | `/gym` is public by GET and administrator-only by POST and DELETE |
| Middleware.FiredAdminStillAdmin | src/middleware/admin.ts:31-38 | `left_at` is never checked: a fired administrator keeps admin rights |
| Routes.Revoked | src/routes/membership/index.post.ts:46-49 | only the existing membership is revoked |
| Routes.SubscribeRequest | src/routes/membership/index.post.ts:23-27 | the card key and level, present exactly when `Subscribe` accepts the body |
| Routes.SubscribeCheck | src/routes/membership/index.post.ts:23-51 | an invalid body is the Zod error; "Not found" exactly for a missing card; "Unauthorized" (401) exactly for someone else's card; "Already subscribed" exactly when the caller's unexpired membership has the requested level; otherwise it proceeds, with that membership to revoke |
| Routes.SubscribedBody | src/routes/membership/index.post.ts:62-65 | the answer reports success |
| Routes.Subscribe | src/routes/membership/index.post.ts:20-66 | a refusal writes its error and changes no table; otherwise the existing membership is revoked and the transaction's outcome is answered |
| Routes.FreezeRequest | src/routes/membership/freeze/index.post.ts:59-67 | the number of the all-digit `membership_id`, present exactly when `Freeze` accepts the body |
| Routes.FreezeCheck | src/routes/membership/freeze/index.post.ts:59-74 | an invalid body is the Zod error; "Not found" exactly for a missing membership; "Unauthorized" exactly for another client's; "Membership expired" exactly when the requested one is the caller's and `expires_at <= now`; otherwise it proceeds with that id |
| Routes.FrozenBody | src/routes/membership/freeze/index.post.ts:78-81 | `freeze` lists the updated rows |
| Routes.Freeze | src/routes/membership/freeze/index.post.ts:56-82 | a refusal changes nothing; otherwise the membership is frozen now and answered |
| Routes.ExpiringNowCannotFreeze | src/routes/membership/freeze/index.post.ts:73-74 | a membership expiring exactly now is unexpired for `getAny`, yet the route refuses it |
| Routes.RefreezeRestartsFrozenTime | src/routes/membership/freeze/index.post.ts:65-76 | freezing a frozen membership again resets `freezed_at`, losing the earlier frozen time |
| Routes.LoginRequest | src/routes/client/login.post.ts:64-68 | the e-mail and password, present exactly when `SignIn` accepts the body |
| Routes.LoginCheck | src/routes/client/login.post.ts:64-80 | an invalid body is the Zod error; "Not found" exactly when no client has the e-mail; "Incorrect password" exactly when the client found has another hash; otherwise it proceeds with that client |
| Routes.CorrectCredentialsLogIn | src/routes/client/login.post.ts:74-82 | with unique e-mails, the client with the address logs in exactly when the password's hash matches, and is told "Incorrect password" otherwise |
| Routes.LoggedInBody | src/routes/client/login.post.ts:85-92 | the answer omits the password hash and the session's client id |
| Routes.Login | src/routes/client/login.post.ts:61-93 | a refusal changes nothing; otherwise a session is created, or a duplicate token or fault is answered 400 |
| Routes.VisitTarget | src/routes/gym/visit/index.post.ts:87-90 | the body's `client_id` when present, else the caller |
| Routes.ForeignKeyViolation | src/database/migrations/1.index.ts:152-165 | the message PostgreSQL gives when a `visit_history` insert names a missing client or gym |
| Routes.VisitCheck | src/routes/gym/visit/index.post.ts:68-85 | an invalid body is the Zod error; 401 exactly when a truthy `client_id` is given by a non-administrator; otherwise it proceeds for the target client and the gym |
| Routes.ZeroClientIdTargetsClientZero | src/routes/gym/visit/index.post.ts:77-90 | `client_id: 0` passes the admin guard yet targets client 0 |
| Routes.EnteredBody | src/routes/gym/visit/index.post.ts:93-98 | the answer omits the visit's client id |
| Routes.EnterVisit | src/routes/gym/visit/index.post.ts:87-98 | a negative id fails its foreign key; otherwise "Already in the gym", the fault, or a new open visit is answered; the one-open-visit invariant holds |
| Routes.Visit | src/routes/gym/visit/index.post.ts:65-99 | a refusal changes nothing; otherwise the visit is entered as `EnterVisit` says |

## Left out

- Express, Kysely and PostgreSQL I/O is not modelled. A table is a `map` from serial key to row. Database failures other than the ones the model derives enter as `fault` parameters.
- Concurrency is not modelled: two requests racing on one table cannot be expressed.
- An unordered `SELECT ... executeTakeFirst()` is modelled as returning the row with the lowest key, and an unordered `SELECT` as returning rows in key order. PostgreSQL promises neither.
- A failed insert consumes a serial in PostgreSQL, but the model keeps the serial unchanged. A rolled-back transaction restores the saved serial.
- Date strings are modelled by the instants they parse to. `new Date(string)` parsing, invalid dates and `NaN` are not modelled.
- Local time is modelled as UTC: `getDate`, `setDate`, `setHours` and `getFullYear` use a zero UTC offset.
- `Payments.TrainerAppoint`: `new Date(undefined)` is an invalid date, but the model takes the creation time as a parameter.
- HMAC-SHA512, UTF-8 encoding and `JSON.stringify` are uninterpreted functions in `Sessions.Env`. The salt comes from the environment.
- Values.Num: JSON numbers are modelled as unbounded integers. Fractions such as `1.5`, ids outside PostgreSQL's `integer` range and digit strings above 2^53 that `Number` rounds are not modelled. So the "Not found" and proceed conditions of `Routes.SubscribeCheck` (for `bank_card_id`) and `Routes.FreezeCheck` (for `membership_id`) hold only for ids PostgreSQL accepts; a larger id makes PostgreSQL throw an out-of-range error instead.
- JavaScript strings are modelled as sequences of characters. UTF-16 code units and surrogate pairs are not.
- Zod is modelled only as far as the schemas use it. An issue records only its path. Zod's messages and codes are left out, and so is the order of the checks within one string's chain, which changes nothing here because those issues share their path. `email`, `url`, `datetime` and `date` formats are predicates in `Zod.Formats`.
- Sessions.YieldJWT, Sessions.Create, Memberships.Unfreeze, Logger.AddSpace: where the source throws, the model returns a `Failure` carrying the exception's message. These are the `TypeError` for a missing client in `yieldJWT`, the `TypeError` of `freezed_at.getTime()` on an unfrozen membership, and the `RangeError` of `" ".repeat` with a negative count. So `Sessions.Create` does not tell the rejected promise of `yieldJWT` apart from the `Error` value that `add` returns, although a caller such as `assertError` handles only the latter.
- `Api.GetAPIVersion` models `+s` only for digit strings and the empty string. Signs, spaces, hexadecimal and exponents are left out.
- The logger's colours and console output are left out. `colorizeMethod` and `logRoutes` are modelled only through the alignment of the method column.
- `allowedUrls` is a plain object, so a path such as `constructor` would find inherited properties. The model uses a map with only the listed keys.
- Migrations that disagree with the repositories follow the repositories' use. The `freezed_at` column is `NOT NULL`, yet memberships are inserted without it, so `freezed_at` is optional. The `employee` table has no `hired_at` column, yet `add` inserts one, so `Employees.Add` keeps the hiring time on the row.
- The visit route derives a foreign-key violation only for negative ids. A non-negative client or gym that does not exist fails through the `fault` parameter.
- The other routes are pass-through calls to the modelled repositories, or read-only `GET`s. They are not modelled one by one.
- The payment-history `Schemas` registers nothing for `TrainerAppointment`, so a route that looks it up gets `undefined`. The model exposes that as `None` and goes no further.
- Sessions are not created through the `Create` schema, which rejects everything. `Sessions.Create` models `create()` directly.
- `Visits.EnterGym` and `Visits.LeaveGym` are the repository's `enter` and `leave`. `Memberships.FreezeAt` is its `freeze`. They are named apart from the schema keys `Enter`, `Leave` and `Freeze`.
- `Employees.Add`: the hiring time is `now`, as the repository sets `hired_at` itself. Validation of the insertable happens in the route, which is not modelled.

=== FILE: api.dfy ===
/** Error responses and the API version. */
module Api {
  import opened Wrappers
  import opened Values
  import Zod
  import Decimal

  /** What a route hands to `throwError`: a plain value (a string, an object or
      an array), an `Error`, or a `ZodError` with its issues. */
  datatype Thrown =
    | Plain(value: Value)
    | Error(message: string)
    | ZodError(issues: seq<Zod.Issue>)

  /** `error instanceof Error`; a `ZodError` is an `Error` too. */
  predicate IsError(e: Thrown) {
    !e.Plain?
  }

  /** The status code of `throwError`: 401 only for the string `"Unauthorized"`. */
  function StatusCode(e: Thrown): (code: int)
    ensures code == 401 <==> e == Plain(Str("Unauthorized"))
    ensures code == 401 || code == 400
  {
    if e.Plain? && e.value == Str("Unauthorized") then 401 else 400
  }

  /** A step of an issue's path in JSON: a key is a string, an index a number. */
  function PathValue(key: Zod.PathKey): Value {
    match key
    case Key(name) => Str(name)
    case At(index) => Num(index)
  }

  /** A Zod issue as the client receives it. */
  function IssueValue(issue: Zod.Issue): Value {
    Obj(map["path" := Arr(seq(|issue.path|, i requires 0 <= i < |issue.path| => PathValue(issue.path[i])))])
  }

  function IssuesValue(issues: seq<Zod.Issue>): (v: Value)
    ensures v.Arr? && |v.items| == |issues|
  {
    Arr(seq(|issues|, i requires 0 <= i < |issues| => IssueValue(issues[i])))
  }

  /** What is sent under `error`: the value itself when it is not an `Error`,
      the issues of a `ZodError`, the message of any other `Error`. */
  function Reported(e: Thrown): Value {
    match e
    case Plain(v) => v
    case Error(message) => Str(message)
    case ZodError(issues) => IssuesValue(issues)
  }

  /** The JSON body `{ success: false, error }` of an error response. */
  function ErrorBody(e: Thrown): (body: Value)
    ensures body.Obj? && body.fields.Keys == {"success", "error"}
    ensures body.fields["success"] == Bool(false)
    ensures body.fields["error"] == Reported(e)
  {
    Obj(map["success" := Bool(false), "error" := Reported(e)])
  }

  /** An `Error` whose message is `"Unauthorized"` is still a 400. */
  lemma UnauthorizedErrorIsBadRequest()
    ensures StatusCode(Error("Unauthorized")) == 400
    ensures StatusCode(Plain(Str("Unauthorized"))) == 401
  {
  }

  /** The body does not tell a thrown string from an `Error` with that message;
      only the status can differ, and it does only for `"Unauthorized"`. */
  lemma StringAndErrorShareBody(message: string)
    ensures ErrorBody(Plain(Str(message))) == ErrorBody(Error(message))
    ensures StatusCode(Plain(Str(message))) != StatusCode(Error(message)) <==> message == "Unauthorized"
  {
  }

  /** The body names what went wrong: two error responses with the same body
      and status came from the same reported value. */
  lemma ErrorBodyReports(e1: Thrown, e2: Thrown)
    requires ErrorBody(e1) == ErrorBody(e2)
    ensures Reported(e1) == Reported(e2)
  {
  }

  /** The Express response object: status and JSON body, `None` until sent. */
  class Response {
    var status: int
    var body: Option<Value>

    constructor ()
      ensures status == 200 && body.None?
    {
      status := 200;
      body := None;
    }

    /** `throwError(res, error)`: `res.status(code).json(body)`. */
    method ThrowError(e: Thrown)
      modifies this
      ensures status == StatusCode(e)
      ensures body == Some(ErrorBody(e))
    {
      status := StatusCode(e);
      body := Some(ErrorBody(e));
    }

    /** `res.json(value)`: the body is sent with the status set so far. */
    method Json(value: Value)
      modifies this
      ensures status == old(status) && body == Some(value)
    {
      body := Some(value);
    }

    /** `assertError(data, res)`: whether `data` is an `Error` (here a
        `Failure` with its message); only then is an error response written,
        and it is always a 400. */
    method AssertError<T>(data: Result<T, string>) returns (isError: bool)
      modifies this
      ensures isError <==> data.Failure?
      ensures data.Failure? ==> status == 400 && body == Some(ErrorBody(Error(data.error)))
      ensures data.Success? ==> status == old(status) && body == old(body)
    {
      if data.Failure? {
        ThrowError(Error(data.error));
      }
      isError := data.Failure?;
    }
  }

  /** `version.split(".")[0]`: the text before the first `"."`. */
  function Major(version: string): (s: string)
    ensures |s| <= |version| && s == version[..|s|]
    ensures '.' !in s
    ensures |s| < |version| ==> version[|s|] == '.'
  {
    if |version| == 0 || version[0] == '.' then ""
    else [version[0]] + Major(version[1..])
  }

  /** `getAPIVersion()`: `+` applied to the major part of the package version.
      The empty string gives 0 and a digit string its value; any other text is
      `None`, standing for `NaN`. */
  function GetAPIVersion(version: string): (v: Option<nat>)
    ensures v.Some? <==> Major(version) == "" || Decimal.IsDigits(Major(version))
    ensures Major(version) == "" ==> v == Some(0)
  {
    var major := Major(version);
    if major == "" then Some(0)
    else if Decimal.IsDigits(major) then Some(Decimal.Value(major))
    else None
  }

  /** `getAPIVersion` reads back the major number of a `major.rest` version. */
  lemma {:induction false} VersionOfRelease(major: nat, rest: string)
    ensures GetAPIVersion(Decimal.NatToString(major) + "." + rest) == Some(major)
  {
    var m := Decimal.NatToString(major);
    var version := m + "." + rest;
    Decimal.NatToStringRoundTrip(major);
    MajorOfPrefix(m, rest);
  }

  /** The major part of `m + "." + rest` is `m` when `m` has no `"."`. */
  lemma {:induction false} MajorOfPrefix(m: string, rest: string)
    requires '.' !in m
    ensures Major(m + "." + rest) == m
    decreases |m|
  {
    if |m| > 0 {
      assert (m + "." + rest)[1..] == m[1..] + "." + rest;
      MajorOfPrefix(m[1..], rest);
      assert m == [m[0]] + m[1..];
    }
  }

  /** The route prefix `/v${getAPIVersion()}`; `NaN` prints as `NaN`. */
  function VersionPrefix(version: string): (p: string)
    ensures |p| >= 3 && p[..2] == "/v"
  {
    match GetAPIVersion(version)
    case Some(n) => "/v" + Decimal.NatToString(n)
    case None => "/vNaN"
  }
}

=== FILE: appointments.dfy ===
/** The trainer-appointment repository: cancelling a future appointment, the
    appointments of a client and of a trainer within a range, and the schemas. */
module Appointments {
  import opened Wrappers
  import opened Values
  import Zod
  import Decimal
  import opened Tables
  import Rows
  import Repository
  import Gyms

  datatype SchemaKey = Add | Delete | Get | GetByClient

  /** The labels `as_employee` may take. */
  const Flags: seq<string> := ["true", "false"]

  /** The schema registered under each key. */
  function Schemas(key: SchemaKey): Zod.Schema {
    match key
    case Add => [
      ("gym_id", Zod.Undefined),
      ("city", Zod.Text(1, Some(Tables.AddressWidth), Zod.Any)),
      ("street", Zod.Text(1, Some(Tables.AddressWidth), Zod.Any)),
      ("building", Zod.Text(1, Some(Tables.AddressWidth), Zod.Any)),
      ("description", Zod.Text(0, None, Zod.Any))]
    case Get => [("as_employee", Zod.Optional(Zod.Enum(Flags))), ("range", Zod.Datetimes(2))]
    case GetByClient => [
      ("client_id", Zod.Text(0, None, Zod.Digits)),
      ("as_employee", Zod.Optional(Zod.Enum(Flags))),
      ("range", Zod.Datetimes(2))]
    case Delete => [("trainer_appointment_id", Zod.Text(0, None, Zod.Digits))]
  }

  /** The `Add` schema describes a gym's address, not an appointment: it
      accepts exactly what the gym repository's `Add` accepts. */
  lemma AddIsAGymForm(fmts: Zod.Formats, data: Value)
    ensures Zod.Validate(Schemas(Add), fmts, data).Success? <==> data.Obj? && Gyms.AddForm(data.fields)
  {
    assert Schemas(Add) == Gyms.Schemas(Gyms.Add);
    Gyms.AddAccepts(fmts, data);
  }

  /** A well-formed date range: two date-time strings. */
  predicate RangeField(fmts: Zod.Formats, f: map<string, Value>) {
    "range" in f && f["range"].Arr? && |f["range"].items| == 2 &&
    f["range"].items[0].Str? && fmts.datetime(f["range"].items[0].s) &&
    f["range"].items[1].Str? && fmts.datetime(f["range"].items[1].s)
  }

  /** `as_employee`, when present, is `"true"` or `"false"`. */
  predicate FlagField(f: map<string, Value>) {
    "as_employee" in f ==> f["as_employee"].Str? && f["as_employee"].s in Flags
  }

  /** `Get` accepts an optional flag and a range of two date-times. */
  lemma GetAccepts(fmts: Zod.Formats, data: Value)
    ensures Zod.Validate(Schemas(Get), fmts, data).Success? <==>
      data.Obj? && FlagField(data.fields) && RangeField(fmts, data.fields)
  {
    var schema := Schemas(Get);
    if data.Obj? && Zod.AllAccept(schema, fmts, data.fields) {
      assert Zod.Accepts(schema[0].1, fmts, Lookup(data.fields, schema[0].0));
      assert Zod.Accepts(schema[1].1, fmts, Lookup(data.fields, schema[1].0));
    }
  }

  /** The query of `getByClient`: a digit-string client id, which stays a
      string, an optional flag and a range of two date-times. */
  predicate ByClientForm(fmts: Zod.Formats, f: map<string, Value>) {
    "client_id" in f && f["client_id"].Str? && Decimal.IsDigits(f["client_id"].s) &&
    FlagField(f) && RangeField(fmts, f)
  }

  lemma GetByClientAccepts(fmts: Zod.Formats, data: Value)
    ensures Zod.Validate(Schemas(SchemaKey.GetByClient), fmts, data).Success? <==>
      data.Obj? && ByClientForm(fmts, data.fields)
  {
    if data.Obj? {
      if ByClientForm(fmts, data.fields) {
        ByClientFormAccepted(fmts, data.fields);
      }
      if Zod.AllAccept(Schemas(SchemaKey.GetByClient), fmts, data.fields) {
        ByClientAcceptedForm(fmts, data.fields);
      }
    }
  }

  lemma ByClientFormAccepted(fmts: Zod.Formats, f: map<string, Value>)
    requires ByClientForm(fmts, f)
    ensures Zod.AllAccept(Schemas(SchemaKey.GetByClient), fmts, f)
  {
    var schema := Schemas(SchemaKey.GetByClient);
    forall i | 0 <= i < |schema| ensures Zod.Accepts(schema[i].1, fmts, Lookup(f, schema[i].0)) {
    }
  }

  lemma ByClientAcceptedForm(fmts: Zod.Formats, f: map<string, Value>)
    requires Zod.AllAccept(Schemas(SchemaKey.GetByClient), fmts, f)
    ensures ByClientForm(fmts, f)
  {
    var schema := Schemas(SchemaKey.GetByClient);
    assert Zod.Accepts(schema[0].1, fmts, Lookup(f, schema[0].0));
    assert Zod.Accepts(schema[1].1, fmts, Lookup(f, schema[1].0));
    assert Zod.Accepts(schema[2].1, fmts, Lookup(f, schema[2].0));
  }

  /** `Delete` accepts exactly a digit-string `trainer_appointment_id`. */
  lemma DeleteNeedsDigits(fmts: Zod.Formats, data: Value)
    ensures Zod.Validate(Schemas(SchemaKey.Delete), fmts, data).Success? <==>
      (data.Obj? && "trainer_appointment_id" in data.fields && data.fields["trainer_appointment_id"].Str? &&
       Decimal.IsDigits(data.fields["trainer_appointment_id"].s))
  {
    var schema := Schemas(SchemaKey.Delete);
    if data.Obj? && Zod.AllAccept(schema, fmts, data.fields) {
      assert Zod.Accepts(schema[0].1, fmts, Lookup(data.fields, schema[0].0));
    }
  }

  /** `delete(trainer_appointment_id)`: the appointment is revoked if it is
      still to come (`appointed_at > now`); a past or current one, or a
      missing one, is left as it is. */
  method Delete(appointments: Repository.Table<TrainerAppointment>, id: nat, now: int)
    requires appointments.Valid()
    modifies appointments
    ensures appointments.Valid() && appointments.nextId == old(appointments.nextId)
    ensures id in old(appointments.rows) && old(appointments.rows)[id].appointedAt > now ==>
      appointments.rows == old(appointments.rows)[id := old(appointments.rows)[id].(revoked := true)]
    ensures !(id in old(appointments.rows) && old(appointments.rows)[id].appointedAt > now) ==>
      appointments.rows == old(appointments.rows)
  {
    appointments.UpdateRow(id, (a: TrainerAppointment) => if a.appointedAt > now then a.(revoked := true) else a);
  }

  /** The appointment falls within the closed range `from..to`. */
  predicate AppointedWithin(a: TrainerAppointment, from: int, to: int) {
    from <= a.appointedAt <= to
  }

  /** The inner joins of `getByClient` find the appointment's employee and
      that employee's client. */
  predicate TrainerJoins(a: TrainerAppointment, employees: map<nat, Employee>, clients: map<nat, Client>) {
    a.employeeId in employees && employees[a.employeeId].clientId in clients
  }

  /** A row of `getByClient`: the columns of the appointment, then of its
      employee, then of the employee's client, each overwriting the
      same-named columns before it, with `password_hash` removed. So
      `client_id` and `created_at` are the trainer's, not the appointment's. */
  function WithTrainer(id: nat, a: TrainerAppointment, employees: map<nat, Employee>, clients: map<nat, Client>)
    : (r: map<string, Value>)
    requires TrainerJoins(a, employees, clients)
    ensures "password_hash" !in r
  {
    var e := employees[a.employeeId];
    (Rows.AppointmentValue(id, a).fields + Rows.EmployeeValue(a.employeeId, e).fields +
     Rows.ClientValue(e.clientId, clients[e.clientId]).fields) - {"password_hash"}
  }

  /** In a `getByClient` row the appointment's key survives, while `client_id`
      and `created_at` are those of the trainer's client row. */
  lemma WithTrainerColumns(id: nat, a: TrainerAppointment, employees: map<nat, Employee>, clients: map<nat, Client>)
    requires TrainerJoins(a, employees, clients)
    ensures var r := WithTrainer(id, a, employees, clients);
      "trainer_appointment_id" in r && r["trainer_appointment_id"] == Num(id) &&
      "client_id" in r && r["client_id"] == Num(employees[a.employeeId].clientId) &&
      "created_at" in r && r["created_at"] == Time(clients[employees[a.employeeId].clientId].createdAt)
  {
  }

  /** `getByClient(client_id, range)`: the client's appointments within the
      range, both ends included, whose trainer and trainer's client exist,
      each joined as `WithTrainer` says, in key order. */
  function GetByClient(rows: map<nat, TrainerAppointment>, bound: nat, employees: map<nat, Employee>,
                       clients: map<nat, Client>, clientId: nat, from: int, to: int)
    : (out: seq<(nat, map<string, Value>)>)
    ensures forall k :: 0 <= k < |out| ==>
      var id := out[k].0;
      id in rows && rows[id].clientId == clientId && AppointedWithin(rows[id], from, to) &&
      TrainerJoins(rows[id], employees, clients) && out[k].1 == WithTrainer(id, rows[id], employees, clients)
    ensures forall k, l :: 0 <= k < l < |out| ==> out[k].0 < out[l].0
    ensures Repository.Bounded(rows, bound) ==>
      forall id :: id in rows && rows[id].clientId == clientId && AppointedWithin(rows[id], from, to) &&
        TrainerJoins(rows[id], employees, clients)
        ==> exists k :: 0 <= k < |out| && out[k].0 == id
  {
    var selected := Repository.Select(rows, bound, (id: nat, a: TrainerAppointment) =>
      a.clientId == clientId && AppointedWithin(a, from, to) && TrainerJoins(a, employees, clients));
    var out := seq(|selected|, k requires 0 <= k < |selected| =>
      (selected[k].0, WithTrainer(selected[k].0, selected[k].1, employees, clients)));
    assert forall k :: 0 <= k < |out| ==> out[k].0 == selected[k].0;
    out
  }

  /** The requesting client's id does not survive the join: every row of
      `getByClient` carries its trainer's client id instead. */
  lemma ByClientShowsTrainersId(rows: map<nat, TrainerAppointment>, bound: nat, employees: map<nat, Employee>,
                                clients: map<nat, Client>, clientId: nat, from: int, to: int, k: nat)
    requires k < |GetByClient(rows, bound, employees, clients, clientId, from, to)|
    ensures var row := GetByClient(rows, bound, employees, clients, clientId, from, to)[k];
      row.0 in rows && rows[row.0].employeeId in employees &&
      "client_id" in row.1 && row.1["client_id"] == Num(employees[rows[row.0].employeeId].clientId)
  {
    var row := GetByClient(rows, bound, employees, clients, clientId, from, to)[k];
    WithTrainerColumns(row.0, rows[row.0], employees, clients);
  }

  /** A row of `getByEmployee`: the appointment's columns overwritten by its
      client's, with `password_hash` removed. So `created_at` is the client's. */
  function WithClient(id: nat, a: TrainerAppointment, clients: map<nat, Client>): (r: map<string, Value>)
    requires a.clientId in clients
    ensures "password_hash" !in r
  {
    (Rows.AppointmentValue(id, a).fields + Rows.ClientValue(a.clientId, clients[a.clientId]).fields) - {"password_hash"}
  }

  /** In a `getByEmployee` row the appointment's key, trainer and client
      survive, while `created_at` is the client row's, not the appointment's. */
  lemma WithClientColumns(id: nat, a: TrainerAppointment, clients: map<nat, Client>)
    requires a.clientId in clients
    ensures var r := WithClient(id, a, clients);
      "trainer_appointment_id" in r && r["trainer_appointment_id"] == Num(id) &&
      "employee_id" in r && r["employee_id"] == Num(a.employeeId) &&
      "client_id" in r && r["client_id"] == Num(a.clientId) &&
      "created_at" in r && r["created_at"] == Time(clients[a.clientId].createdAt)
  {
  }

  /** `getByEmployee(employee_id, range)`: the trainer's appointments within
      the range, both ends included, whose client exists, each joined as
      `WithClient` says, in key order. */
  function GetByEmployee(rows: map<nat, TrainerAppointment>, bound: nat, clients: map<nat, Client>,
                         employeeId: nat, from: int, to: int)
    : (out: seq<(nat, map<string, Value>)>)
    ensures forall k :: 0 <= k < |out| ==>
      var id := out[k].0;
      id in rows && rows[id].employeeId == employeeId && AppointedWithin(rows[id], from, to) &&
      rows[id].clientId in clients && out[k].1 == WithClient(id, rows[id], clients)
    ensures forall k, l :: 0 <= k < l < |out| ==> out[k].0 < out[l].0
    ensures Repository.Bounded(rows, bound) ==>
      forall id :: id in rows && rows[id].employeeId == employeeId && AppointedWithin(rows[id], from, to) &&
        rows[id].clientId in clients
        ==> exists k :: 0 <= k < |out| && out[k].0 == id
  {
    var selected := Repository.Select(rows, bound, (id: nat, a: TrainerAppointment) =>
      a.employeeId == employeeId && AppointedWithin(a, from, to) && a.clientId in clients);
    var out := seq(|selected|, k requires 0 <= k < |selected| =>
      (selected[k].0, WithClient(selected[k].0, selected[k].1, clients)));
    assert forall k :: 0 <= k < |out| ==> out[k].0 == selected[k].0;
    out
  }
}

=== FILE: bankcards.dfy ===
/** The bank-card repository: its validation schemas and the cards of a client. */
module BankCards {
  import opened Wrappers
  import opened Values
  import Zod
  import Tables
  import Repository

  datatype SchemaKey = Add | Delete | Get

  /** The schema registered under each key. */
  function Schemas(key: SchemaKey): Zod.Schema {
    match key
    case Add => [
      ("bank_card_id", Zod.Undefined),
      ("client_id", Zod.Undefined),
      ("card_number", Zod.Text(1, Some(Tables.CardNumberWidth), Zod.Any)),
      ("cardholder_name", Zod.Text(1, Some(Tables.CardholderWidth), Zod.Any)),
      ("expires_at", Zod.Text(0, None, Zod.Date)),
      ("cvv", Zod.Text(1, Some(Tables.CvvWidth), Zod.Any))]
    case Delete => [("bank_card_id", Zod.Number)]
    case Get => [("client_id", Zod.Optional(Zod.Number))]
  }

  /** The new-card form: no card or client id, a card number of 1 to 20
      characters, a cardholder name of 1 to 255, a date, and a CVV of 1 to 4. */
  predicate AddForm(fmts: Zod.Formats, f: map<string, Value>) {
    && "bank_card_id" !in f && "client_id" !in f
    && Zod.HasText(f, "card_number", 1, 20)
    && Zod.HasText(f, "cardholder_name", 1, 255)
    && "expires_at" in f && f["expires_at"].Str? && fmts.date(f["expires_at"].s)
    && Zod.HasText(f, "cvv", 1, 4)
  }

  lemma AddAccepts(fmts: Zod.Formats, data: Value)
    ensures Zod.Validate(Schemas(Add), fmts, data).Success? <==> data.Obj? && AddForm(fmts, data.fields)
  {
    if data.Obj? {
      if AddForm(fmts, data.fields) {
        AddFormAccepted(fmts, data.fields);
      }
      if Zod.AllAccept(Schemas(Add), fmts, data.fields) {
        AddAcceptedForm(fmts, data.fields);
      }
    }
  }

  lemma AddFormAccepted(fmts: Zod.Formats, f: map<string, Value>)
    requires AddForm(fmts, f)
    ensures Zod.AllAccept(Schemas(Add), fmts, f)
  {
    var schema := Schemas(Add);
    forall i | 0 <= i < |schema| ensures Zod.Accepts(schema[i].1, fmts, Lookup(f, schema[i].0)) {
    }
  }

  lemma AddAcceptedForm(fmts: Zod.Formats, f: map<string, Value>)
    requires Zod.AllAccept(Schemas(Add), fmts, f)
    ensures AddForm(fmts, f)
  {
    var schema := Schemas(Add);
    assert Zod.Accepts(schema[0].1, fmts, Lookup(f, schema[0].0));
    assert Zod.Accepts(schema[1].1, fmts, Lookup(f, schema[1].0));
    assert Zod.Accepts(schema[2].1, fmts, Lookup(f, schema[2].0));
    assert Zod.Accepts(schema[3].1, fmts, Lookup(f, schema[3].0));
    assert Zod.Accepts(schema[4].1, fmts, Lookup(f, schema[4].0));
    assert Zod.Accepts(schema[5].1, fmts, Lookup(f, schema[5].0));
  }

  /** Whatever `Add` accepts fits the `bank_card` columns. */
  lemma AddFits(fmts: Zod.Formats, data: Value)
    requires Zod.Validate(Schemas(Add), fmts, data).Success?
    ensures var f := data.fields;
      && "card_number" in f && f["card_number"].Str? && Tables.Fits(f["card_number"].s, Tables.CardNumberWidth)
      && "cardholder_name" in f && f["cardholder_name"].Str?
      && Tables.Fits(f["cardholder_name"].s, Tables.CardholderWidth)
      && "cvv" in f && f["cvv"].Str? && Tables.Fits(f["cvv"].s, Tables.CvvWidth)
  {
    AddAccepts(fmts, data);
  }

  /** `Delete` accepts exactly an object whose `bank_card_id` is a number. */
  lemma DeleteNeedsNumber(fmts: Zod.Formats, data: Value)
    ensures Zod.Validate(Schemas(Delete), fmts, data).Success? <==>
      (data.Obj? && "bank_card_id" in data.fields && data.fields["bank_card_id"].Num?)
  {
    var schema := Schemas(Delete);
    if data.Obj? && Zod.AllAccept(schema, fmts, data.fields) {
      assert Zod.Accepts(schema[0].1, fmts, Lookup(data.fields, schema[0].0));
    }
  }

  /** `getByClient(client_id)`: every card of the client, in key order. */
  function GetByClient(rows: map<nat, Tables.BankCard>, bound: nat, clientId: nat): (out: seq<(nat, Tables.BankCard)>)
    ensures forall k :: 0 <= k < |out| ==> out[k].0 in rows && rows[out[k].0] == out[k].1 && out[k].1.clientId == clientId
    ensures Repository.Bounded(rows, bound) ==> forall id :: id in rows && rows[id].clientId == clientId ==>
      exists k :: 0 <= k < |out| && out[k].0 == id
  {
    Repository.Select(rows, bound, (id: nat, c: Tables.BankCard) => c.clientId == clientId)
  }
}

=== FILE: base64.dfy ===
/** The base64url encoding of section 5 of RFC 4648 without padding, as
    `Buffer.prototype.toString("base64url")` produces it, and its decoding. */
module Base64 {
  import opened Wrappers

  newtype byte = x: int | 0 <= x < 256

  /** The URL- and filename-safe alphabet: `A-Z`, `a-z`, `0-9`, `-`, `_`, for
      the values 0..25, 26..51, 52..61, 62 and 63. */
  predicate InAlphabet(c: char) {
    'A' <= c <= 'Z' || 'a' <= c <= 'z' || '0' <= c <= '9' || c == '-' || c == '_'
  }

  /** The character for a 6-bit value. */
  function Char(k: nat): (c: char)
    requires k < 64
    ensures InAlphabet(c)
  {
    if k < 26 then 'A' + k as char
    else if k < 52 then 'a' + (k - 26) as char
    else if k < 62 then '0' + (k - 52) as char
    else if k == 62 then '-'
    else '_'
  }

  /** The 6-bit value of a character, if it is in the alphabet. */
  function Index(c: char): (k: Option<nat>)
    ensures k.Some? <==> InAlphabet(c)
    ensures k.Some? ==> k.value < 64 && Char(k.value) == c
  {
    if 'A' <= c <= 'Z' then Some((c - 'A') as nat)
    else if 'a' <= c <= 'z' then Some((c - 'a') as nat + 26)
    else if '0' <= c <= '9' then Some((c - '0') as nat + 52)
    else if c == '-' then Some(62)
    else if c == '_' then Some(63)
    else None
  }

  lemma IndexOfChar(k: nat)
    requires k < 64
    ensures Index(Char(k)) == Some(k)
  {
  }

  /** Three bytes as one 24-bit number, and back. */
  function Join3(b0: byte, b1: byte, b2: byte): (n: nat)
    ensures n < 0x100_0000
  {
    (b0 as nat) * 0x1_0000 + (b1 as nat) * 0x100 + b2 as nat
  }

  /** The characters of a sequence of 6-bit values. */
  function Chars(ks: seq<nat>): (s: string)
    requires forall i :: 0 <= i < |ks| ==> ks[i] < 64
    ensures |s| == |ks|
    ensures forall i :: 0 <= i < |s| ==> s[i] == Char(ks[i])
  {
    if |ks| == 0 then "" else [Char(ks[0])] + Chars(ks[1..])
  }

  /** The four 6-bit digits of a 24-bit number, most significant first. */
  function Digits4(n: nat): (ks: seq<nat>)
    ensures |ks| == 4 && forall i :: 0 <= i < 4 ==> ks[i] < 64
  {
    [n / 0x4_0000 % 64, n / 0x1000 % 64, n / 64 % 64, n % 64]
  }

  /** Four characters for a 24-bit number. */
  function Quad(n: nat): (s: string)
    requires n < 0x100_0000
    ensures |s| == 4
  {
    Chars(Digits4(n))
  }

  /** `Buffer.from(bytes).toString("base64url")`: every three bytes give four
      characters; a final one or two bytes give two or three characters, the
      unused low bits being zero, and no `=` padding is added. */
  function Encode(b: seq<byte>): (s: string)
    decreases |b|
    ensures forall i :: 0 <= i < |s| ==> InAlphabet(s[i])
    ensures |s| == |b| / 3 * 4 + (if |b| % 3 == 0 then 0 else |b| % 3 + 1)
  {
    if |b| >= 3 then
      Quad(Join3(b[0], b[1], b[2])) + Encode(b[3..])
    else if |b| == 2 then
      Quad(Join3(b[0], b[1], 0))[..3]
    else if |b| == 1 then
      Quad(Join3(b[0], 0, 0))[..2]
    else
      ""
  }

  /** The 24-bit number of four 6-bit values. */
  function Join4(c0: nat, c1: nat, c2: nat, c3: nat): nat {
    c0 * 0x4_0000 + c1 * 0x1000 + c2 * 64 + c3
  }

  /** The 6-bit values of a group of characters, if all are in the alphabet. */
  function Sextets(s: string): (r: Option<seq<nat>>)
    ensures r.Some? ==> |r.value| == |s| && forall i :: 0 <= i < |s| ==> r.value[i] < 64
  {
    if |s| == 0 then Some([])
    else
      match (Index(s[0]), Sextets(s[1..]))
      case (Some(k), Some(ks)) => Some([k] + ks)
      case _ => None
  }

  /** The bytes of a 24-bit number. */
  function Split3(n: nat): (b: seq<byte>)
    requires n < 0x100_0000
    ensures |b| == 3
  {
    [(n / 0x1_0000) as byte, (n / 0x100 % 0x100) as byte, (n % 0x100) as byte]
  }

  /** Decoding: groups of four characters give three bytes, a final group of two
      or three characters gives one or two bytes; a final single character or a
      character outside the alphabet is rejected. */
  function Decode(s: string): (r: Option<seq<byte>>)
    decreases |s|
  {
    if |s| == 0 then Some([])
    else if |s| == 1 then None
    else
      var group := if |s| >= 4 then s[..4] else s + (if |s| == 2 then "AA" else "A");
      match Sextets(group)
      case None => None
      case Some(ks) =>
        var bytes := Split3(Join4(ks[0], ks[1], ks[2], ks[3]));
        if |s| >= 4 then
          match Decode(s[4..])
          case None => None
          case Some(rest) => Some(bytes + rest)
        else
          Some(bytes[..|s| - 1])
  }

  /** Reading the characters of 6-bit values gives the values back. */
  lemma {:induction false} SextetsOfChars(ks: seq<nat>)
    requires forall i :: 0 <= i < |ks| ==> ks[i] < 64
    ensures Sextets(Chars(ks)) == Some(ks)
  {
    if |ks| > 0 {
      var s := Chars(ks);
      assert s[1..] == Chars(ks[1..]);
      SextetsOfChars(ks[1..]);
      IndexOfChar(ks[0]);
      assert [ks[0]] + ks[1..] == ks;
    }
  }

  /** A number below 2^24 in base 64. */
  lemma DigitsOf(n: nat)
    requires n < 0x100_0000
    ensures var ks := Digits4(n); Join4(ks[0], ks[1], ks[2], ks[3]) == n
  {
    var a, b, c := n / 64, n / 0x1000, n / 0x4_0000;
    assert c % 64 == c;
    assert n == a * 64 + n % 64;
    assert a / 64 == b;
    assert a == b * 64 + a % 64;
    assert b / 64 == c;
    assert b == c * 64 + b % 64;
  }

  /** The bytes are recovered from their 24-bit number. */
  lemma SplitJoin3(b0: byte, b1: byte, b2: byte)
    ensures var x := Split3(Join3(b0, b1, b2)); x[0] == b0 && x[1] == b1 && x[2] == b2
  {
    var n := Join3(b0, b1, b2);
    assert n / 0x100 == (b0 as nat) * 0x100 + b1 as nat;
    assert n / 0x1_0000 == b0 as nat;
  }

  /** Decoding one encoded group of three bytes. */
  lemma {:induction false} GroupRoundTrip(b0: byte, b1: byte, b2: byte)
    ensures Sextets(Quad(Join3(b0, b1, b2))) == Some(Digits4(Join3(b0, b1, b2)))
    ensures var ks := Digits4(Join3(b0, b1, b2));
      Split3(Join4(ks[0], ks[1], ks[2], ks[3])) == Split3(Join3(b0, b1, b2))
  {
    SextetsOfChars(Digits4(Join3(b0, b1, b2)));
    DigitsOf(Join3(b0, b1, b2));
    SplitJoin3(b0, b1, b2);
  }

  /** A final group padded with `A`s reads as the same group with zero bytes:
      the characters the encoder dropped stand for zero bits. */
  lemma {:induction false} ShortGroup(b0: byte, b1: byte, k: nat)
    requires k == 2 || k == 3
    requires k == 2 ==> b1 == 0
    ensures var q := Quad(Join3(b0, b1, 0));
      q[..k] + (if k == 2 then "AA" else "A") == q
  {
    var n := Join3(b0, b1, 0);
    var m := (b0 as nat) * 1024 + (b1 as nat) * 4;
    assert n == 64 * m;
    SextetShift(m);
    var q := Quad(n);
    assert q[3] == Char(0) == 'A';
    if k == 2 {
      assert m == 64 * ((b0 as nat) * 16);
      SextetShift((b0 as nat) * 16);
      assert q[2] == Char(0);
      assert q == q[..2] + "AA";
    } else {
      assert q == q[..3] + "A";
    }
  }

  /** Shifting left by six bits and back. */
  lemma SextetShift(m: nat)
    ensures (64 * m) % 64 == 0 && (64 * m) / 64 == m
  {
  }

  /** A full group in front of decodable text decodes in front of its bytes. */
  lemma DecodeGroup(q: string, rest: string, bytes: seq<byte>)
    requires |q| == 4 && Sextets(q).Some? && Decode(rest) == Some(bytes)
    ensures var ks := Sextets(q).value;
      Decode(q + rest) == Some(Split3(Join4(ks[0], ks[1], ks[2], ks[3])) + bytes)
  {
    assert (q + rest)[..4] == q;
    assert (q + rest)[4..] == rest;
  }

  /** Decoding inverts encoding. */
  lemma {:induction false} RoundTrip(b: seq<byte>)
    decreases |b|
    ensures Decode(Encode(b)) == Some(b)
  {
    var s := Encode(b);
    if |b| >= 3 {
      GroupRoundTrip(b[0], b[1], b[2]);
      RoundTrip(b[3..]);
      DecodeGroup(Quad(Join3(b[0], b[1], b[2])), Encode(b[3..]), b[3..]);
      SplitJoin3(b[0], b[1], b[2]);
      GroupThenRest(Split3(Join3(b[0], b[1], b[2])), b);
    } else {
      ShortRoundTrip(b);
    }
  }

  /** Decoding inverts encoding for a final group of fewer than three bytes. */
  lemma ShortRoundTrip(b: seq<byte>)
    requires |b| < 3
    ensures Decode(Encode(b)) == Some(b)
  {
    if |b| == 2 {
      TwoBytes(b);
    } else if |b| == 1 {
      OneByte(b);
    }
  }

  lemma TwoBytes(b: seq<byte>)
    requires |b| == 2
    ensures Decode(Encode(b)) == Some(b)
  {
    var b0, b1 := b[0], b[1];
    var q := Quad(Join3(b0, b1, 0));
    assert Encode(b) == q[..3];
    ShortGroup(b0, b1, 3);
    GroupRoundTrip(b0, b1, 0);
    DecodeShort(q[..3]);
    SplitJoin3(b0, b1, 0);
    FirstBytes(Split3(Join3(b0, b1, 0)), b);
  }

  lemma OneByte(b: seq<byte>)
    requires |b| == 1
    ensures Decode(Encode(b)) == Some(b)
  {
    var b0 := b[0];
    var q := Quad(Join3(b0, 0, 0));
    assert Encode(b) == q[..2];
    ShortGroup(b0, 0, 2);
    GroupRoundTrip(b0, 0, 0);
    DecodeShort(q[..2]);
    SplitJoin3(b0, 0, 0);
    FirstBytes(Split3(Join3(b0, 0, 0)), b);
  }

  lemma GroupThenRest(x: seq<byte>, b: seq<byte>)
    requires |x| == 3 <= |b| && x[0] == b[0] && x[1] == b[1] && x[2] == b[2]
    ensures x + b[3..] == b
  {
  }

  lemma FirstBytes(x: seq<byte>, b: seq<byte>)
    requires 1 <= |b| <= 2 && |b| <= |x|
    requires x[0] == b[0] && (|b| == 2 ==> x[1] == b[1])
    ensures x[..|b|] == b
  {
  }

  /** A final group of two or three characters decodes as if padded with `A`s. */
  lemma DecodeShort(s: string)
    requires |s| == 2 || |s| == 3
    requires Sextets(s + (if |s| == 2 then "AA" else "A")).Some?
    ensures var ks := Sextets(s + (if |s| == 2 then "AA" else "A")).value;
      Decode(s) == Some(Split3(Join4(ks[0], ks[1], ks[2], ks[3]))[..|s| - 1])
  {
  }

  /** No encoded text contains `"."`, the separator of a compact token. */
  lemma NoDot(b: seq<byte>)
    ensures '.' !in Encode(b)
  {
  }
}

=== FILE: bearer.dfy ===
/** Extraction of the token from an `Authorization` header of the form
    `Bearer <token>` (the header form of section 2.1 of RFC 6750), done the way
    `String.prototype.replace` with a string pattern does it: the first
    occurrence of `"Bearer "`, wherever it is, is removed. */
module Bearer {
  import opened Wrappers

  const Prefix: string := "Bearer "

  /** `pat` occurs in `s` starting at index `j`. */
  predicate OccursAt(s: string, pat: string, j: int) {
    0 <= j && j + |pat| <= |s| && s[j..j + |pat|] == pat
  }

  predicate Contains(s: string, pat: string) {
    exists j :: 0 <= j <= |s| && OccursAt(s, pat, j)
  }

  /** The first index at or after `i` where `pat` occurs in `s`. */
  function FindFrom(s: string, pat: string, i: nat): (r: Option<nat>)
    decreases |s| - i
    ensures r.Some? ==> i <= r.value && OccursAt(s, pat, r.value)
    ensures r.Some? ==> forall j :: i <= j < r.value ==> !OccursAt(s, pat, j)
    ensures r.None? ==> forall j :: i <= j ==> !OccursAt(s, pat, j)
  {
    if i + |pat| > |s| then None
    else if s[i..i + |pat|] == pat then Some(i)
    else FindFrom(s, pat, i + 1)
  }

  /** `s.replace(pat, rep)`: the first occurrence of `pat` replaced by `rep`. */
  function ReplaceFirst(s: string, pat: string, rep: string): (r: string)
    ensures !Contains(s, pat) ==> r == s
    ensures Contains(s, pat) ==> |r| == |s| - |pat| + |rep|
  {
    match FindFrom(s, pat, 0)
    case None => s
    case Some(i) => s[..i] + rep + s[i + |pat|..]
  }

  /** `getToken(req)`: the `Authorization` header with its first `"Bearer "`
      removed, or `""` when the request has no such header. */
  function GetToken(authorization: Option<string>): (t: string)
    ensures authorization.None? ==> t == ""
    ensures authorization.Some? && !Contains(authorization.value, Prefix) ==> t == authorization.value
    ensures authorization.Some? && Contains(authorization.value, Prefix)
      ==> |t| == |authorization.value| - |Prefix|
  {
    match authorization
    case None => ""
    case Some(h) => ReplaceFirst(h, Prefix, "")
  }

  /** A well-formed `Bearer <token>` header gives back exactly the token. */
  lemma BearerHeader(token: string)
    ensures GetToken(Some(Prefix + token)) == token
  {
    var h := Prefix + token;
    assert OccursAt(h, Prefix, 0) by { assert h[0..|Prefix|] == Prefix; }
    assert h[|Prefix|..] == token;
  }

  /** Only the first occurrence is removed, wherever it is: the characters
      before it and after it are kept in order. */
  lemma FirstOccurrenceRemoved(h: string, i: nat)
    requires OccursAt(h, Prefix, i)
    requires forall j :: 0 <= j < i ==> !OccursAt(h, Prefix, j)
    ensures GetToken(Some(h)) == h[..i] + h[i + |Prefix|..]
  {
    var r := FindFrom(h, Prefix, 0);
    assert r.Some?;
    assert r.value == i;
  }

  /** The header is returned unchanged exactly when it has no `"Bearer "`. */
  lemma UnchangedIff(h: string)
    ensures GetToken(Some(h)) == h <==> !Contains(h, Prefix)
  {
    if Contains(h, Prefix) {
      assert |GetToken(Some(h))| != |h|;
    }
  }
}

=== FILE: calendar.dfy ===
/** The proleptic Gregorian calendar on integer milliseconds since 1970-01-01T00:00Z,
    as JavaScript's `Date` computes it when the local time-zone offset is zero. */
module Calendar {
  import Decimal

  /** Milliseconds in a day (`msPerDay`). */
  const DAY: int := 86400000

  /** Year, month (1..12) and day of month (1..31). `Date.prototype.getMonth`
      counts months from 0; this model counts them from 1. */
  datatype Civil = Civil(year: int, month: int, day: int)

  predicate InRanges(c: Civil) {
    1 <= c.month <= 12 && 1 <= c.day <= 31
  }

  /** Splits a day of a 400-year era (counted from a March 1) into the year of
      the era and the day of that (March-based) year. */
  function SplitEra(doe: int): (r: (int, int))
    requires 0 <= doe < 146097
    ensures 0 <= r.0 < 400 && 0 <= r.1 <= 365
    ensures doe == r.0 * 365 + r.0 / 4 - r.0 / 100 + r.1
  {
    var c := if doe / 36524 < 3 then doe / 36524 else 3;
    var rc := doe - 36524 * c;
    var q := rc / 1461;
    var rq := rc - 1461 * q;
    var yq := if rq / 365 < 3 then rq / 365 else 3;
    var yoe := 100 * c + 4 * q + yq;
    assert yoe / 4 == 25 * c + q;
    assert yoe / 100 == c;
    (yoe, rq - 365 * yq)
  }

  /** Splits a day of a March-based year into the month counted from March (0..11)
      and the day of that month. */
  function SplitYear(doy: int): (r: (int, int))
    requires 0 <= doy <= 365
    ensures 0 <= r.0 <= 11 && 1 <= r.1 <= 31
    ensures doy == (153 * r.0 + 2) / 5 + r.1 - 1
  {
    var mp := (5 * doy + 2) / 153;
    (mp, doy - (153 * mp + 2) / 5 + 1)
  }

  /** Calendar date of day `doe` of 400-year era `era`, the era counted from
      0000-03-01. */
  function EraDate(era: int, doe: int): (c: Civil)
    requires 0 <= doe < 146097
    ensures InRanges(c)
  {
    var yd := SplitEra(doe);
    var md := SplitYear(yd.1);
    var m := if md.0 < 10 then md.0 + 3 else md.0 - 9;
    Civil(era * 400 + yd.0 + (if m <= 2 then 1 else 0), m, md.1)
  }

  /** Calendar date of day number `z` (days since 1970-01-01). */
  function ToCivil(z: int): (c: Civil)
    ensures InRanges(c)
  {
    var z1 := z + 719468;
    EraDate(z1 / 146097, z1 % 146097)
  }

  /** Day number of a calendar date (`MakeDay`); linear in the day of month, so a
      day of month past the month's end rolls into the next month. */
  function FromCivil(y: int, m: int, d: int): int
    requires 1 <= m <= 12
  {
    var y1 := if m <= 2 then y - 1 else y;
    var era := y1 / 400;
    var yoe := y1 - era * 400;
    var mp := if m > 2 then m - 3 else m + 9;
    var doy := (153 * mp + 2) / 5 + d - 1;
    era * 146097 + yoe * 365 + yoe / 4 - yoe / 100 + doy - 719468
  }

  /** `FromCivil` of a date given by its era, year of era, March-based month
      (0..11) and day. */
  lemma FromCivilParts(era: int, yoe: int, mp: int, d: int)
    requires 0 <= yoe < 400 && 0 <= mp <= 11
    ensures var m := if mp < 10 then mp + 3 else mp - 9;
      FromCivil(era * 400 + yoe + (if m <= 2 then 1 else 0), m, d)
      == era * 146097 + yoe * 365 + yoe / 4 - yoe / 100 + (153 * mp + 2) / 5 + d - 1 - 719468
  {
    var y1 := era * 400 + yoe;
    assert y1 / 400 == era;
  }

  /** `FromCivil` inverts `EraDate`. */
  lemma FromEraDate(era: int, doe: int)
    requires 0 <= doe < 146097
    ensures FromCivil(EraDate(era, doe).year, EraDate(era, doe).month, EraDate(era, doe).day)
      == era * 146097 + doe - 719468
  {
    var yd := SplitEra(doe);
    var md := SplitYear(yd.1);
    var m := if md.0 < 10 then md.0 + 3 else md.0 - 9;
    assert EraDate(era, doe) == Civil(era * 400 + yd.0 + (if m <= 2 then 1 else 0), m, md.1);
    FromCivilParts(era, yd.0, md.0, md.1);
  }

  /** Every day number is recovered from its calendar date. */
  lemma CivilRoundTrip(z: int)
    ensures FromCivil(ToCivil(z).year, ToCivil(z).month, ToCivil(z).day) == z
  {
    var z1 := z + 719468;
    var era, doe := z1 / 146097, z1 % 146097;
    assert z1 == era * 146097 + doe;
    assert ToCivil(z) == EraDate(era, doe);
    FromEraDate(era, doe);
  }

  /** Distinct days have distinct calendar dates. */
  lemma ToCivilInjective(z1: int, z2: int)
    requires ToCivil(z1) == ToCivil(z2)
    ensures z1 == z2
  {
    CivilRoundTrip(z1);
    CivilRoundTrip(z2);
  }

  /** Day number and calendar date of an instant. */
  function DayOf(t: int): int { t / DAY }

  function CivilOf(t: int): Civil { ToCivil(DayOf(t)) }

  /** `getDate()`: the day of the month. */
  function DateOf(t: int): int { CivilOf(t).day }

  /** `setDate(d)`: same year, month and time of day, day of month `d`. */
  function SetDate(t: int, d: int): int {
    FromCivil(CivilOf(t).year, CivilOf(t).month, d) * DAY + t % DAY
  }

  /** `setHours(h, m, s, ms)`: same day, the given time of day. */
  function SetHours(t: int, h: int, m: int, s: int, ms: int): int {
    DayOf(t) * DAY + ((h * 60 + m) * 60 + s) * 1000 + ms
  }

  /** Moving the day of month by `k` moves the instant by exactly `k` days, even
      across month and year ends. */
  lemma {:induction false} SetDateShift(t: int, k: int)
    ensures SetDate(t, DateOf(t) + k) == t + k * DAY
  {
    CivilRoundTrip(DayOf(t));
    var c := CivilOf(t);
    assert FromCivil(c.year, c.month, c.day + k) == FromCivil(c.year, c.month, c.day) + k;
  }

  /** `d.setDate(d.getDate() + k)`: the instant `k` calendar days later, the
      same time of day. */
  function DaysLater(t: int, k: int): (r: int)
    ensures r == t + k * DAY
  {
    SetDateShift(t, k);
    SetDate(t, DateOf(t) + k)
  }

  /** The date part of `Date.prototype.toISOString()`: `YYYY-MM-DD`, with the
      expanded `+YYYYYY`/`-YYYYYY` year form outside years 0..9999. */
  function IsoDate(c: Civil): (s: string)
    ensures |s| >= 10
  {
    var year :=
      if 0 <= c.year <= 9999 then Decimal.Pad(c.year, 4)
      else if c.year < 0 then "-" + Decimal.Pad(-c.year, 6)
      else "+" + Decimal.Pad(c.year, 6);
    year + "-" + Decimal.Pad(if c.month < 0 then 0 else c.month, 2)
    + "-" + Decimal.Pad(if c.day < 0 then 0 else c.day, 2)
  }

  /** The time part: `THH:mm:ss.sssZ` for the millisecond of the day `ms`. */
  function IsoTime(ms: nat): string {
    "T" + Decimal.Pad(ms / 3600000, 2) + ":" + Decimal.Pad(ms / 60000 % 60, 2)
    + ":" + Decimal.Pad(ms / 1000 % 60, 2) + "." + Decimal.Pad(ms % 1000, 3) + "Z"
  }

  /** `Date.prototype.toISOString()`. */
  function IsoString(t: int): string {
    IsoDate(CivilOf(t)) + IsoTime(t % DAY)
  }
}

=== FILE: clients.dfy ===
/** The client repository: its validation schemas and the lookup by e-mail. */
module Clients {
  import opened Wrappers
  import opened Values
  import Zod
  import Decimal
  import Tables
  import Repository

  datatype SchemaKey = SignUp | SignIn | Get

  /** The schema registered under each key. */
  function Schemas(key: SchemaKey): Zod.Schema {
    match key
    case SignUp => [
      ("client_id", Zod.Undefined),
      ("first_name", Zod.Text(1, Some(Tables.NameWidth), Zod.Any)),
      ("last_name", Zod.Text(1, Some(Tables.NameWidth), Zod.Any)),
      ("patronymic", Zod.Optional(Zod.Text(1, Some(Tables.PatronymicWidth), Zod.Any))),
      ("profile_picture_url", Zod.Text(1, Some(Tables.UrlWidth), Zod.Url)),
      ("email_address", Zod.Text(1, Some(Tables.EmailWidth), Zod.Email)),
      ("phone_number", Zod.Text(1, Some(Tables.PhoneWidth), Zod.Digits)),
      ("password", Zod.Text(8, None, Zod.Any))]
    case SignIn => [
      ("email_address", Zod.Text(1, Some(Tables.EmailWidth), Zod.Email)),
      ("password", Zod.Text(8, None, Zod.Any))]
    case Get => [("client_id", Zod.DigitNumber)]
  }

  /** A text field with `min <= length <= max` satisfying `ok`. */
  predicate TextField(f: map<string, Value>, key: string, min: nat, max: nat, ok: string -> bool) {
    Zod.HasText(f, key, min, max) && ok(f[key].s)
  }

  /** The sign-up form: no id, names of 1 to 50 characters, an optional
      patronymic of 1 to 64, a picture URL and an e-mail address of at most
      255, a phone number of 1 to 15 digits and a password of at least 8. */
  predicate SignUpForm(fmts: Zod.Formats, f: map<string, Value>) {
    && "client_id" !in f
    && TextField(f, "first_name", 1, 50, s => true)
    && TextField(f, "last_name", 1, 50, s => true)
    && ("patronymic" in f ==> TextField(f, "patronymic", 1, 64, s => true))
    && TextField(f, "profile_picture_url", 1, 255, fmts.url)
    && TextField(f, "email_address", 1, 255, fmts.email)
    && TextField(f, "phone_number", 1, 15, Decimal.IsDigits)
    && "password" in f && f["password"].Str? && 8 <= |f["password"].s|
  }

  lemma SignUpAccepts(fmts: Zod.Formats, data: Value)
    ensures Zod.Validate(Schemas(SignUp), fmts, data).Success? <==> data.Obj? && SignUpForm(fmts, data.fields)
  {
    if data.Obj? {
      if SignUpForm(fmts, data.fields) {
        SignUpFormAccepted(fmts, data.fields);
      }
      if Zod.AllAccept(Schemas(SignUp), fmts, data.fields) {
        SignUpAcceptedForm(fmts, data.fields);
      }
    }
  }

  lemma SignUpFormAccepted(fmts: Zod.Formats, f: map<string, Value>)
    requires SignUpForm(fmts, f)
    ensures Zod.AllAccept(Schemas(SignUp), fmts, f)
  {
    var schema := Schemas(SignUp);
    forall i | 0 <= i < |schema| ensures Zod.Accepts(schema[i].1, fmts, Lookup(f, schema[i].0)) {
    }
  }

  lemma SignUpAcceptedForm(fmts: Zod.Formats, f: map<string, Value>)
    requires Zod.AllAccept(Schemas(SignUp), fmts, f)
    ensures SignUpForm(fmts, f)
  {
    var schema := Schemas(SignUp);
    assert Zod.Accepts(schema[0].1, fmts, Lookup(f, schema[0].0));
    assert Zod.Accepts(schema[1].1, fmts, Lookup(f, schema[1].0));
    assert Zod.Accepts(schema[2].1, fmts, Lookup(f, schema[2].0));
    assert Zod.Accepts(schema[3].1, fmts, Lookup(f, schema[3].0));
    assert Zod.Accepts(schema[4].1, fmts, Lookup(f, schema[4].0));
    assert Zod.Accepts(schema[5].1, fmts, Lookup(f, schema[5].0));
    assert Zod.Accepts(schema[6].1, fmts, Lookup(f, schema[6].0));
    assert Zod.Accepts(schema[7].1, fmts, Lookup(f, schema[7].0));
  }

  /** Whatever sign-up accepts fits the `client` columns. */
  lemma SignUpFits(fmts: Zod.Formats, data: Value)
    requires Zod.Validate(Schemas(SignUp), fmts, data).Success?
    ensures var f := data.fields;
      && "first_name" in f && f["first_name"].Str? && Tables.Fits(f["first_name"].s, Tables.NameWidth)
      && "last_name" in f && f["last_name"].Str? && Tables.Fits(f["last_name"].s, Tables.NameWidth)
      && ("patronymic" in f ==> f["patronymic"].Str? && Tables.Fits(f["patronymic"].s, Tables.PatronymicWidth))
      && "profile_picture_url" in f && f["profile_picture_url"].Str?
      && Tables.Fits(f["profile_picture_url"].s, Tables.UrlWidth)
      && "email_address" in f && f["email_address"].Str? && Tables.Fits(f["email_address"].s, Tables.EmailWidth)
      && "phone_number" in f && f["phone_number"].Str? && Tables.Fits(f["phone_number"].s, Tables.PhoneWidth)
  {
    SignUpAccepts(fmts, data);
  }

  /** The sign-in form: an e-mail address of at most 255 characters and a
      password of at least 8. */
  lemma SignInAccepts(fmts: Zod.Formats, data: Value)
    ensures Zod.Validate(Schemas(SignIn), fmts, data).Success? <==> (data.Obj? &&
      TextField(data.fields, "email_address", 1, 255, fmts.email) &&
      "password" in data.fields && data.fields["password"].Str? && 8 <= |data.fields["password"].s|)
  {
    if data.Obj? && Zod.AllAccept(Schemas(SignIn), fmts, data.fields) {
      assert Zod.Accepts(Schemas(SignIn)[0].1, fmts, Lookup(data.fields, Schemas(SignIn)[0].0));
      assert Zod.Accepts(Schemas(SignIn)[1].1, fmts, Lookup(data.fields, Schemas(SignIn)[1].0));
    }
  }

  /** An empty e-mail address fails both `min(1)` and `email()`, so signing in
      with it gives two issues under `email_address`. */
  lemma EmptyEmailTwoIssues(fmts: Zod.Formats, password: string)
    requires !fmts.email("") && 8 <= |password|
    ensures Zod.Validate(Schemas(SignIn), fmts, Obj(map["email_address" := Str(""), "password" := Str(password)]))
      == Failure([Zod.Issue([Zod.Key("email_address")]), Zod.Issue([Zod.Key("email_address")])])
  {
    var fields := map["email_address" := Str(""), "password" := Str(password)];
    var schema := Schemas(SignIn);
    var email := Zod.FieldIssues("email_address", schema[0].1, fmts, Lookup(fields, "email_address"));
    assert email == [Zod.Issue([Zod.Key("email_address")]), Zod.Issue([Zod.Key("email_address")])];
    assert Zod.FieldIssues("password", schema[1].1, fmts, Lookup(fields, "password")) == [];
    assert schema[1..][1..] == [];
    assert Zod.Failing(schema[1..][1..], fmts, fields) == [];
    assert Zod.Failing(schema[1..], fmts, fields) == [];
    assert Zod.Failing(schema, fmts, fields) == email;
  }

  /** `Get` accepts exactly a digit string and hands on its number. */
  lemma GetParsesDigits(fmts: Zod.Formats, data: Value)
    ensures var r := Zod.Validate(Schemas(Get), fmts, data);
      r.Success? <==> (data.Obj? && "client_id" in data.fields && data.fields["client_id"].Str? &&
        Decimal.IsDigits(data.fields["client_id"].s))
    ensures var r := Zod.Validate(Schemas(Get), fmts, data);
      r.Success? ==> Lookup(r.value, "client_id") == Some(Num(Decimal.Value(data.fields["client_id"].s)))
  {
    var schema := Schemas(Get);
    var r := Zod.Validate(schema, fmts, data);
    if data.Obj? && Zod.AllAccept(schema, fmts, data.fields) {
      assert Zod.Accepts(schema[0].1, fmts, Lookup(data.fields, schema[0].0));
      assert Zod.FirstNamed(schema, 0);
    }
  }

  /** `email_address` is unique. */
  ghost predicate UniqueEmails(rows: map<nat, Tables.Client>) {
    forall a, b :: a in rows && b in rows && rows[a].emailAddress == rows[b].emailAddress ==> a == b
  }

  /** `getByEmail(email)`: the client with that e-mail address, or nothing;
      under the unique constraint it is the only one. */
  function GetByEmail(rows: map<nat, Tables.Client>, bound: nat, email: string): (r: Option<nat>)
    ensures r.Some? ==> r.value in rows && rows[r.value].emailAddress == email
    ensures Repository.Bounded(rows, bound) ==> (r.None? <==> forall id :: id in rows ==> rows[id].emailAddress != email)
    ensures UniqueEmails(rows) && r.Some? ==> forall id :: id in rows && rows[id].emailAddress == email ==> id == r.value
  {
    Repository.First(rows, bound, (id: nat, c: Tables.Client) => c.emailAddress == email)
  }
}

=== FILE: dates.dfy ===
/** Day-bucket date utilities: the `YYYY-MM-DD` day key, the midnight of a day, and
    the record of one bucket per day between two instants. */
module Dates {
  import opened Calendar
  import Decimal

  /** `toDateString`: the first 10 characters of the ISO string. */
  function ToDateString(t: int): (s: string)
    ensures |s| == 10
    ensures s == DayKey(DayOf(t))
  {
    IsoString(t)[..10]
  }

  /** The key of day number `z`. */
  function DayKey(z: int): string {
    IsoDate(ToCivil(z))[..10]
  }

  /** The `full-date` production of section 5.6 of RFC 3339: `YYYY-MM-DD`. */
  predicate IsFullDate(s: string) {
    && |s| == 10
    && s[4] == '-' && s[7] == '-'
    && forall i :: 0 <= i < 10 && i != 4 && i != 7 ==> Decimal.IsDigit(s[i])
  }

  /** Four digits, a hyphen, two digits, a hyphen and two digits form a
      full-date whose fields are the three digit strings. */
  lemma JoinedDate(y: string, m: string, d: string)
    requires |y| == 4 && |m| == 2 && |d| == 2
    requires forall i :: 0 <= i < |y| ==> Decimal.IsDigit(y[i])
    requires forall i :: 0 <= i < |m| ==> Decimal.IsDigit(m[i])
    requires forall i :: 0 <= i < |d| ==> Decimal.IsDigit(d[i])
    ensures IsFullDate(y + "-" + m + "-" + d)
    ensures (y + "-" + m + "-" + d)[..4] == y
    ensures (y + "-" + m + "-" + d)[5..7] == m
    ensures (y + "-" + m + "-" + d)[8..10] == d
  {
    var s := y + "-" + m + "-" + d;
    assert forall i :: 0 <= i < 4 ==> s[i] == y[i];
    assert forall i :: 5 <= i < 7 ==> s[i] == m[i - 5];
    assert forall i :: 8 <= i < 10 ==> s[i] == d[i - 8];
  }

  /** For years 0..9999 the first ten characters of the ISO date are a
      full-date spelling the year, month and day. */
  lemma IsoDateFields(c: Civil)
    requires 0 <= c.year <= 9999 && InRanges(c)
    ensures IsFullDate(IsoDate(c)[..10])
    ensures Decimal.Value(IsoDate(c)[..4]) == c.year
    ensures Decimal.Value(IsoDate(c)[5..7]) == c.month
    ensures Decimal.Value(IsoDate(c)[8..10]) == c.day
  {
    Decimal.PadLength(c.year, 4);
    Decimal.PadLength(c.month, 2);
    Decimal.PadLength(c.day, 2);
    Decimal.ValuePad(c.year, 4);
    Decimal.ValuePad(c.month, 2);
    Decimal.ValuePad(c.day, 2);
    var y, m, d := Decimal.Pad(c.year, 4), Decimal.Pad(c.month, 2), Decimal.Pad(c.day, 2);
    assert IsoDate(c) == y + "-" + m + "-" + d;
    JoinedDate(y, m, d);
  }

  /** For instants with four-digit years, `toDateString` is a full-date. */
  lemma DateStringIsFullDate(t: int)
    requires 0 <= CivilOf(t).year <= 9999
    ensures IsFullDate(ToDateString(t))
  {
    IsoDateFields(CivilOf(t));
  }

  /** Two days with four-digit years share a key exactly when they are the same
      day. */
  lemma KeyIdentifiesDay(z1: int, z2: int)
    requires 0 <= ToCivil(z1).year <= 9999 && 0 <= ToCivil(z2).year <= 9999
    ensures DayKey(z1) == DayKey(z2) <==> z1 == z2
  {
    var c1, c2 := ToCivil(z1), ToCivil(z2);
    IsoDateFields(c1);
    IsoDateFields(c2);
    if DayKey(z1) == DayKey(z2) {
      assert IsoDate(c1)[..10] == IsoDate(c2)[..10];
      assert IsoDate(c1)[..4] == IsoDate(c2)[..4];
      assert IsoDate(c1)[5..7] == IsoDate(c2)[5..7];
      assert IsoDate(c1)[8..10] == IsoDate(c2)[8..10];
      assert c1 == c2;
      ToCivilInjective(z1, z2);
    }
  }

  /** `new Date(y, m, d, ...)` reads a year 0..99 as 1900..1999 (`MakeFullYear`). */
  function FullYear(y: int): int {
    if 0 <= y <= 99 then 1900 + y else y
  }

  /** `unifyDay`: rebuild the date from its year, month and day with the time fields
      zeroed. */
  function UnifyDay(t: int): int {
    var c := CivilOf(t);
    FromCivil(FullYear(c.year), c.month, c.day) * DAY
  }

  /** Outside years 0..99, `unifyDay` is the midnight that starts the instant's day:
      at most the instant, less than a day before it, idempotent, and on the same
      date. */
  lemma UnifyDayIsMidnight(t: int)
    requires !(0 <= CivilOf(t).year <= 99)
    ensures UnifyDay(t) == DayOf(t) * DAY
    ensures UnifyDay(t) <= t < UnifyDay(t) + DAY
    ensures DayOf(UnifyDay(t)) == DayOf(t) && CivilOf(UnifyDay(t)) == CivilOf(t)
    ensures UnifyDay(UnifyDay(t)) == UnifyDay(t)
    ensures ToDateString(UnifyDay(t)) == ToDateString(t)
  {
    CivilRoundTrip(DayOf(t));
    assert DayOf(DayOf(t) * DAY) == DayOf(t);
  }

  /** Inside years 0..99 the date moves 1900 years forward: 0024-01-01T12:00Z
      becomes 1924-01-01T00:00Z. */
  lemma UnifyDayTwoDigitYear()
    ensures CivilOf(-61409793600000) == Civil(24, 1, 1)
    ensures UnifyDay(-61409793600000) == -1451692800000
  {
    assert DayOf(-61409793600000) == -710762;
    assert SplitEra(8706) == (23, 306);
    assert SplitYear(306) == (10, 1);
    assert FromCivil(1924, 1, 1) == -16802;
  }

  /** A JavaScript object with string keys: its keys in insertion order and the
      value stored under each. */
  datatype Dict<T> = Dict(keys: seq<string>, values: map<string, T>) {

    ghost predicate Valid() {
      && (forall i, j :: 0 <= i < j < |keys| ==> keys[i] != keys[j])
      && (forall k :: k in values <==> k in keys)
    }

    /** `obj[k] = v`: a new key goes to the end of the key order. */
    function Set(k: string, v: T): (d: Dict<T>)
      ensures Valid() ==> d.Valid()
      ensures d.values == values[k := v]
      ensures d.keys == if k in values then keys else keys + [k]
    {
      if k in values then Dict(keys, values[k := v]) else Dict(keys + [k], values[k := v])
    }
  }

  function EmptyDict<T>(): (d: Dict<T>)
    ensures d.Valid()
  {
    Dict([], map[])
  }

  /** Iterations of `createDaysArray`: the day-of-month difference, and none when
      it is not positive (`Array.from` with a negative length). */
  function DayCount(start: int, end: int): nat {
    if DateOf(end) > DateOf(start) then DateOf(end) - DateOf(start) else 0
  }

  /** The key the `reduce` callback writes for the current `start`. */
  function StepKey(t: int): string {
    ToDateString(UnifyDay(t))
  }

  /** `start.setDate(start.getDate() + 1)`. */
  function StepNext(t: int): int {
    SetDate(t, DateOf(t) + 1)
  }

  /** `n` more iterations of a callback that writes `init` under `key(t)` and
      moves `t` on to `next(t)`. */
  function Iterate<T>(acc: Dict<T>, init: T, key: int -> string, next: int -> int, t: int, n: nat): Dict<T>
    decreases n
  {
    if n == 0 then acc else Iterate(acc.Set(key(t), init), init, key, next, next(t), n - 1)
  }

  /** What `createDaysArray(initialValue, [start, end])` returns. */
  function DaysArray<T>(init: T, start: int, end: int): Dict<T> {
    Iterate(EmptyDict(), init, StepKey, StepNext, start, DayCount(start, end))
  }

  /** `createDaysArray`: one key per iteration, `start` advanced a day at a time
      with `setDate(getDate() + 1)`. */
  method CreateDaysArray<T>(init: T, start: int, end: int) returns (r: Dict<T>)
    ensures r == DaysArray(init, start, end)
  {
    var n := DayCount(start, end);
    var day := start;
    r := EmptyDict();
    var i := 0;
    while i < n
      invariant 0 <= i <= n
      invariant Iterate(r, init, StepKey, StepNext, day, n - i) == DaysArray(init, start, end)
    {
      r := r.Set(ToDateString(UnifyDay(day)), init);
      day := SetDate(day, DateOf(day) + 1);
      i := i + 1;
    }
  }

  /** Each iteration keeps the object well formed. */
  lemma {:induction false} IterateValid<T>(acc: Dict<T>, init: T, key: int -> string, next: int -> int, t: int, n: nat)
    requires acc.Valid()
    ensures Iterate(acc, init, key, next, t, n).Valid()
    decreases n
  {
    if n > 0 {
      SetValid(acc, key(t), init);
      IterateValid(acc.Set(key(t), init), init, key, next, next(t), n - 1);
    }
  }

  /** `obj[k] = v` keeps the object well formed. */
  lemma SetValid<T>(acc: Dict<T>, k: string, v: T)
    requires acc.Valid()
    ensures acc.Set(k, v).Valid()
  {
  }

  /** Each iteration adds at most one key. */
  lemma {:induction false} IterateLength<T>(acc: Dict<T>, init: T, key: int -> string, next: int -> int, t: int, n: nat)
    ensures |Iterate(acc, init, key, next, t, n).keys| <= |acc.keys| + n
    decreases n
  {
    if n > 0 {
      var after := acc.Set(key(t), init);
      assert Iterate(acc, init, key, next, t, n) == Iterate(after, init, key, next, next(t), n - 1);
      SetLength(acc, key(t), init);
      IterateLength(after, init, key, next, next(t), n - 1);
    }
  }

  /** `obj[k] = v` adds at most one key. */
  lemma SetLength<T>(acc: Dict<T>, k: string, v: T)
    ensures |acc.Set(k, v).keys| <= |acc.keys| + 1
  {
  }

  /** Each iteration writes only `init`. */
  lemma {:induction false} IterateValues<T>(acc: Dict<T>, init: T, key: int -> string, next: int -> int, t: int, n: nat)
    requires forall k :: k in acc.values ==> acc.values[k] == init
    ensures forall k :: k in Iterate(acc, init, key, next, t, n).values ==> Iterate(acc, init, key, next, t, n).values[k] == init
    decreases n
  {
    if n > 0 {
      IterateValues(acc.Set(key(t), init), init, key, next, next(t), n - 1);
    }
  }

  /** For any dates, `createDaysArray` gives an object with at most one key per
      iteration, every key holding `initialValue`. */
  lemma DaysArrayInit<T>(init: T, start: int, end: int)
    ensures DaysArray(init, start, end).Valid()
    ensures |DaysArray(init, start, end).keys| <= DayCount(start, end)
    ensures forall k :: k in DaysArray(init, start, end).values ==> DaysArray(init, start, end).values[k] == init
  {
    IterateValid(EmptyDict(), init, StepKey, StepNext, start, DayCount(start, end));
    IterateLength(EmptyDict(), init, StepKey, StepNext, start, DayCount(start, end));
    IterateValues(EmptyDict(), init, StepKey, StepNext, start, DayCount(start, end));
  }

  /** Day numbers of 0100-01-01 and of 10000-01-01. */
  const FirstPlainDay: int := -683003
  const EndPlainDay: int := 2932897

  /** The days in `FirstPlainDay .. EndPlainDay - 1` have years 100..9999. */
  lemma YearOfPlainDay(d: int)
    requires FirstPlainDay <= d < EndPlainDay
    ensures 100 <= ToCivil(d).year <= 9999
  {
    var z1 := d + 719468;
    var era, doe := z1 / 146097, z1 % 146097;
    PlainDayEra(d);
    EraYearBounds(doe);
    var yd := SplitEra(doe);
    var y := yd.0 + (if SplitYear(yd.1).0 >= 10 then 1 else 0);
    assert ToCivil(d).year == era * 400 + y;
    ErasOfPlainYears(era, y);
  }

  /** The era and the day of era of a day in `FirstPlainDay .. EndPlainDay - 1`. */
  lemma PlainDayEra(d: int)
    requires FirstPlainDay <= d < EndPlainDay
    ensures var z1 := d + 719468;
      var era, doe := z1 / 146097, z1 % 146097;
      0 <= era <= 24 && (era == 0 ==> doe >= 36465) && (era == 24 ==> doe < 146037)
  {
  }

  lemma ErasOfPlainYears(era: int, y: int)
    requires 0 <= era <= 24 && 0 <= y <= 400
    requires era == 0 ==> y >= 100
    requires era == 24 ==> y <= 399
    ensures 100 <= era * 400 + y <= 9999
  {
  }

  /** In an era, the days from 36465 on (0100-01-01 in era 0) have year of era
      at least 100, and the days before 146037 (10000-01-01 in era 24) at most
      399, counting January and February with the next year. */
  lemma EraYearBounds(doe: int)
    requires 0 <= doe < 146097
    ensures var yd := SplitEra(doe);
      var md := SplitYear(yd.1);
      var y := yd.0 + (if md.0 >= 10 then 1 else 0);
      (doe >= 36465 ==> y >= 100) && (doe < 146037 ==> y <= 399)
  {
    var yd := SplitEra(doe);
    var md := SplitYear(yd.1);
    if yd.0 <= 98 {
      assert yd.0 * 365 <= 98 * 365;
    } else if yd.0 == 99 && doe >= 36465 {
      assert yd.1 >= 306;
    }
    if yd.0 == 399 && doe < 146037 {
      assert yd.1 < 306;
    }
  }

  /** The `n` days from day number `z` on all have years 100..9999: four
      digits, and no two-digit-year shift in `unifyDay`. */
  predicate PlainYears(z: int, n: nat) {
    FirstPlainDay <= z && z + n <= EndPlainDay
  }

  /** `key` of each of the `n` days from day number `z` on. */
  function Keys(key: int -> string, z: int, n: nat): (ks: seq<string>)
    ensures |ks| == n
    decreases n
  {
    if n == 0 then [] else [key(z)] + Keys(key, z + 1, n - 1)
  }

  /** The `i`-th key is the key of day `z + i`. */
  lemma {:induction false} KeysAt(key: int -> string, z: int, n: nat, i: nat)
    requires i < n
    ensures Keys(key, z, n)[i] == key(z + i)
    decreases n
  {
    if i > 0 {
      KeysAt(key, z + 1, n - 1, i - 1);
    }
  }

  /** A key function that tells the days apart gives distinct keys. */
  lemma KeysDistinct(key: int -> string, z: int, n: nat)
    requires forall a, b :: z <= a < b < z + n ==> key(a) != key(b)
    ensures forall i, j :: 0 <= i < j < n ==> Keys(key, z, n)[i] != Keys(key, z, n)[j]
  {
    forall i, j | 0 <= i < j < n
      ensures Keys(key, z, n)[i] != Keys(key, z, n)[j]
    {
      KeysAt(key, z, n, i);
      KeysAt(key, z, n, j);
    }
  }

  /** The keys of the `n` days from day number `z` on. */
  function KeysFrom(z: int, n: nat): (ks: seq<string>)
    ensures |ks| == n
  {
    Keys(DayKey, z, n)
  }

  /** One iteration of `createDaysArray` on a day with a year in 100..9999:
      the key is that day's key and the next instant is one day later. */
  lemma FillStep(t: int)
    requires 100 <= CivilOf(t).year <= 9999
    ensures ToDateString(UnifyDay(t)) == DayKey(DayOf(t))
    ensures SetDate(t, DateOf(t) + 1) == t + DAY
    ensures DayOf(t + DAY) == DayOf(t) + 1
  {
    UnifyDayIsMidnight(t);
    SetDateShift(t, 1);
  }

  /** Setting each of `ks` in turn to `init`. */
  function FillKeys<T>(acc: Dict<T>, init: T, ks: seq<string>): Dict<T>
    decreases |ks|
  {
    if ks == [] then acc else FillKeys(acc.Set(ks[0], init), init, ks[1..])
  }

  /** Filling keeps a dictionary well formed. */
  lemma {:induction false} FillKeysValid<T>(acc: Dict<T>, init: T, ks: seq<string>)
    requires acc.Valid()
    ensures FillKeys(acc, init, ks).Valid()
    decreases |ks|
  {
    if ks != [] {
      FillKeysValid(acc.Set(ks[0], init), init, ks[1..]);
    }
  }

  /** After filling, the keys are the old ones and `ks`; each of `ks` holds
      `init` and every other key keeps its value. */
  lemma {:induction false} FillKeysValues<T>(acc: Dict<T>, init: T, ks: seq<string>)
    ensures forall k :: k in FillKeys(acc, init, ks).values <==> k in acc.values || k in ks
    ensures forall k :: k in ks ==> FillKeys(acc, init, ks).values[k] == init
    ensures forall k :: k in acc.values && k !in ks ==> FillKeys(acc, init, ks).values[k] == acc.values[k]
    decreases |ks|
  {
    if ks != [] {
      FillKeysValues(acc.Set(ks[0], init), init, ks[1..]);
      assert forall k :: k in ks <==> k == ks[0] || k in ks[1..];
    }
  }

  /** Distinct fresh keys are appended in order. */
  lemma {:induction false} FillKeysOrder<T>(acc: Dict<T>, init: T, ks: seq<string>)
    requires forall i, j :: 0 <= i < j < |ks| ==> ks[i] != ks[j]
    requires forall i :: 0 <= i < |ks| ==> ks[i] !in acc.values
    ensures FillKeys(acc, init, ks).keys == acc.keys + ks
    decreases |ks|
  {
    if ks != [] {
      var acc' := acc.Set(ks[0], init);
      var rest := ks[1..];
      forall i | 0 <= i < |rest|
        ensures rest[i] !in acc'.values
      {
        assert rest[i] == ks[i + 1] != ks[0];
      }
      FillKeysOrder(acc', init, rest);
      assert acc.keys + ks == acc'.keys + rest;
    }
  }
  /** Iterating a callback whose key is `dkey` of the day and whose step is
      one day sets the keys of the consecutive days. */
  lemma {:induction false} IterateDays<T>(acc: Dict<T>, init: T, key: int -> string, next: int -> int,
                                         dkey: int -> string, t: int, n: nat)
    requires forall u :: DayOf(t) <= DayOf(u) < DayOf(t) + n ==> key(u) == dkey(DayOf(u)) && next(u) == u + DAY
    ensures Iterate(acc, init, key, next, t, n) == FillKeys(acc, init, Keys(dkey, DayOf(t), n))
    decreases n
  {
    var z := DayOf(t);
    if n == 0 {
      assert Keys(dkey, z, n) == [];
    } else {
      assert z <= DayOf(t) < z + n;
      assert DayOf(t + DAY) == z + 1;
      var acc' := acc.Set(dkey(z), init);
      var ks := Keys(dkey, z, n);
      assert ks[1..] == Keys(dkey, z + 1, n - 1);
      IterateDays(acc', init, key, next, dkey, t + DAY, n - 1);
    }
  }

  /** Over days with years 100..9999, `createDaysArray`'s callback writes the
      day's key and moves on exactly one day. */
  lemma StepsArePlainDays(z: int, n: nat)
    requires PlainYears(z, n)
    ensures forall u :: z <= DayOf(u) < z + n ==> StepKey(u) == DayKey(DayOf(u)) && StepNext(u) == u + DAY
  {
    forall u | z <= DayOf(u) < z + n
      ensures StepKey(u) == DayKey(DayOf(u)) && StepNext(u) == u + DAY
    {
      YearOfPlainDay(DayOf(u));
      FillStep(u);
    }
  }

  /** The keys of distinct days with years 100..9999 are distinct. */
  lemma KeysFromDistinct(z: int, n: nat)
    requires PlainYears(z, n)
    ensures forall i, j :: 0 <= i < j < n ==> KeysFrom(z, n)[i] != KeysFrom(z, n)[j]
  {
    forall a, b | z <= a < b < z + n
      ensures DayKey(a) != DayKey(b)
    {
      YearOfPlainDay(a);
      YearOfPlainDay(b);
      KeyIdentifiesDay(a, b);
    }
    KeysDistinct(DayKey, z, n);
  }

  /** Over days with years 100..9999, `createDaysArray` has exactly one key per
      iteration, the consecutive days from `start`'s day on, each holding
      `initialValue`. */
  lemma DaysArrayShape<T>(init: T, start: int, end: int)
    requires PlainYears(DayOf(start), DayCount(start, end))
    ensures DaysArray(init, start, end).Valid()
    ensures DaysArray(init, start, end).keys == KeysFrom(DayOf(start), DayCount(start, end))
    ensures |DaysArray(init, start, end).keys| == DayCount(start, end)
    ensures forall k :: k in DaysArray(init, start, end).values ==> DaysArray(init, start, end).values[k] == init
  {
    var z, n := DayOf(start), DayCount(start, end);
    StepsArePlainDays(z, n);
    IterateDays(EmptyDict(), init, StepKey, StepNext, DayKey, start, n);
    KeysFromDistinct(z, n);
    FillFresh(init, KeysFrom(z, n));
  }

  /** Filling an empty object with distinct keys gives exactly those keys, in
      order, each holding `init`. */
  lemma FillFresh<T>(init: T, ks: seq<string>)
    requires forall i, j :: 0 <= i < j < |ks| ==> ks[i] != ks[j]
    ensures FillKeys(EmptyDict(), init, ks).Valid()
    ensures FillKeys(EmptyDict(), init, ks).keys == ks
    ensures forall k :: k in FillKeys(EmptyDict(), init, ks).values ==> FillKeys(EmptyDict(), init, ks).values[k] == init
  {
    FillKeysValid(EmptyDict(), init, ks);
    FillKeysValues(EmptyDict(), init, ks);
    FillKeysOrder(EmptyDict(), init, ks);
  }

  /** Day `19722 + k` is 2024-01-k. */
  lemma January2024(z: int, k: int)
    requires 1 <= k <= 31 && z == 19722 + k
    ensures ToCivil(z) == Civil(2024, 1, k)
  {
    var doe := 8705 + k;
    assert (z + 719468) / 146097 == 5 && (z + 719468) % 146097 == doe;
    assert doe / 36524 == 0 && doe / 1461 == 5;
    assert SplitEra(doe) == (23, 305 + k);
    assert (5 * (305 + k) + 2) / 153 == 10;
    assert SplitYear(305 + k) == (10, k);
  }

  /** Day `19753 + k` is 2024-02-k. */
  lemma February2024(z: int, k: int)
    requires 1 <= k <= 29 && z == 19753 + k
    ensures ToCivil(z) == Civil(2024, 2, k)
  {
    var doe := 8736 + k;
    assert (z + 719468) / 146097 == 5 && (z + 719468) % 146097 == doe;
    assert doe / 36524 == 0 && doe / 1461 == 5;
    assert SplitEra(doe) == (23, 336 + k);
    assert (5 * (336 + k) + 2) / 153 == 11;
    assert SplitYear(336 + k) == (11, k);
  }

  /** The keys of 2024-01-01 to 2024-01-09. */
  lemma JanuaryKey(z: int, k: int)
    requires 1 <= k <= 9 && z == 19722 + k
    ensures DayKey(z) == "2024-01-0" + [Decimal.DigitChar(k)]
  {
    January2024(z, k);
    JanuaryIsoDate(Civil(2024, 1, k));
  }

  /** The ISO date of 2024-01-01 to 2024-01-09. */
  lemma JanuaryIsoDate(c: Civil)
    requires c.year == 2024 && c.month == 1 && 1 <= c.day <= 9
    ensures IsoDate(c)[..10] == "2024-01-0" + [Decimal.DigitChar(c.day)]
  {
    Pad2024();
    assert Decimal.Pad(1, 2) == "01" by {
      assert Decimal.Pad(0, 1) == "0";
    }
    assert Decimal.Pad(c.day, 2) == "0" + [Decimal.DigitChar(c.day)] by {
      assert Decimal.Pad(0, 1) == "0";
    }
  }

  lemma Pad2024()
    ensures Decimal.Pad(2024, 4) == "2024"
  {
    assert Decimal.Pad(0, 0) == "";
    assert Decimal.Pad(2, 1) == "2";
    assert Decimal.Pad(20, 2) == "20";
    assert Decimal.Pad(202, 3) == "202";
  }

  /** The keys of the two days from 2024-01-01 on. */
  lemma JanuaryKeys(z: int)
    requires z == 19723
    ensures KeysFrom(z, 2) == ["2024-01-01", "2024-01-02"]
  {
    KeysOfTwo(DayKey, z);
    JanuaryKey(z, 1);
    JanuaryKey(z + 1, 2);
    JanuaryLiterals();
  }

  lemma KeysOfTwo(key: int -> string, z: int)
    ensures Keys(key, z, 2) == [key(z), key(z + 1)]
  {
    KeysAt(key, z, 2, 0);
    KeysAt(key, z, 2, 1);
  }

  lemma JanuaryLiterals()
    ensures "2024-01-0" + [Decimal.DigitChar(1)] == "2024-01-01"
    ensures "2024-01-0" + [Decimal.DigitChar(2)] == "2024-01-02"
  {
    assert Decimal.DigitChar(1) == '1' && Decimal.DigitChar(2) == '2';
  }

  /** `createDaysArray(0, ['2024-01-01', '2024-01-03'])`: two keys, the end day
      excluded. */
  lemma DaysArrayExample(start: int, end: int)
    requires start == 1704067200000 && end == 1704240000000
    ensures DaysArray(0, start, end).keys == ["2024-01-01", "2024-01-02"]
  {
    var z := DayOf(start);
    assert z == 19722 + 1 && DayOf(end) == 19722 + 3;
    January2024(z, 1);
    January2024(DayOf(end), 3);
    assert DayCount(start, end) == 2;
    DaysArrayShape(0, start, end);
    JanuaryKeys(z);
  }

  /** Across a month boundary the day-of-month difference is negative and the
      record is empty: `createDaysArray(0, ['2024-01-31', '2024-02-02'])`. */
  lemma DaysArrayAcrossMonths(start: int, end: int)
    requires start == 1706659200000 && end == 1706832000000
    ensures DaysArray(0, start, end).keys == []
  {
    assert DayOf(start) == 19722 + 31 && DayOf(end) == 19753 + 2;
    January2024(DayOf(start), 31);
    February2024(DayOf(end), 2);
    assert DayCount(start, end) == 0;
  }
}

=== FILE: decimal.dfy ===
/** Decimal digit strings: zero-padded printing (used by the ISO date format and the
    `/v{N}` route prefix) and digit-string values (used by `/^\d+$/` schemas,
    `Number(...)` conversions and the API major version). */
module Decimal {

  predicate IsDigit(c: char) {
    '0' <= c <= '9'
  }

  /** `/^\d+$/`: a non-empty string of ASCII digits. */
  predicate IsDigits(s: string) {
    |s| > 0 && forall i :: 0 <= i < |s| ==> IsDigit(s[i])
  }

  function DigitChar(d: nat): (c: char)
    requires d < 10
    ensures IsDigit(c)
  {
    ('0' as int + d) as char
  }

  /** The number a string of digits denotes (leading zeros allowed). */
  function Value(s: string): nat
    requires forall i :: 0 <= i < |s| ==> IsDigit(s[i])
  {
    if s == [] then 0
    else
      assert IsDigit(s[|s| - 1]);
      10 * Value(s[..|s| - 1]) + (s[|s| - 1] as int - '0' as int)
  }

  /** `n` in decimal, left-padded with zeros to at least `width` characters. */
  function Pad(n: nat, width: nat): (s: string)
    ensures forall i :: 0 <= i < |s| ==> IsDigit(s[i])
    ensures |s| >= width
    ensures n > 0 || width > 0 ==> |s| > 0
    decreases n, width
  {
    if n == 0 && width == 0 then ""
    else Pad(n / 10, if width == 0 then 0 else width - 1) + [DigitChar(n % 10)]
  }

  /** `String(n)` for a natural number. */
  function NatToString(n: nat): string {
    Pad(n, 1)
  }

  /** Reading back a padded number gives the number: the padding is lossless. */
  lemma {:induction false} ValuePad(n: nat, width: nat)
    ensures Value(Pad(n, width)) == n
    decreases n, width
  {
    if n == 0 && width == 0 {
    } else {
      var w := if width == 0 then 0 else width - 1;
      var s := Pad(n, width);
      ValuePad(n / 10, w);
      assert s[..|s| - 1] == Pad(n / 10, w);
    }
  }

  /** Below `10^width` the padded form has exactly `width` characters. */
  lemma {:induction false} PadLength(n: nat, width: nat)
    requires n < Pow10(width)
    ensures |Pad(n, width)| == width
    decreases width
  {
    if width > 0 {
      PadLength(n / 10, width - 1);
    }
  }

  function Pow10(k: nat): (p: nat)
    ensures p >= 1
  {
    if k == 0 then 1 else 10 * Pow10(k - 1)
  }

  /** Padded printing is injective: distinct numbers never print alike. */
  lemma PadInjective(a: nat, b: nat, width: nat)
    requires Pad(a, width) == Pad(b, width)
    ensures a == b
  {
    ValuePad(a, width);
    ValuePad(b, width);
  }

  /** `String(n)` read back with `Number(...)` is `n`. */
  lemma NatToStringRoundTrip(n: nat)
    ensures IsDigits(NatToString(n)) && Value(NatToString(n)) == n
  {
    ValuePad(n, 1);
  }
}

=== FILE: employees.dfy ===
/** The employee repository: hiring (promoting a client), firing, the lookup by
    client, the employees joined with their clients, and the schemas. */
module Employees {
  import opened Wrappers
  import opened Values
  import Zod
  import opened Tables
  import Rows
  import Repository

  datatype SchemaKey = Promote | Fire

  /** The schema registered under each key. The earliest `left_at` is the
      instant `builtAt` at which the repository object, and with it the
      schema, was built; it does not move with the clock afterwards. */
  function Schemas(key: SchemaKey, builtAt: int): Zod.Schema {
    match key
    case Promote => [
      ("employee_id", Zod.Undefined),
      ("client_id", Zod.Number),
      ("employee_type", Zod.Enum(Rows.EmployeeTypeNames)),
      ("left_at", Zod.Optional(Zod.DateFrom(builtAt)))]
    case Fire => [("employee_id", Zod.Number)]
  }

  /** The promotion form: no employee id, a numeric client, one of the three
      type names and, optionally, a leaving date no earlier than `builtAt`. */
  predicate PromoteForm(builtAt: int, f: map<string, Value>) {
    && "employee_id" !in f
    && "client_id" in f && f["client_id"].Num?
    && "employee_type" in f && f["employee_type"].Str? && Rows.EmployeeTypeOf(f["employee_type"].s).Some?
    && ("left_at" in f ==> f["left_at"].Time? && builtAt <= f["left_at"].ms)
  }

  lemma PromoteAccepts(fmts: Zod.Formats, builtAt: int, data: Value)
    ensures Zod.Validate(Schemas(Promote, builtAt), fmts, data).Success? <==> data.Obj? && PromoteForm(builtAt, data.fields)
  {
    if data.Obj? {
      if PromoteForm(builtAt, data.fields) {
        PromoteFormAccepted(fmts, builtAt, data.fields);
      }
      if Zod.AllAccept(Schemas(Promote, builtAt), fmts, data.fields) {
        PromoteAcceptedForm(fmts, builtAt, data.fields);
      }
    }
  }

  lemma PromoteFormAccepted(fmts: Zod.Formats, builtAt: int, f: map<string, Value>)
    requires PromoteForm(builtAt, f)
    ensures Zod.AllAccept(Schemas(Promote, builtAt), fmts, f)
  {
    var schema := Schemas(Promote, builtAt);
    forall i | 0 <= i < |schema| ensures Zod.Accepts(schema[i].1, fmts, Lookup(f, schema[i].0)) {
    }
  }

  lemma PromoteAcceptedForm(fmts: Zod.Formats, builtAt: int, f: map<string, Value>)
    requires Zod.AllAccept(Schemas(Promote, builtAt), fmts, f)
    ensures PromoteForm(builtAt, f)
  {
    var schema := Schemas(Promote, builtAt);
    assert Zod.Accepts(schema[0].1, fmts, Lookup(f, schema[0].0));
    assert Zod.Accepts(schema[1].1, fmts, Lookup(f, schema[1].0));
    assert Zod.Accepts(schema[2].1, fmts, Lookup(f, schema[2].0));
    assert Zod.Accepts(schema[3].1, fmts, Lookup(f, schema[3].0));
  }

  /** Because the earliest leaving date is fixed when the schema is built, a
      leaving date already in the past at `now` is still accepted when it is no
      earlier than `builtAt`. */
  lemma PastLeavingDateAccepted(fmts: Zod.Formats, builtAt: int, now: int, clientId: int, leftAt: int)
    requires builtAt <= leftAt < now
    ensures Zod.Validate(Schemas(Promote, builtAt), fmts, Obj(map[
      "client_id" := Num(clientId), "employee_type" := Str("TRAINER"), "left_at" := Time(leftAt)])).Success?
  {
    PromoteAccepts(fmts, builtAt, Obj(map[
      "client_id" := Num(clientId), "employee_type" := Str("TRAINER"), "left_at" := Time(leftAt)]));
  }

  /** `Fire` accepts exactly a numeric `employee_id`. */
  lemma FireNeedsNumber(fmts: Zod.Formats, builtAt: int, data: Value)
    ensures Zod.Validate(Schemas(Fire, builtAt), fmts, data).Success? <==>
      (data.Obj? && "employee_id" in data.fields && data.fields["employee_id"].Num?)
  {
    var schema := Schemas(Fire, builtAt);
    if data.Obj? && Zod.AllAccept(schema, fmts, data.fields) {
      assert Zod.Accepts(schema[0].1, fmts, Lookup(data.fields, schema[0].0));
    }
  }

  /** `add({ client_id, employee_type, left_at })`: inserts the employee hired
      now. A database failure is returned as its message, and nothing is added. */
  method Add(employees: Repository.Table<Employee>, clientId: nat, employeeType: EmployeeType,
             leftAt: Option<int>, now: int, fault: Option<string>)
    returns (r: Result<nat, string>)
    requires employees.Valid()
    modifies employees
    ensures employees.Valid()
    ensures r.Success? <==> fault.None?
    ensures r.Failure? ==> (r.error == fault.value && employees.rows == old(employees.rows) &&
      employees.nextId == old(employees.nextId))
    ensures r.Success? ==> (r.value == old(employees.nextId) && r.value !in old(employees.rows) &&
      employees.rows == old(employees.rows)[r.value := Employee(clientId, employeeType, now, leftAt)])
  {
    r := employees.Add(Employee(clientId, employeeType, now, leftAt), fault);
  }

  /** `delete(primaryKey)`: a soft delete; `left_at` becomes now and the row
      stays. */
  method Delete(employees: Repository.Table<Employee>, id: nat, now: int)
    requires employees.Valid()
    modifies employees
    ensures employees.Valid() && employees.nextId == old(employees.nextId)
    ensures employees.rows.Keys == old(employees.rows).Keys
    ensures id in old(employees.rows) ==>
      employees.rows == old(employees.rows)[id := old(employees.rows)[id].(leftAt := Some(now))]
    ensures id !in old(employees.rows) ==> employees.rows == old(employees.rows)
  {
    employees.UpdateRow(id, (e: Employee) => e.(leftAt := Some(now)));
  }

  /** `getByClient(client_id)`: the client's employee row (the first), whether
      or not it has left. */
  function GetByClient(rows: map<nat, Employee>, bound: nat, clientId: nat): (r: Option<nat>)
    ensures r.Some? ==> r.value in rows && rows[r.value].clientId == clientId
    ensures r.Some? ==> forall id :: id in rows && rows[id].clientId == clientId ==> r.value <= id
    ensures Repository.Bounded(rows, bound) ==> (r.None? <==> forall id :: id in rows ==> rows[id].clientId != clientId)
  {
    Repository.First(rows, bound, (id: nat, e: Employee) => e.clientId == clientId)
  }

  /** A fired employee is still found by client: firing keeps the row and its
      client, only `left_at` is set. */
  lemma FiredStillFound(rows: map<nat, Employee>, bound: nat, id: nat, now: int)
    requires Repository.Bounded(rows, bound) && id in rows
    ensures var fired := rows[id := rows[id].(leftAt := Some(now))];
      GetByClient(fired, bound, rows[id].clientId).Some?
  {
    var fired := rows[id := rows[id].(leftAt := Some(now))];
    assert id in fired && fired[id].clientId == rows[id].clientId;
  }

  /** An employee joined with its client's row, without the password hash. */
  datatype Expanded = Expanded(employeeId: nat, employee: Employee, client: Rows.PublicClient)

  /** `getExpanded()`: every employee whose client exists, joined with that
      client's public columns, in key order. */
  function GetExpanded(employees: map<nat, Employee>, bound: nat, clients: map<nat, Client>)
    : (out: seq<Expanded>)
    ensures forall k :: 0 <= k < |out| ==>
      var id := out[k].employeeId;
      id in employees && out[k].employee == employees[id] && employees[id].clientId in clients &&
      out[k].client == Rows.Public(employees[id].clientId, clients[employees[id].clientId])
    ensures forall k, l :: 0 <= k < l < |out| ==> out[k].employeeId < out[l].employeeId
    ensures Repository.Bounded(employees, bound) ==>
      forall id :: id in employees && employees[id].clientId in clients ==>
        exists k :: 0 <= k < |out| && out[k].employeeId == id
  {
    var selected := Repository.Select(employees, bound, (id: nat, e: Employee) => e.clientId in clients);
    var out := seq(|selected|, k requires 0 <= k < |selected| =>
      Expanded(selected[k].0, selected[k].1, Rows.Public(selected[k].1.clientId, clients[selected[k].1.clientId])));
    assert forall k :: 0 <= k < |out| ==> out[k].employeeId == selected[k].0;
    out
  }
}

=== FILE: graph.dfy ===
/** `getGraph`: the time spent in the gym per calendar day, from a client's visits. */
module Graph {
  import opened Wrappers
  import opened Calendar
  import opened Dates
  import Tables

  /** The value every inner day of a visit is seeded with: `60 * 60 * 24`, a day
      in seconds, although the edge days are measured in milliseconds. */
  const DaySeconds: int := 60 * 60 * 24

  /** `keys[i]` used as a property name: outside the array it reads `undefined`,
      which names the property "undefined". */
  function KeyAt(keys: seq<string>, i: int): string {
    if 0 <= i < |keys| then keys[i] else "undefined"
  }

  /** `visit.left_at ?? new Date()`: an open visit lasts until now. */
  function VisitLeft(visit: Tables.VisitHistory, now: int): int {
    match visit.leftAt
    case Some(left) => left
    case None => now
  }

  /** The days `getGraph` walks for a visit: the keys of `createDaysArray(86400, ...)`. */
  function VisitKeys(entered: int, left: int): seq<string> {
    DaysArray(DaySeconds, entered, left).keys
  }

  /** `visitPeriod` after the `switch`, from the seeded object `seeded`: with one
      key, that key holds the whole visit; otherwise the first key holds the rest
      of the entering day and the last key the part of the leaving day (with no
      key at all, both writes go to "undefined", which is not among the keys
      walked afterwards). */
  function Period(seeded: Dict<int>, entered: int, left: int): Dict<int> {
    var keys := seeded.keys;
    if |keys| == 1 then seeded.Set(keys[0], left - entered)
    else
      seeded
        .Set(KeyAt(keys, 0), SetHours(entered, 23, 59, 59, 999) - entered)
        .Set(KeyAt(keys, |keys| - 1), left - SetHours(left, 0, 0, 0, 0))
  }

  /** A well-formed object seeded with `DaySeconds`. */
  ghost predicate Seeded(seeded: Dict<int>) {
    seeded.Valid() && forall k :: k in seeded.values ==> seeded.values[k] == DaySeconds
  }

  /** The per-day durations of a visit. */
  lemma PeriodValues(seeded: Dict<int>, entered: int, left: int)
    requires Seeded(seeded)
    ensures var keys := seeded.keys;
      var p := Period(seeded, entered, left).values;
      && (forall i :: 0 <= i < |keys| ==> keys[i] in p)
      && (|keys| == 1 ==> p[keys[0]] == left - entered)
      && (|keys| >= 2 ==> p[keys[0]] == DAY - 1 - entered % DAY)
      && (|keys| >= 2 ==> p[keys[|keys| - 1]] == left % DAY)
      && (forall i :: 0 < i < |keys| - 1 ==> p[keys[i]] == DaySeconds)
  {
    var keys := seeded.keys;
    assert forall i :: 0 <= i < |keys| ==> keys[i] in seeded.values;
  }

  /** The switch writes only over seeded keys or "undefined", so every seeded key
      keeps a duration. */
  lemma PeriodCovers(seeded: Dict<int>, entered: int, left: int)
    requires Seeded(seeded)
    ensures forall i :: 0 <= i < |seeded.keys| ==> seeded.keys[i] in Period(seeded, entered, left).values
  {
    PeriodValues(seeded, entered, left);
  }

  /** A visit whose exit is not before its entry gives no day a negative duration. */
  lemma PeriodNonNegative(seeded: Dict<int>, entered: int, left: int)
    requires Seeded(seeded) && entered <= left
    ensures forall i :: 0 <= i < |seeded.keys| ==> Period(seeded, entered, left).values[seeded.keys[i]] >= 0
  {
    PeriodValues(seeded, entered, left);
  }

  /** `createDaysArray(86400, ...)` is a seeded object. */
  lemma VisitSeeded(entered: int, left: int)
    ensures Seeded(DaysArray(DaySeconds, entered, left))
  {
    DaysArrayInit(DaySeconds, entered, left);
  }

  /** `if (!periodArray[key]) periodArray[key] = 0; periodArray[key] += v;` */
  function AddValue(acc: Dict<int>, key: string, v: int): Dict<int> {
    var a := if key !in acc.values || acc.values[key] == 0 then acc.Set(key, 0) else acc;
    a.Set(key, a.values[key] + v)
  }

  /** The inner `for` loop: every key of the visit added in order. */
  function AddAll(acc: Dict<int>, keys: seq<string>, period: map<string, int>): Dict<int>
    requires forall i :: 0 <= i < |keys| ==> keys[i] in period
    decreases |keys|
  {
    if keys == [] then acc
    else
      var last := keys[|keys| - 1];
      AddValue(AddAll(acc, keys[..|keys| - 1], period), last, period[last])
  }

  /** The inner `for` loop for a visit whose days were seeded as `seeded`. */
  function Spread(acc: Dict<int>, seeded: Dict<int>, entered: int, left: int): Dict<int>
    requires Seeded(seeded)
  {
    PeriodValues(seeded, entered, left);
    AddAll(acc, seeded.keys, Period(seeded, entered, left).values)
  }

  /** One turn of the outer loop: what a visit adds to the graph. */
  function Contribute(acc: Dict<int>, visit: Tables.VisitHistory, now: int): Dict<int> {
    var left := VisitLeft(visit, now);
    VisitSeeded(visit.enteredAt, left);
    Spread(acc, DaysArray(DaySeconds, visit.enteredAt, left), visit.enteredAt, left)
  }

  /** What `getGraph(visits, [start, end])` returns at time `now`. */
  function GraphOf(visits: seq<Tables.VisitHistory>, now: int, start: int, end: int): Dict<int> {
    if visits == [] then DaysArray(0, start, end)
    else Contribute(GraphOf(visits[..|visits| - 1], now, start, end), visits[|visits| - 1], now)
  }

  /** `getGraph`: seed the range with zeros, then add every visit's per-day
      durations. */
  method GetGraph(visits: seq<Tables.VisitHistory>, now: int, start: int, end: int) returns (r: Dict<int>)
    ensures r == GraphOf(visits, now, start, end)
  {
    r := CreateDaysArray(0, start, end);
    for i := 0 to |visits|
      invariant r == GraphOf(visits[..i], now, start, end)
    {
      TakeOneMore(visits, i);
      GraphSnoc(visits[..i], visits[i], now, start, end);
      r := AddVisit(r, visits[i], now);
    }
    assert visits[..|visits|] == visits;
  }

  /** The body of the outer loop. */
  method AddVisit(acc: Dict<int>, visit: Tables.VisitHistory, now: int) returns (r: Dict<int>)
    ensures r == Contribute(acc, visit, now)
  {
    var entered := visit.enteredAt;
    var left := if visit.leftAt.Some? then visit.leftAt.value else now;
    var seeded := CreateDaysArray(DaySeconds, entered, left);
    VisitSeeded(entered, left);
    PeriodCovers(seeded, entered, left);
    r := SpreadVisit(acc, seeded, entered, left);
  }

  /** One turn of the inner loop. */
  method Accumulate(acc: Dict<int>, key: string, v: int) returns (r: Dict<int>)
    ensures r == AddValue(acc, key, v)
  {
    r := acc;
    if key !in r.values || r.values[key] == 0 {
      r := r.Set(key, 0);
    }
    r := r.Set(key, r.values[key] + v);
  }

  /** The `switch` on the number of keys. */
  method SetEdges(seeded: Dict<int>, entered: int, left: int) returns (period: Dict<int>)
    ensures period == Period(seeded, entered, left)
  {
    var keys := seeded.keys;
    period := seeded;
    if |keys| == 1 {
      period := period.Set(keys[0], left - entered);
    } else {
      period := period.Set(KeyAt(keys, 0), SetHours(entered, 23, 59, 59, 999) - entered);
      period := period.Set(KeyAt(keys, |keys| - 1), left - SetHours(left, 0, 0, 0, 0));
    }
  }

  /** The body of the outer loop for one visit, its days already seeded: the
      `switch`, then the inner `for` loop over the seeded keys. */
  method SpreadVisit(acc: Dict<int>, seeded: Dict<int>, entered: int, left: int) returns (r: Dict<int>)
    requires forall i :: 0 <= i < |seeded.keys| ==> seeded.keys[i] in Period(seeded, entered, left).values
    ensures r == AddAll(acc, seeded.keys, Period(seeded, entered, left).values)
  {
    var keys := seeded.keys;
    var period := SetEdges(seeded, entered, left);
    var durations := period.values;
    r := acc;
    for j := 0 to |keys|
      invariant r == AddAll(acc, keys[..j], durations)
    {
      r := Accumulate(r, keys[j], durations[keys[j]]);
      assert keys[..j + 1][..j] == keys[..j];
    }
    assert keys[..|keys|] == keys;
  }

  // ---- Properties ----

  /** `x` under `key`, or 0 when there is none. */
  function Get0(m: map<string, int>, key: string): int {
    if key in m then m[key] else 0
  }

  /** Adding to a key adds to its value; the `!periodArray[key]` reset only
      matters for the key order. */
  lemma AddValueValues(acc: Dict<int>, key: string, v: int)
    ensures AddValue(acc, key, v).values == acc.values[key := Get0(acc.values, key) + v]
    ensures acc.keys <= AddValue(acc, key, v).keys
  {
  }

  /** Adding distinct keys adds each key's duration once. */
  lemma {:induction false} AddAllValues(acc: Dict<int>, keys: seq<string>, period: map<string, int>)
    requires forall i :: 0 <= i < |keys| ==> keys[i] in period
    requires forall i, j :: 0 <= i < j < |keys| ==> keys[i] != keys[j]
    ensures forall k :: k in AddAll(acc, keys, period).values <==> k in acc.values || k in keys
    ensures forall k :: k in AddAll(acc, keys, period).values ==>
      AddAll(acc, keys, period).values[k] == Get0(acc.values, k) + (if k in keys then period[k] else 0)
    ensures acc.keys <= AddAll(acc, keys, period).keys
    decreases |keys|
  {
    if keys != [] {
      var init, last := keys[..|keys| - 1], keys[|keys| - 1];
      AddAllValues(acc, init, period);
      var mid := AddAll(acc, init, period);
      AddValueValues(mid, last, period[last]);
      forall i | 0 <= i < |init|
        ensures init[i] != last
      {
        assert init[i] == keys[i];
      }
      assert forall k :: k in keys <==> k in init || k == last;
    }
  }

  /** What a visit seeded as `seeded` adds to day `key`: its duration on that
      day, or nothing. */
  function PartOf(seeded: Dict<int>, entered: int, left: int, key: string): int
    requires Seeded(seeded)
  {
    PeriodValues(seeded, entered, left);
    if key in seeded.keys then Period(seeded, entered, left).values[key] else 0
  }

  /** The inner loop adds the visit's duration on each of its days and creates
      the keys of those days, keeping every earlier key in its place. */
  lemma SpreadValues(acc: Dict<int>, seeded: Dict<int>, entered: int, left: int)
    requires Seeded(seeded)
    ensures var c := Spread(acc, seeded, entered, left);
      && (forall k :: k in c.values <==> k in acc.values || k in seeded.keys)
      && (forall k :: k in c.values ==> c.values[k] == Get0(acc.values, k) + PartOf(seeded, entered, left, k))
      && acc.keys <= c.keys
  {
    PeriodValues(seeded, entered, left);
    AddAllValues(acc, seeded.keys, Period(seeded, entered, left).values);
  }

  /** A visit that does not end before it starts adds nothing negative. */
  lemma PartOfNonNegative(seeded: Dict<int>, entered: int, left: int, key: string)
    requires Seeded(seeded) && entered <= left
    ensures PartOf(seeded, entered, left, key) >= 0
  {
    PeriodNonNegative(seeded, entered, left);
    if key in seeded.keys {
      var i :| 0 <= i < |seeded.keys| && seeded.keys[i] == key;
    }
  }

  /** Two maps that agree on every key are equal. */
  lemma SameMaps(m1: map<string, int>, m2: map<string, int>)
    requires forall k :: (k in m1 <==> k in m2) && (k in m1 ==> m1[k] == m2[k])
    ensures m1 == m2
  {
  }

  /** The values the inner loop leaves depend only on the values before it. */
  lemma SpreadOnValues(a: Dict<int>, b: Dict<int>, seeded: Dict<int>, entered: int, left: int)
    requires Seeded(seeded) && a.values == b.values
    ensures Spread(a, seeded, entered, left).values == Spread(b, seeded, entered, left).values
  {
    var m1, m2 := Spread(a, seeded, entered, left).values, Spread(b, seeded, entered, left).values;
    forall k
      ensures (k in m1 <==> k in m2) && (k in m1 ==> m1[k] == m2[k])
    {
      SpreadValues(a, seeded, entered, left);
      SpreadValues(b, seeded, entered, left);
    }
    SameMaps(m1, m2);
  }

  /** Day `key` after two visits: in the graph when it was there before or
      either visit covers it, holding the sum of both durations. */
  lemma SpreadTwiceAt(acc: Dict<int>, s1: Dict<int>, e1: int, l1: int, s2: Dict<int>, e2: int, l2: int, key: string)
    requires Seeded(s1) && Seeded(s2)
    ensures var m := Spread(Spread(acc, s1, e1, l1), s2, e2, l2).values;
      && (key in m <==> key in acc.values || key in s1.keys || key in s2.keys)
      && (key in m ==> m[key] == Get0(acc.values, key) + PartOf(s1, e1, l1, key) + PartOf(s2, e2, l2, key))
  {
    SpreadValues(acc, s1, e1, l1);
    SpreadValues(Spread(acc, s1, e1, l1), s2, e2, l2);
  }

  /** Two visits spread in either order give the same values. */
  lemma SpreadCommutes(acc: Dict<int>, s1: Dict<int>, e1: int, l1: int, s2: Dict<int>, e2: int, l2: int)
    requires Seeded(s1) && Seeded(s2)
    ensures Spread(Spread(acc, s1, e1, l1), s2, e2, l2).values == Spread(Spread(acc, s2, e2, l2), s1, e1, l1).values
  {
    var m1, m2 := Spread(Spread(acc, s1, e1, l1), s2, e2, l2).values, Spread(Spread(acc, s2, e2, l2), s1, e1, l1).values;
    forall k
      ensures (k in m1 <==> k in m2) && (k in m1 ==> m1[k] == m2[k])
    {
      SpreadTwiceAt(acc, s1, e1, l1, s2, e2, l2, k);
      SpreadTwiceAt(acc, s2, e2, l2, s1, e1, l1, k);
    }
    SameMaps(m1, m2);
  }

  // ---- The graph ----

  /** What `visit` adds to day `key` of the graph. */
  function Part(visit: Tables.VisitHistory, now: int, key: string): int {
    var left := VisitLeft(visit, now);
    VisitSeeded(visit.enteredAt, left);
    PartOf(DaysArray(DaySeconds, visit.enteredAt, left), visit.enteredAt, left, key)
  }

  /** A visit adds its per-day durations to the graph, creates the keys of the
      days it covers, and keeps every earlier key in its place. */
  lemma ContributeValues(acc: Dict<int>, visit: Tables.VisitHistory, now: int)
    ensures var c := Contribute(acc, visit, now);
      && (forall k :: k in c.values <==> k in acc.values || k in VisitKeys(visit.enteredAt, VisitLeft(visit, now)))
      && (forall k :: k in c.values ==> c.values[k] == Get0(acc.values, k) + Part(visit, now, k))
      && acc.keys <= c.keys
  {
    var left := VisitLeft(visit, now);
    VisitSeeded(visit.enteredAt, left);
    SpreadValues(acc, DaysArray(DaySeconds, visit.enteredAt, left), visit.enteredAt, left);
  }

  /** A visit whose inner day count is zero (left on the same day of the month,
      or on an earlier one) adds nothing at all. */
  lemma SameDayVisitAddsNothing(acc: Dict<int>, visit: Tables.VisitHistory, now: int)
    requires DayCount(visit.enteredAt, VisitLeft(visit, now)) == 0
    ensures Contribute(acc, visit, now) == acc
  {
    var left := VisitLeft(visit, now);
    DaysArrayInit(DaySeconds, visit.enteredAt, left);
    assert VisitKeys(visit.enteredAt, left) == [];
  }

  /** The graph starts from every day of the range at zero, and keeps those days
      as its first keys whatever the visits. */
  lemma {:induction false} GraphKeepsRange(visits: seq<Tables.VisitHistory>, now: int, start: int, end: int)
    ensures DaysArray(0, start, end).keys <= GraphOf(visits, now, start, end).keys
    ensures forall k :: k in DaysArray(0, start, end).keys ==> k in GraphOf(visits, now, start, end).values
    decreases |visits|
  {
    if visits == [] {
      DaysArrayInit(0, start, end);
    } else {
      var init := visits[..|visits| - 1];
      GraphKeepsRange(init, now, start, end);
      ContributeValues(GraphOf(init, now, start, end), visits[|visits| - 1], now);
    }
  }

  /** Every day any visit covers is a key of the graph, whether or not it lies
      in the requested range. */
  lemma {:induction false} GraphHasVisitDays(visits: seq<Tables.VisitHistory>, now: int, start: int, end: int, i: nat)
    requires i < |visits|
    ensures forall k :: k in VisitKeys(visits[i].enteredAt, VisitLeft(visits[i], now)) ==> k in GraphOf(visits, now, start, end).values
    decreases |visits|
  {
    var init := visits[..|visits| - 1];
    ContributeValues(GraphOf(init, now, start, end), visits[|visits| - 1], now);
    if i < |visits| - 1 {
      GraphHasVisitDays(init, now, start, end, i);
      assert init[i] == visits[i];
    }
  }

  /** A visit whose exit is not before its entry only adds non-negative amounts. */
  lemma PartNonNegative(visit: Tables.VisitHistory, now: int, key: string)
    requires visit.enteredAt <= VisitLeft(visit, now)
    ensures Part(visit, now, key) >= 0
  {
    var left := VisitLeft(visit, now);
    VisitSeeded(visit.enteredAt, left);
    PartOfNonNegative(DaysArray(DaySeconds, visit.enteredAt, left), visit.enteredAt, left, key);
  }

  /** Over visits that do not end before they start, every value of the graph
      is non-negative. */
  lemma {:induction false} GraphNonNegative(visits: seq<Tables.VisitHistory>, now: int, start: int, end: int)
    requires forall i :: 0 <= i < |visits| ==> visits[i].enteredAt <= VisitLeft(visits[i], now)
    ensures forall k :: k in GraphOf(visits, now, start, end).values ==> GraphOf(visits, now, start, end).values[k] >= 0
    decreases |visits|
  {
    if visits == [] {
      DaysArrayInit(0, start, end);
    } else {
      var init, last := visits[..|visits| - 1], visits[|visits| - 1];
      GraphNonNegative(init, now, start, end);
      ContributeValues(GraphOf(init, now, start, end), last, now);
      forall k | k in GraphOf(visits, now, start, end).values
        ensures GraphOf(visits, now, start, end).values[k] >= 0
      {
        PartNonNegative(last, now, k);
      }
    }
  }

  /** Values never decrease: a visit that does not end before it starts keeps
      every key and lowers no value. */
  lemma ContributeGrows(acc: Dict<int>, visit: Tables.VisitHistory, now: int)
    requires visit.enteredAt <= VisitLeft(visit, now)
    ensures forall k :: k in acc.values ==>
              k in Contribute(acc, visit, now).values && Contribute(acc, visit, now).values[k] >= acc.values[k]
  {
    ContributeValues(acc, visit, now);
    forall k | k in acc.values
      ensures Contribute(acc, visit, now).values[k] >= acc.values[k]
    {
      PartNonNegative(visit, now, k);
    }
  }

  /** The values a visit leaves depend only on the values before it. */
  lemma ContributeOnValues(a: Dict<int>, b: Dict<int>, visit: Tables.VisitHistory, now: int)
    requires a.values == b.values
    ensures Contribute(a, visit, now).values == Contribute(b, visit, now).values
  {
    var left := VisitLeft(visit, now);
    VisitSeeded(visit.enteredAt, left);
    SpreadOnValues(a, b, DaysArray(DaySeconds, visit.enteredAt, left), visit.enteredAt, left);
  }

  /** Two visits added in either order give the same values. */
  lemma ContributeCommutes(acc: Dict<int>, v: Tables.VisitHistory, w: Tables.VisitHistory, now: int)
    ensures Contribute(Contribute(acc, v, now), w, now).values == Contribute(Contribute(acc, w, now), v, now).values
  {
    var lv, lw := VisitLeft(v, now), VisitLeft(w, now);
    VisitSeeded(v.enteredAt, lv);
    VisitSeeded(w.enteredAt, lw);
    SpreadCommutes(acc, DaysArray(DaySeconds, v.enteredAt, lv), v.enteredAt, lv,
                   DaysArray(DaySeconds, w.enteredAt, lw), w.enteredAt, lw);
  }

  lemma TakeOneMore<T>(s: seq<T>, i: nat)
    requires i < |s|
    ensures s[..i + 1] == s[..i] + [s[i]]
  {
  }

  lemma SplitLast<T>(xs: seq<T>, ys: seq<T>)
    requires ys != []
    ensures xs + ys == (xs + ys[..|ys| - 1]) + [ys[|ys| - 1]]
  {
    assert ys == ys[..|ys| - 1] + [ys[|ys| - 1]];
  }

  /** The graph of one more visit. */
  lemma GraphSnoc(visits: seq<Tables.VisitHistory>, visit: Tables.VisitHistory, now: int, start: int, end: int)
    ensures GraphOf(visits + [visit], now, start, end) == Contribute(GraphOf(visits, now, start, end), visit, now)
  {
    assert (visits + [visit])[..|visits|] == visits;
  }

  /** Swapping two neighbouring visits does not change any value of the graph,
      so the values do not depend on the order of the visits (the order of the
      keys outside the range does). */
  lemma {:induction false} GraphSwap(vs: seq<Tables.VisitHistory>, v: Tables.VisitHistory, w: Tables.VisitHistory,
                                     ws: seq<Tables.VisitHistory>, now: int, start: int, end: int)
    ensures GraphOf(vs + [v, w] + ws, now, start, end).values == GraphOf(vs + [w, v] + ws, now, start, end).values
    decreases |ws|
  {
    if ws == [] {
      assert vs + [v, w] + ws == (vs + [v]) + [w];
      assert vs + [w, v] + ws == (vs + [w]) + [v];
      GraphSnoc(vs + [v], w, now, start, end);
      GraphSnoc(vs, v, now, start, end);
      GraphSnoc(vs + [w], v, now, start, end);
      GraphSnoc(vs, w, now, start, end);
      ContributeCommutes(GraphOf(vs, now, start, end), v, w, now);
    } else {
      var init, last := ws[..|ws| - 1], ws[|ws| - 1];
      SplitLast(vs + [v, w], ws);
      SplitLast(vs + [w, v], ws);
      GraphSwap(vs, v, w, init, now, start, end);
      GraphSnoc(vs + [v, w] + init, last, now, start, end);
      GraphSnoc(vs + [w, v] + init, last, now, start, end);
      ContributeOnValues(GraphOf(vs + [v, w] + init, now, start, end),
                         GraphOf(vs + [w, v] + init, now, start, end), last, now);
    }
  }
}

=== FILE: gyms.dfy ===
/** The gym repository: its validation schemas. */
module Gyms {
  import opened Wrappers
  import opened Values
  import Zod
  import Decimal
  import Tables

  datatype SchemaKey = Add | Delete

  /** The schema registered under each key. */
  function Schemas(key: SchemaKey): Zod.Schema {
    match key
    case Add => [
      ("gym_id", Zod.Undefined),
      ("city", Zod.Text(1, Some(Tables.AddressWidth), Zod.Any)),
      ("street", Zod.Text(1, Some(Tables.AddressWidth), Zod.Any)),
      ("building", Zod.Text(1, Some(Tables.AddressWidth), Zod.Any)),
      ("description", Zod.Text(0, None, Zod.Any))]
    case Delete => [("gym_id", Zod.Text(0, None, Zod.Digits))]
  }

  /** The new-gym form: no id, city, street and building of 1 to 64 characters,
      and any description, the empty one included. */
  predicate AddForm(f: map<string, Value>) {
    && "gym_id" !in f
    && Zod.HasText(f, "city", 1, 64)
    && Zod.HasText(f, "street", 1, 64)
    && Zod.HasText(f, "building", 1, 64)
    && "description" in f && f["description"].Str?
  }

  lemma AddAccepts(fmts: Zod.Formats, data: Value)
    ensures Zod.Validate(Schemas(Add), fmts, data).Success? <==> data.Obj? && AddForm(data.fields)
  {
    if data.Obj? {
      if AddForm(data.fields) {
        AddFormAccepted(fmts, data.fields);
      }
      if Zod.AllAccept(Schemas(Add), fmts, data.fields) {
        AddAcceptedForm(fmts, data.fields);
      }
    }
  }

  lemma AddFormAccepted(fmts: Zod.Formats, f: map<string, Value>)
    requires AddForm(f)
    ensures Zod.AllAccept(Schemas(Add), fmts, f)
  {
    var schema := Schemas(Add);
    forall i | 0 <= i < |schema| ensures Zod.Accepts(schema[i].1, fmts, Lookup(f, schema[i].0)) {
    }
  }

  lemma AddAcceptedForm(fmts: Zod.Formats, f: map<string, Value>)
    requires Zod.AllAccept(Schemas(Add), fmts, f)
    ensures AddForm(f)
  {
    var schema := Schemas(Add);
    assert Zod.Accepts(schema[0].1, fmts, Lookup(f, schema[0].0));
    assert Zod.Accepts(schema[1].1, fmts, Lookup(f, schema[1].0));
    assert Zod.Accepts(schema[2].1, fmts, Lookup(f, schema[2].0));
    assert Zod.Accepts(schema[3].1, fmts, Lookup(f, schema[3].0));
    assert Zod.Accepts(schema[4].1, fmts, Lookup(f, schema[4].0));
  }

  /** Whatever `Add` accepts fits the `varchar(64)` address columns. */
  lemma AddFits(fmts: Zod.Formats, data: Value)
    requires Zod.Validate(Schemas(Add), fmts, data).Success?
    ensures var f := data.fields;
      && "city" in f && f["city"].Str? && Tables.Fits(f["city"].s, Tables.AddressWidth)
      && "street" in f && f["street"].Str? && Tables.Fits(f["street"].s, Tables.AddressWidth)
      && "building" in f && f["building"].Str? && Tables.Fits(f["building"].s, Tables.AddressWidth)
  {
    AddAccepts(fmts, data);
  }

  /** An empty description is accepted. */
  lemma EmptyDescriptionAccepted(fmts: Zod.Formats, city: string, street: string, building: string)
    requires 1 <= |city| <= 64 && 1 <= |street| <= 64 && 1 <= |building| <= 64
    ensures Zod.Validate(Schemas(Add), fmts, Obj(map["city" := Str(city), "street" := Str(street),
      "building" := Str(building), "description" := Str("")])).Success?
  {
    AddAccepts(fmts, Obj(map["city" := Str(city), "street" := Str(street),
      "building" := Str(building), "description" := Str("")]));
  }

  /** `Delete` accepts exactly an object whose `gym_id` is a digit string. */
  lemma DeleteNeedsDigits(fmts: Zod.Formats, data: Value)
    ensures Zod.Validate(Schemas(Delete), fmts, data).Success? <==>
      (data.Obj? && "gym_id" in data.fields && data.fields["gym_id"].Str? && Decimal.IsDigits(data.fields["gym_id"].s))
  {
    var schema := Schemas(Delete);
    if data.Obj? && Zod.AllAccept(schema, fmts, data.fields) {
      assert Zod.Accepts(schema[0].1, fmts, Lookup(data.fields, schema[0].0));
    }
  }
}

=== FILE: logger.dfy ===
/** The pure helpers behind the route table printed at start-up: the width of
    the method column and the left-padding of a method name to that width. */
module Logger {
  import opened Wrappers

  /** `" ".repeat(n)` */
  function Spaces(n: nat): (s: string)
    ensures |s| == n
    ensures forall i :: 0 <= i < n ==> s[i] == ' '
  {
    if n == 0 then "" else Spaces(n - 1) + " "
  }

  /** `addSpace(word, length)`: `word` prefixed by spaces up to `length`.
      `String.prototype.repeat` throws a `RangeError` for a negative count,
      which happens when the word is longer than `length`. */
  function AddSpace(word: string, length: int): (r: Result<string, string>)
    ensures r.Success? <==> |word| <= length
    ensures r.Success? ==> |r.value| == length
    ensures r.Success? ==> r.value[length - |word|..] == word
    ensures r.Success? ==> forall i :: 0 <= i < length - |word| ==> r.value[i] == ' '
  {
    if length - |word| < 0 then Failure("RangeError: Invalid count value")
    else Success(Spaces(length - |word|) + word)
  }

  /** A route as the router reports it: registered or failed, with its method. */
  datatype Route = Route(registered: bool, httpMethod: string)

  /** `route.registered && route.method.length`: `false` counts as 0 in `Math.max`. */
  function MethodWidth(route: Route): nat {
    if route.registered then |route.httpMethod| else 0
  }

  /** `getMaxMethodLength(routes)`: `Math.max` over the method widths; `None`
      stands for the `-Infinity` that `Math.max()` gives for no routes. */
  function GetMaxMethodLength(routes: seq<Route>): (m: Option<nat>)
    ensures m.None? <==> |routes| == 0
    ensures m.Some? ==> forall i :: 0 <= i < |routes| ==> MethodWidth(routes[i]) <= m.value
    ensures m.Some? ==> exists i :: 0 <= i < |routes| && MethodWidth(routes[i]) == m.value
  {
    if |routes| == 0 then None
    else
      var rest := GetMaxMethodLength(routes[1..]);
      var w := MethodWidth(routes[0]);
      if rest.None? || rest.value < w then
        Some(w)
      else
        var j :| 0 <= j < |routes[1..]| && MethodWidth(routes[1..][j]) == rest.value;
        assert routes[1..][j] == routes[j + 1];
        assert forall i :: 1 <= i < |routes| ==> routes[i] == routes[1..][i - 1];
        rest
  }

  /** Every registered route's method pads to the common column width, so the
      method column of the printed table is aligned. */
  lemma RegisteredMethodsAlign(routes: seq<Route>, i: nat)
    requires i < |routes| && routes[i].registered
    ensures GetMaxMethodLength(routes).Some?
    ensures AddSpace(routes[i].httpMethod, GetMaxMethodLength(routes).value).Success?
    ensures |AddSpace(routes[i].httpMethod, GetMaxMethodLength(routes).value).value|
      == GetMaxMethodLength(routes).value
  {
    assert MethodWidth(routes[i]) == |routes[i].httpMethod|;
  }

  /** Padding is undone by dropping the added spaces: the padded name of a word
      determines the word, given its length. */
  lemma AddSpaceInjective(w1: string, w2: string, length: int)
    requires |w1| == |w2|
    requires AddSpace(w1, length).Success? && AddSpace(w1, length) == AddSpace(w2, length)
    ensures w1 == w2
  {
    var r := AddSpace(w1, length).value;
    assert w1 == r[length - |w1|..] == w2;
  }
}

=== FILE: memberships.dfy ===
/** The membership repository: the unexpired and the active membership of a
    client, freezing, unfreezing and revoking, and the validation schemas. */
module Memberships {
  import opened Wrappers
  import opened Values
  import Zod
  import Decimal
  import opened Tables
  import Rows
  import Repository

  datatype SchemaKey = Subscribe | Cancel | Freeze

  /** The schema registered under each key. */
  function Schemas(key: SchemaKey): Zod.Schema {
    match key
    case Subscribe => [
      ("membership_id", Zod.Undefined),
      ("bank_card_id", Zod.Number),
      ("level_type", Zod.Enum(Rows.LevelNames))]
    case Cancel => [("membership_id", Zod.Text(0, None, Zod.Digits))]
    case Freeze => [("membership_id", Zod.Text(0, None, Zod.Digits))]
  }

  /** `Subscribe` accepts a numeric bank card and one of the three level names,
      and no membership id. */
  lemma SubscribeAccepts(fmts: Zod.Formats, data: Value)
    ensures Zod.Validate(Schemas(Subscribe), fmts, data).Success? <==>
      (data.Obj? && "membership_id" !in data.fields &&
       "bank_card_id" in data.fields && data.fields["bank_card_id"].Num? &&
       "level_type" in data.fields && data.fields["level_type"].Str? &&
       Rows.LevelOf(data.fields["level_type"].s).Some?)
  {
    var schema := Schemas(Subscribe);
    if data.Obj? && Zod.AllAccept(schema, fmts, data.fields) {
      assert Zod.Accepts(schema[0].1, fmts, Lookup(data.fields, schema[0].0));
      assert Zod.Accepts(schema[1].1, fmts, Lookup(data.fields, schema[1].0));
      assert Zod.Accepts(schema[2].1, fmts, Lookup(data.fields, schema[2].0));
    }
  }

  /** `Freeze` (and `Cancel`, which is the same) accepts exactly an all-digit
      `membership_id`. */
  lemma FreezeNeedsDigits(fmts: Zod.Formats, data: Value)
    ensures Zod.Validate(Schemas(SchemaKey.Freeze), fmts, data).Success? <==>
      (data.Obj? && "membership_id" in data.fields && data.fields["membership_id"].Str? &&
       Decimal.IsDigits(data.fields["membership_id"].s))
    ensures Schemas(Cancel) == Schemas(SchemaKey.Freeze)
  {
    var schema := Schemas(SchemaKey.Freeze);
    if data.Obj? && Zod.AllAccept(schema, fmts, data.fields) {
      assert Zod.Accepts(schema[0].1, fmts, Lookup(data.fields, schema[0].0));
    }
  }

  /** The membership has not expired at `now`: `expires_at >= now`. */
  predicate Unexpired(m: Membership, now: int) {
    m.expiresAt >= now
  }

  /** Not frozen: `freezed_at is null`. */
  predicate Unfrozen(m: Membership) {
    m.freezedAt.None?
  }

  /** `getAny(client_id)`: an unexpired membership of the client (the first). */
  function GetAny(rows: map<nat, Membership>, bound: nat, clientId: nat, now: int): (r: Option<nat>)
    ensures r.Some? ==> r.value in rows && rows[r.value].clientId == clientId && Unexpired(rows[r.value], now)
    ensures Repository.Bounded(rows, bound) ==> (r.None? <==>
      forall id :: id in rows && rows[id].clientId == clientId ==> !Unexpired(rows[id], now))
  {
    Repository.First(rows, bound, (id: nat, m: Membership) => m.clientId == clientId && Unexpired(m, now))
  }

  /** `getActive(client_id)`: an unexpired and unfrozen membership of the client
      (the first). */
  function GetActive(rows: map<nat, Membership>, bound: nat, clientId: nat, now: int): (r: Option<nat>)
    ensures r.Some? ==> (r.value in rows && rows[r.value].clientId == clientId && Unexpired(rows[r.value], now) &&
      Unfrozen(rows[r.value]))
    ensures Repository.Bounded(rows, bound) ==> (r.None? <==>
      forall id :: id in rows && rows[id].clientId == clientId && Unexpired(rows[id], now) ==> !Unfrozen(rows[id]))
  {
    Repository.First(rows, bound, (id: nat, m: Membership) => m.clientId == clientId && Unexpired(m, now) && Unfrozen(m))
  }

  /** An active membership is one `getAny` could return: whenever `getActive`
      finds one, `getAny` finds one too, no later in key order. */
  lemma ActiveIsAny(rows: map<nat, Membership>, bound: nat, clientId: nat, now: int)
    requires Repository.Bounded(rows, bound)
    ensures GetActive(rows, bound, clientId, now).Some? ==> GetAny(rows, bound, clientId, now).Some?
    ensures GetActive(rows, bound, clientId, now).Some? ==>
      GetAny(rows, bound, clientId, now).value <= GetActive(rows, bound, clientId, now).value
  {
    var active := GetActive(rows, bound, clientId, now);
    if active.Some? {
      var any := Repository.First(rows, bound, (id: nat, m: Membership) => m.clientId == clientId && Unexpired(m, now));
      assert active.value in rows && rows[active.value].clientId == clientId && Unexpired(rows[active.value], now);
      assert any.Some?;
      assert any.value <= active.value;
    }
  }

  /** `freeze(membership)`: `freezed_at` becomes now on that membership only;
      the updated rows are returned. */
  method FreezeAt(memberships: Repository.Table<Membership>, id: nat, now: int) returns (frozen: seq<(nat, Membership)>)
    requires memberships.Valid()
    modifies memberships
    ensures memberships.Valid() && memberships.nextId == old(memberships.nextId)
    ensures id in old(memberships.rows) ==>
      (memberships.rows == old(memberships.rows)[id := old(memberships.rows)[id].(freezedAt := Some(now))] &&
       frozen == [(id, memberships.rows[id])])
    ensures id !in old(memberships.rows) ==> memberships.rows == old(memberships.rows) && frozen == []
  {
    memberships.UpdateRow(id, (m: Membership) => m.(freezedAt := Some(now)));
    frozen := if id in memberships.rows then [(id, memberships.rows[id])] else [];
  }

  /** The message of the `TypeError` thrown when a membership that is not
      frozen is unfrozen. */
  const NotFrozen: string := "TypeError: Cannot read properties of null (reading 'getTime')"

  /** The row `unfreeze` writes over `row`: `freezed_at` cleared and the
      expiry, taken from `membership` as read earlier, moved forward by the
      time it has spent frozen, `now - freezed_at`. */
  function Thawed(row: Membership, membership: Membership, now: int): Membership
    requires membership.freezedAt.Some?
  {
    row.(freezedAt := None, expiresAt := membership.expiresAt + (now - membership.freezedAt.value))
  }

  /** `unfreeze(membership)`: from the membership as read earlier, the expiry is
      moved forward by the time spent frozen, `now - freezed_at`, and
      `freezed_at` is cleared. A membership read while not frozen throws. */
  method Unfreeze(memberships: Repository.Table<Membership>, id: nat, membership: Membership, now: int)
    returns (r: Result<(), string>)
    requires memberships.Valid()
    modifies memberships
    ensures memberships.Valid() && memberships.nextId == old(memberships.nextId)
    ensures r.Failure? <==> membership.freezedAt.None?
    ensures r.Failure? ==> r.error == NotFrozen && memberships.rows == old(memberships.rows)
    ensures r.Success? && id in old(memberships.rows) ==>
      memberships.rows == old(memberships.rows)[id := Thawed(old(memberships.rows)[id], membership, now)]
    ensures r.Success? && id !in old(memberships.rows) ==> memberships.rows == old(memberships.rows)
  {
    if membership.freezedAt.None? {
      return Failure(NotFrozen);
    }
    var freezeDiff := now - membership.freezedAt.value;
    var newExpiresAt := membership.expiresAt + freezeDiff;
    memberships.UpdateRow(id, (m: Membership) => m.(freezedAt := None, expiresAt := newExpiresAt));
    r := Success(());
  }

  /** Freezing at `t` and then unfreezing at `now`, from the row as the freeze
      left it, gives the membership back unfrozen with its expiry moved by
      exactly the frozen time, so an unexpired membership stays unexpired.
      Unfreezing at the instant of freezing undoes the freeze. */
  lemma FreezeThenUnfreeze(m: Membership, t: int, now: int)
    requires t <= now && Unexpired(m, t)
    ensures var frozen := m.(freezedAt := Some(t));
      var u := Thawed(frozen, frozen, now);
      u == m.(freezedAt := None, expiresAt := m.expiresAt + (now - t)) && Unexpired(u, now)
    ensures var frozen := m.(freezedAt := Some(t));
      Unfrozen(m) ==> Thawed(frozen, frozen, t) == m
  {
  }

  /** `revoke(membership_id)`: the membership expires now and is unfrozen. */
  method Revoke(memberships: Repository.Table<Membership>, id: nat, now: int)
    requires memberships.Valid()
    modifies memberships
    ensures memberships.Valid() && memberships.nextId == old(memberships.nextId)
    ensures id in old(memberships.rows) ==>
      memberships.rows == old(memberships.rows)[id := old(memberships.rows)[id].(expiresAt := now, freezedAt := None)]
    ensures id !in old(memberships.rows) ==> memberships.rows == old(memberships.rows)
  {
    memberships.UpdateRow(id, (m: Membership) => m.(expiresAt := now, freezedAt := None));
  }

  /** A membership revoked at `t` still counts as unexpired at `t` itself, and
      no longer at any later instant. */
  lemma RevokedExpires(m: Membership, t: int, now: int)
    ensures Unexpired(m.(expiresAt := t, freezedAt := None), t)
    ensures now > t ==> !Unexpired(m.(expiresAt := t, freezedAt := None), now)
  {
  }

  /** After a revocation at `t`, `getAny` never returns that membership later. */
  lemma RevokedNotFound(rows: map<nat, Membership>, bound: nat, id: nat, t: int, now: int)
    requires id in rows && now > t
    ensures var after := rows[id := rows[id].(expiresAt := t, freezedAt := None)];
      var r := GetAny(after, bound, after[id].clientId, now);
      r.Some? ==> r.value != id
  {
  }
}

=== FILE: middleware.dfy ===
/** The two Express middlewares in front of the routes: `authenticate`, which
    lets a few public endpoints through and otherwise asks for a usable
    session, and `admin`, which asks for an administrator on the endpoints that
    add or remove employees and gyms. */
module Middleware {
  import opened Wrappers
  import opened Values
  import opened Tables
  import Api
  import Bearer
  import Sessions
  import Repository

  /** What the middlewares read of a request. */
  datatype Request = Request(path: string, httpMethod: string, authorization: Option<string>)

  /** The documentation pages, reachable without a session. */
  const SwaggerEndpoints: seq<string> := [
    "/docs",
    "/docs/",
    "/docs/swagger-ui.css",
    "/docs/swagger-ui-bundle.js",
    "/docs/swagger-ui-standalone-preset.js",
    "/docs/swagger-ui-init.js"]

  /** The public endpoints and their methods; the documentation pages are
      spread in last and so would win over an equal path. */
  function AllowedUrls(prefix: string): map<string, seq<string>> {
    map[prefix + "/client/register" := ["POST"],
        prefix + "/client/login" := ["POST"],
        prefix + "/gym" := ["GET"]]
    + map url | url in SwaggerEndpoints :: ["GET"]
  }

  /** `allowedUrls[req.path] && allowedUrls[req.path].includes(req.method)` */
  predicate Allowed(prefix: string, path: string, httpMethod: string) {
    path in AllowedUrls(prefix) && httpMethod in AllowedUrls(prefix)[path]
  }

  /** Under a `/v...` prefix, exactly four kinds of request pass without a
      session: registering, logging in, listing the gyms and reading the
      documentation. */
  lemma AllowedExactly(prefix: string, path: string, httpMethod: string)
    requires |prefix| >= 2 && prefix[..2] == "/v"
    ensures Allowed(prefix, path, httpMethod) <==>
      ((path == prefix + "/client/register" && httpMethod == "POST") ||
       (path == prefix + "/client/login" && httpMethod == "POST") ||
       (path == prefix + "/gym" && httpMethod == "GET") ||
       (path in SwaggerEndpoints && httpMethod == "GET"))
  {
    if path in SwaggerEndpoints {
      assert path[1] == 'd';
      assert (prefix + "/client/register")[1] == 'v';
      assert (prefix + "/client/login")[1] == 'v';
      assert (prefix + "/gym")[1] == 'v';
    }
  }

  /** The header counts only when it is present and not empty. */
  predicate HasAuthorization(req: Request) {
    req.authorization.Some? && req.authorization.value != ""
  }

  /** `authenticate`: a public endpoint passes on with no client; any other
      request needs a non-empty `Authorization` header whose token `getClient`
      accepts, and passes on with that client. Otherwise the response is the
      401 `Unauthorized` error and the chain stops. */
  method Authenticate(res: Api.Response, req: Request, prefix: string,
                      sessions: map<nat, Session>, bound: nat, clients: map<nat, Client>, now: int)
    returns (next: bool, client: Option<nat>)
    modifies res
    ensures Allowed(prefix, req.path, req.httpMethod) ==> next && client.None?
    ensures !Allowed(prefix, req.path, req.httpMethod) ==>
      (next <==> (HasAuthorization(req) &&
        Sessions.GetClient(sessions, bound, clients, Bearer.GetToken(req.authorization), now).Some?))
    ensures !Allowed(prefix, req.path, req.httpMethod) && next ==>
      client == Sessions.GetClient(sessions, bound, clients, Bearer.GetToken(req.authorization), now)
    ensures next ==> res.status == old(res.status) && res.body == old(res.body)
    ensures !next ==> res.status == 401 && res.body == Some(Api.ErrorBody(Api.Plain(Str("Unauthorized"))))
  {
    if Allowed(prefix, req.path, req.httpMethod) {
      return true, None;
    }
    if !HasAuthorization(req) {
      res.ThrowError(Api.Plain(Str("Unauthorized")));
      return false, None;
    }
    client := Sessions.GetClient(sessions, bound, clients, Bearer.GetToken(req.authorization), now);
    if client.None? {
      res.ThrowError(Api.Plain(Str("Unauthorized")));
      return false, None;
    }
    next := true;
  }

  /** A request that passes `authenticate` outside the public endpoints
      carries the token of an unrevoked, unexpired session of an existing
      client. */
  lemma AuthenticatedHasSession(sessions: map<nat, Session>, bound: nat, clients: map<nat, Client>,
                                authorization: string, now: int)
    requires Sessions.GetClient(sessions, bound, clients, Bearer.GetToken(Some(authorization)), now).Some?
    ensures var token := Bearer.GetToken(Some(authorization));
      exists id :: id in sessions && Sessions.Usable(sessions[id], token, now) && sessions[id].clientId in clients
  {
    var token := Bearer.GetToken(Some(authorization));
    var c := Sessions.GetClient(sessions, bound, clients, token, now);
    var id :| id in sessions && Sessions.Usable(sessions[id], token, now) && sessions[id].clientId == c.value;
  }

  /** The endpoints `admin` guards: adding and removing employees and gyms. */
  function MatchingUrls(prefix: string): map<string, seq<string>> {
    map[prefix + "/employee" := ["POST", "DELETE"],
        prefix + "/gym" := ["POST", "DELETE"]]
  }

  predicate Guarded(prefix: string, path: string, httpMethod: string) {
    path in MatchingUrls(prefix) && httpMethod in MatchingUrls(prefix)[path]
  }

  /** `admin` lets the staff member through when it is an administrator; the
      leaving date is not looked at. */
  predicate IsAdmin(staff: Option<Sessions.Staff>) {
    staff.Some? && staff.value.employee.employeeType == ADMIN
  }

  /** `admin`: any request outside the guarded endpoints passes; a guarded one
      needs a non-empty `Authorization` header whose token `getEmployee`
      resolves to an administrator, and passes on with that employee.
      Otherwise the response is the 401 `Unauthorized` error. */
  method Admin(res: Api.Response, req: Request, prefix: string, sessions: map<nat, Session>, bound: nat,
               employees: map<nat, Employee>, employeeBound: nat, clients: map<nat, Client>, now: int)
    returns (next: bool, staff: Option<Sessions.Staff>)
    modifies res
    ensures !Guarded(prefix, req.path, req.httpMethod) ==> next && staff.None?
    ensures Guarded(prefix, req.path, req.httpMethod) ==>
      (next <==> (HasAuthorization(req) && IsAdmin(Sessions.GetEmployee(sessions, bound, employees, employeeBound,
        clients, Bearer.GetToken(req.authorization), now))))
    ensures Guarded(prefix, req.path, req.httpMethod) && next ==>
      staff == Sessions.GetEmployee(sessions, bound, employees, employeeBound, clients,
        Bearer.GetToken(req.authorization), now)
    ensures next ==> res.status == old(res.status) && res.body == old(res.body)
    ensures !next ==> res.status == 401 && res.body == Some(Api.ErrorBody(Api.Plain(Str("Unauthorized"))))
  {
    if !Guarded(prefix, req.path, req.httpMethod) {
      return true, None;
    }
    if !HasAuthorization(req) {
      res.ThrowError(Api.Plain(Str("Unauthorized")));
      return false, None;
    }
    staff := Sessions.GetEmployee(sessions, bound, employees, employeeBound, clients,
      Bearer.GetToken(req.authorization), now);
    if !IsAdmin(staff) {
      res.ThrowError(Api.Plain(Str("Unauthorized")));
      return false, None;
    }
    next := true;
  }

  /** Listing the gyms is public, while adding or removing one is for
      administrators: the two middlewares split `/gym` by method. */
  lemma GymEndpointSplit(prefix: string)
    requires |prefix| >= 2 && prefix[..2] == "/v"
    ensures Allowed(prefix, prefix + "/gym", "GET") && !Guarded(prefix, prefix + "/gym", "GET")
    ensures !Allowed(prefix, prefix + "/gym", "POST") && Guarded(prefix, prefix + "/gym", "POST")
    ensures !Allowed(prefix, prefix + "/gym", "DELETE") && Guarded(prefix, prefix + "/gym", "DELETE")
  {
    AllowedExactly(prefix, prefix + "/gym", "POST");
    AllowedExactly(prefix, prefix + "/gym", "DELETE");
  }

  /** Firing an administrator does not revoke its rights: with `left_at` set
      on its employee row, `getEmployee` finds the same administrator. */
  lemma FiredAdminStillAdmin(sessions: map<nat, Session>, bound: nat, employees: map<nat, Employee>,
                             employeeBound: nat, clients: map<nat, Client>, jwt: string, now: int, leftAt: int)
    requires Repository.Bounded(sessions, bound) && Repository.Bounded(employees, employeeBound)
    requires IsAdmin(Sessions.GetEmployee(sessions, bound, employees, employeeBound, clients, jwt, now))
    ensures var staff := Sessions.GetEmployee(sessions, bound, employees, employeeBound, clients, jwt, now).value;
      var fired := employees[staff.employeeId := staff.employee.(leftAt := Some(leftAt))];
      var after := Sessions.GetEmployee(sessions, bound, fired, employeeBound, clients, jwt, now);
      IsAdmin(after) && after.value.employee.leftAt == Some(leftAt) && after.value.employeeId == staff.employeeId
  {
    var staff := Sessions.GetEmployee(sessions, bound, employees, employeeBound, clients, jwt, now).value;
    var fired := employees[staff.employeeId := staff.employee.(leftAt := Some(leftAt))];
    assert fired.Keys == employees.Keys;
    var isEmployee := (c: nat) => exists e | e in employees :: employees[e].clientId == c;
    var isFired := (c: nat) => exists e | e in fired :: fired[e].clientId == c;
    SameClientsSameStaff(employees, fired);
    Repository.FirstAgrees(sessions,
      (id: nat, s: Session) => s.jwt == jwt && !s.revoked && s.clientId in clients && isEmployee(s.clientId),
      sessions,
      (id: nat, s: Session) => s.jwt == jwt && !s.revoked && s.clientId in clients && isFired(s.clientId),
      bound);
    var first := Repository.First(sessions, bound,
      (id: nat, s: Session) => s.jwt == jwt && !s.revoked && s.clientId in clients && isEmployee(s.clientId));
    var c := sessions[first.value].clientId;
    Repository.FirstAgrees(employees, (id: nat, e: Employee) => e.clientId == c,
      fired, (id: nat, e: Employee) => e.clientId == c, employeeBound);
  }

  /** Some employee row belongs to client `c`. */
  predicate Employs(employees: map<nat, Employee>, c: nat) {
    exists e | e in employees :: employees[e].clientId == c
  }

  /** Two employee tables with the same keys and the same client per key
      employ the same clients. */
  lemma SameClientsSameStaff(employees: map<nat, Employee>, other: map<nat, Employee>)
    requires employees.Keys == other.Keys
    requires forall e :: e in employees ==> employees[e].clientId == other[e].clientId
    ensures forall c: nat :: Employs(employees, c) <==> Employs(other, c)
  {
    forall c: nat | Employs(employees, c) ensures Employs(other, c) {
      var e :| e in employees && employees[e].clientId == c;
      assert other[e].clientId == c;
    }
  }
}

=== FILE: payments.dfy ===
/** The payment-history repository: paying for a membership and for a trainer
    appointment, each as one transaction over several tables. */
module Payments {
  import opened Wrappers
  import opened Values
  import Zod
  import Calendar
  import opened Tables
  import Pricing
  import Repository

  datatype SchemaKey = MembershipSubscription | TrainerAppointment | Delete

  /** The schema registered under each key; none is registered for
      `TrainerAppointment`. */
  function Schemas(key: SchemaKey): (s: Option<Zod.Schema>)
    ensures s.None? <==> key.TrainerAppointment?
  {
    match key
    case MembershipSubscription => Some([("client_id", Zod.Number), ("bank_card_id", Zod.Number)])
    case TrainerAppointment => None
    case Delete => Some([])
  }

  /** `Delete`'s empty object schema accepts every object, and nothing kept. */
  lemma DeleteAcceptsAnyObject(fmts: Zod.Formats, data: Value)
    ensures Zod.Validate(Schemas(Delete).value, fmts, data).Success? <==> data.Obj?
    ensures data.Obj? ==> Zod.Validate(Schemas(Delete).value, fmts, data).value == map[]
  {
  }

  /** A membership lasts 30 calendar days. */
  const MembershipDays: int := 30

  /** Database failures of the inserts of one transaction, in order; `None`
      where the insert succeeds. */
  datatype Faults = Faults(first: Option<string>, second: Option<string>, third: Option<string>) {
    predicate Failed() {
      first.Some? || second.Some? || third.Some?
    }

    /** The failure that aborts the transaction: the earliest one. */
    function Reason(): (m: string)
      requires Failed()
      ensures first.Some? ==> m == first.value
      ensures first.None? && second.Some? ==> m == second.value
      ensures first.None? && second.None? ==> m == third.value
    {
      if first.Some? then first.value else if second.Some? then second.value else third.value
    }
  }

  /** `membershipSubscribe({ client_id, bank_card_id, level_type })`: in one
      transaction, a payment of the level's price processed at once, a
      membership created now and expiring 30 days later, and the row linking
      the two. Either all three rows are added or, on the first failing insert,
      none, and that failure is returned. The new membership's key is returned. */
  method MembershipSubscribe(payments: Repository.Table<PaymentHistory>, memberships: Repository.Table<Membership>,
                             links: Repository.Table<MembershipPaymentHistory>,
                             clientId: nat, bankCardId: nat, level: Level, now: int, faults: Faults)
    returns (r: Result<nat, string>)
    requires payments.Valid() && memberships.Valid() && links.Valid()
    modifies payments, memberships, links
    ensures payments.Valid() && memberships.Valid() && links.Valid()
    ensures faults.Failed() ==> r == Failure(faults.Reason())
    ensures faults.Failed() ==>
      payments.rows == old(payments.rows) && payments.nextId == old(payments.nextId) &&
      memberships.rows == old(memberships.rows) && memberships.nextId == old(memberships.nextId) &&
      links.rows == old(links.rows) && links.nextId == old(links.nextId)
    ensures !faults.Failed() ==> r == Success(old(memberships.nextId))
    ensures !faults.Failed() ==>
      var paymentId, membershipId := old(payments.nextId), old(memberships.nextId);
      payments.rows == old(payments.rows)[paymentId :=
        PaymentHistory(clientId, bankCardId, Pricing.MembershipPrice(level), now, now, false)] &&
      memberships.rows == old(memberships.rows)[membershipId :=
        Membership(clientId, level, now, now + MembershipDays * Calendar.DAY, None)] &&
      links.rows == old(links.rows)[old(links.nextId) :=
        MembershipPaymentHistory(clientId, paymentId, membershipId, now)]
  {
    var createdAt := now;
    var expiresAt := Calendar.DaysLater(createdAt, MembershipDays);
    var savedPayments, paymentsNext := payments.rows, payments.nextId;
    var savedMemberships, membershipsNext := memberships.rows, memberships.nextId;
    var payment := payments.Add(
      PaymentHistory(clientId, bankCardId, Pricing.MembershipPrice(level), createdAt, createdAt, false), faults.first);
    if payment.Failure? {
      return Failure(payment.error);
    }
    var membership := memberships.Add(Membership(clientId, level, createdAt, expiresAt, None), faults.second);
    if membership.Failure? {
      payments.Restore(savedPayments, paymentsNext);
      return Failure(membership.error);
    }
    var link := links.Add(MembershipPaymentHistory(clientId, payment.value, membership.value, createdAt), faults.third);
    if link.Failure? {
      payments.Restore(savedPayments, paymentsNext);
      memberships.Restore(savedMemberships, membershipsNext);
      return Failure(link.error);
    }
    r := Success(membership.value);
  }

  /** `trainerAppoint(payload)`: in one transaction, a payment priced by
      `getAppointmentPrice(endsAt, appointedAt)` (arguments swapped) and an
      unrevoked appointment that refers to it. Either both rows are added or
      neither, and the first failure is returned. The creation time is taken
      as given. The new appointment's key is returned. */
  method TrainerAppoint(payments: Repository.Table<PaymentHistory>, appointments: Repository.Table<Tables.TrainerAppointment>,
                        clientId: nat, employeeId: nat, bankCardId: nat, gymId: nat,
                        appointedAt: int, endsAt: int, createdAt: int, paymentFault: Option<string>,
                        appointmentFault: Option<string>)
    returns (r: Result<nat, string>)
    requires payments.Valid() && appointments.Valid()
    modifies payments, appointments
    ensures payments.Valid() && appointments.Valid()
    ensures paymentFault.Some? ==> r == Failure(paymentFault.value)
    ensures paymentFault.None? && appointmentFault.Some? ==> r == Failure(appointmentFault.value)
    ensures r.Failure? ==>
      payments.rows == old(payments.rows) && payments.nextId == old(payments.nextId) &&
      appointments.rows == old(appointments.rows) && appointments.nextId == old(appointments.nextId)
    ensures r.Success? <==> paymentFault.None? && appointmentFault.None?
    ensures r.Success? ==> r.value == old(appointments.nextId)
    ensures r.Success? ==>
      var paymentId := old(payments.nextId);
      payments.rows == old(payments.rows)[paymentId :=
        PaymentHistory(clientId, bankCardId, Pricing.GetAppointmentPrice(endsAt, appointedAt), createdAt, createdAt, false)] &&
      appointments.rows == old(appointments.rows)[old(appointments.nextId) :=
        Tables.TrainerAppointment(clientId, employeeId, gymId, paymentId, createdAt, appointedAt, endsAt, false)]
  {
    var savedPayments, paymentsNext := payments.rows, payments.nextId;
    var price := Pricing.GetAppointmentPrice(endsAt, appointedAt);
    var payment := payments.Add(PaymentHistory(clientId, bankCardId, price, createdAt, createdAt, false), paymentFault);
    if payment.Failure? {
      return Failure(payment.error);
    }
    var appointment := appointments.Add(
      Tables.TrainerAppointment(clientId, employeeId, gymId, payment.value, createdAt, appointedAt, endsAt, false),
      appointmentFault);
    if appointment.Failure? {
      payments.Restore(savedPayments, paymentsNext);
      return Failure(appointment.error);
    }
    r := appointment;
  }

  /** Every appointment that does not end before it starts is charged the
      minimum price, whatever its length. */
  lemma AppointmentsChargeMinimum(appointedAt: int, endsAt: int, payment: PaymentHistory)
    requires appointedAt <= endsAt
    requires payment.value == Pricing.GetAppointmentPrice(endsAt, appointedAt)
    ensures payment.value == Pricing.MinimumPrice
  {
    Pricing.SwappedArgumentsChargeMinimum(appointedAt, endsAt);
  }

  /** A parsed payment as `getAllParsed` would list it. */
  datatype Parsed =
    | MembershipPayment(paymentHistoryId: nat, clientId: nat, levelType: Level, createdAt: int)
    | AppointmentPayment(paymentHistoryId: nat, clientId: nat, employeeId: nat, gymId: nat, appointedAt: int, endsAt: int)

  /** `getAllParsed()`: not implemented yet; always the empty list, whatever
      the tables hold. */
  function GetAllParsed(payments: map<nat, PaymentHistory>): (out: seq<Parsed>)
    ensures |out| == 0
  {
    []
  }
}

=== FILE: pricing.dfy ===
/** Membership and trainer-appointment prices (in rubles). */
module Pricing {
  import Tables

  /** `membershipPrices`: the fixed price of each membership level. */
  function MembershipPrice(level: Tables.Level): (p: nat)
    ensures 790 <= p <= 1790
    ensures level == Tables.SIMPLE ==> p == 790
    ensures level == Tables.INFINITY ==> p == 1490
    ensures level == Tables.PREMIUM ==> p == 1790
  {
    match level
    case SIMPLE => 790
    case INFINITY => 1490
    case PREMIUM => 1790
  }

  /** A higher level costs more. */
  lemma PricesIncreaseWithLevel()
    ensures MembershipPrice(Tables.SIMPLE) < MembershipPrice(Tables.INFINITY) < MembershipPrice(Tables.PREMIUM)
  {
  }

  const MinimumPrice: int := 1000

  /** `getAppointmentPrice(appointedAt, endsAt)`: `Math.floor(diff / 3600)` for
      the duration `diff` in milliseconds (1000 per hour), at least 1000. For a
      positive divisor Dafny's `/` rounds down, as `Math.floor` of the quotient
      does, negative durations included. */
  function GetAppointmentPrice(appointedAt: int, endsAt: int): (p: int)
    ensures p >= MinimumPrice
    ensures (endsAt - appointedAt) / 3600 >= MinimumPrice ==> p == (endsAt - appointedAt) / 3600
    ensures (endsAt - appointedAt) / 3600 < MinimumPrice ==> p == MinimumPrice
  {
    var diff := endsAt - appointedAt;
    var calculated := diff / 3600;
    if calculated < MinimumPrice then MinimumPrice else calculated
  }

  /** An appointment of zero or negative length costs exactly the minimum. */
  lemma NonPositiveDurationCostsMinimum(appointedAt: int, endsAt: int)
    requires endsAt <= appointedAt
    ensures GetAppointmentPrice(appointedAt, endsAt) == MinimumPrice
  {
  }

  /** 1000 per hour: an appointment of `h >= 1` whole hours costs `1000 * h`. */
  lemma WholeHours(appointedAt: int, h: int)
    requires h >= 1
    ensures GetAppointmentPrice(appointedAt, appointedAt + h * 3600000) == 1000 * h
  {
    assert h * 3600000 == (1000 * h) * 3600;
  }

  /** A longer appointment never costs less. */
  lemma PriceMonotone(a1: int, e1: int, a2: int, e2: int)
    requires e1 - a1 <= e2 - a2
    ensures GetAppointmentPrice(a1, e1) <= GetAppointmentPrice(a2, e2)
  {
  }

  /** `trainerAppoint` calls `getAppointmentPrice(endsAt, appointedAt)`, with the
      arguments swapped: every appointment that does not end before it starts
      is charged the minimum, whatever its length. */
  lemma SwappedArgumentsChargeMinimum(appointedAt: int, endsAt: int)
    requires appointedAt <= endsAt
    ensures GetAppointmentPrice(endsAt, appointedAt) == MinimumPrice
  {
  }
}

=== FILE: repository.dfy ===
/** The generic repository over one table: insert, delete by primary key,
    lookup by primary key, selection, and in-place updates. A table is a map
    from serial primary keys to rows; `nextId` is the key the serial column
    hands out next. Rows come back in ascending key order. */
module Repository {
  import opened Wrappers

  /** The rows of `rows` that `matches` selects are replaced by `change` of
      themselves (`UPDATE ... SET ... WHERE ...`). */
  function Updated<R>(rows: map<nat, R>, matches: (nat, R) -> bool, change: R -> R): (out: map<nat, R>)
    ensures out.Keys == rows.Keys
    ensures forall id :: id in rows && matches(id, rows[id]) ==> out[id] == change(rows[id])
    ensures forall id :: id in rows && !matches(id, rows[id]) ==> out[id] == rows[id]
  {
    map id | id in rows :: if matches(id, rows[id]) then change(rows[id]) else rows[id]
  }

  /** Every key is below `bound`. */
  predicate Bounded<R>(rows: map<nat, R>, bound: nat) {
    forall id :: id in rows ==> 0 < id < bound
  }

  /** The selected rows with keys from `i` up to `bound`, in ascending key order. */
  function SelectFrom<R>(rows: map<nat, R>, bound: nat, matches: (nat, R) -> bool, i: nat): (out: seq<(nat, R)>)
    decreases if i <= bound then bound - i else 0
    ensures forall k :: 0 <= k < |out| ==>
      i <= out[k].0 < bound && out[k].0 in rows && rows[out[k].0] == out[k].1 && matches(out[k].0, out[k].1)
  {
    if i >= bound then []
    else if i in rows && matches(i, rows[i]) then [(i, rows[i])] + SelectFrom(rows, bound, matches, i + 1)
    else SelectFrom(rows, bound, matches, i + 1)
  }

  /** The keys of a sequence of rows ascend strictly. */
  predicate Ascending<R>(out: seq<(nat, R)>) {
    forall k, l :: 0 <= k < l < |out| ==> out[k].0 < out[l].0
  }

  /** Every selected row with a key in `lo..hi` is in `out`. */
  predicate Covers<R>(out: seq<(nat, R)>, rows: map<nat, R>, matches: (nat, R) -> bool, lo: nat, hi: nat) {
    forall id :: lo <= id < hi && id in rows && matches(id, rows[id]) ==>
      exists k :: 0 <= k < |out| && out[k].0 == id
  }

  lemma ConsAscending<R>(x: (nat, R), rest: seq<(nat, R)>)
    requires Ascending(rest)
    requires forall k :: 0 <= k < |rest| ==> x.0 < rest[k].0
    ensures Ascending([x] + rest)
  {
    var out := [x] + rest;
    forall k, l | 0 <= k < l < |out| ensures out[k].0 < out[l].0 {
      assert out[l] == rest[l - 1];
      if k > 0 {
        assert out[k] == rest[k - 1];
      }
    }
  }

  lemma ConsCovers<R>(rows: map<nat, R>, matches: (nat, R) -> bool, i: nat, hi: nat, rest: seq<(nat, R)>)
    requires i in rows && Covers(rest, rows, matches, i + 1, hi)
    ensures Covers([(i, rows[i])] + rest, rows, matches, i, hi)
  {
    var out := [(i, rows[i])] + rest;
    forall id | i <= id < hi && id in rows && matches(id, rows[id])
      ensures exists k :: 0 <= k < |out| && out[k].0 == id
    {
      if id == i {
        assert out[0].0 == id;
      } else {
        var k :| 0 <= k < |rest| && rest[k].0 == id;
        assert out[k + 1].0 == id;
      }
    }
  }

  /** The keys of a selection ascend strictly. */
  lemma {:induction false} SelectFromSorted<R>(rows: map<nat, R>, bound: nat, matches: (nat, R) -> bool, i: nat)
    decreases if i <= bound then bound - i else 0
    ensures Ascending(SelectFrom(rows, bound, matches, i))
  {
    if i < bound {
      SelectFromSorted(rows, bound, matches, i + 1);
      if i in rows && matches(i, rows[i]) {
        ConsAscending((i, rows[i]), SelectFrom(rows, bound, matches, i + 1));
      }
    }
  }

  /** A selection misses no selected row with a key in `i..bound`. */
  lemma {:induction false} SelectFromComplete<R>(rows: map<nat, R>, bound: nat, matches: (nat, R) -> bool, i: nat)
    decreases if i <= bound then bound - i else 0
    ensures Covers(SelectFrom(rows, bound, matches, i), rows, matches, i, bound)
  {
    if i < bound {
      SelectFromComplete(rows, bound, matches, i + 1);
      if i in rows && matches(i, rows[i]) {
        ConsCovers(rows, matches, i, bound, SelectFrom(rows, bound, matches, i + 1));
      }
    }
  }

  /** `SELECT ... WHERE ...` on a table whose keys are below `bound`: every
      selected row, once each, in key order. */
  function Select<R>(rows: map<nat, R>, bound: nat, matches: (nat, R) -> bool): (out: seq<(nat, R)>)
    ensures forall k :: 0 <= k < |out| ==>
      out[k].0 in rows && rows[out[k].0] == out[k].1 && matches(out[k].0, out[k].1)
    ensures forall k, l :: 0 <= k < l < |out| ==> out[k].0 < out[l].0
    ensures Bounded(rows, bound) ==> forall id :: id in rows && matches(id, rows[id]) ==>
      exists k :: 0 <= k < |out| && out[k].0 == id
  {
    SelectFromSorted(rows, bound, matches, 0);
    SelectFromComplete(rows, bound, matches, 0);
    SelectFrom(rows, bound, matches, 0)
  }

  /** `getAll()`: every row of the table. */
  function GetAll<R>(rows: map<nat, R>, bound: nat): (out: seq<(nat, R)>)
    ensures forall k :: 0 <= k < |out| ==> out[k].0 in rows && rows[out[k].0] == out[k].1
    ensures forall k, l :: 0 <= k < l < |out| ==> out[k].0 < out[l].0
    ensures Bounded(rows, bound) ==> forall id :: id in rows ==> exists k :: 0 <= k < |out| && out[k].0 == id
  {
    Select(rows, bound, (id, row) => true)
  }

  /** `executeTakeFirst()` of a selection: the selected row with the lowest key. */
  function First<R>(rows: map<nat, R>, bound: nat, matches: (nat, R) -> bool): (r: Option<nat>)
    ensures r.Some? ==> r.value in rows && matches(r.value, rows[r.value])
    ensures r.Some? ==> forall id :: id in rows && matches(id, rows[id]) ==> r.value <= id
    ensures Bounded(rows, bound) && r.None? ==> forall id :: id in rows ==> !matches(id, rows[id])
  {
    var out := Select(rows, bound, matches);
    if |out| == 0 then None
    else
      assert forall id :: id in rows && matches(id, rows[id]) ==> out[0].0 <= id by {
        forall id | id in rows && matches(id, rows[id]) ensures out[0].0 <= id {
          SelectFromComplete(rows, bound, matches, 0);
          if id < bound {
            var k :| 0 <= k < |out| && out[k].0 == id;
            assert k == 0 || out[0].0 < out[k].0;
          }
        }
      }
      Some(out[0].0)
  }

  /** `ORDER BY key DESC` and `executeTakeFirst()`: the selected row with the
      highest key. */
  function Last<R>(rows: map<nat, R>, bound: nat, matches: (nat, R) -> bool): (r: Option<nat>)
    ensures r.Some? ==> r.value in rows && matches(r.value, rows[r.value])
    ensures r.Some? && Bounded(rows, bound) ==> forall id :: id in rows && matches(id, rows[id]) ==> id <= r.value
    ensures Bounded(rows, bound) && r.None? ==> forall id :: id in rows ==> !matches(id, rows[id])
  {
    var out := Select(rows, bound, matches);
    if |out| == 0 then None
    else
      assert Bounded(rows, bound) ==> forall id :: id in rows && matches(id, rows[id]) ==> id <= out[|out| - 1].0 by {
        if Bounded(rows, bound) {
          forall id | id in rows && matches(id, rows[id]) ensures id <= out[|out| - 1].0 {
            var k :| 0 <= k < |out| && out[k].0 == id;
            assert k == |out| - 1 || out[k].0 < out[|out| - 1].0;
          }
        }
      }
      Some(out[|out| - 1].0)
  }

  /** `First` depends only on which keys are selected: two tables with the
      same keys, selected alike key by key, give the same first row. */
  lemma FirstAgrees<R, S>(rows1: map<nat, R>, m1: (nat, R) -> bool, rows2: map<nat, S>, m2: (nat, S) -> bool, bound: nat)
    requires Bounded(rows1, bound) && rows1.Keys == rows2.Keys
    requires forall id :: id in rows1 ==> m1(id, rows1[id]) == m2(id, rows2[id])
    ensures First(rows1, bound, m1) == First(rows2, bound, m2)
  {
    var f1, f2 := First(rows1, bound, m1), First(rows2, bound, m2);
    if f1.Some? && f2.Some? {
      assert f1.value <= f2.value && f2.value <= f1.value;
    }
  }

  class Table<R> {
    var rows: map<nat, R>
    var nextId: nat

    /** Every key was handed out by the serial column, which starts at 1. */
    ghost predicate Valid()
      reads this
    {
      0 < nextId && Bounded(rows, nextId)
    }

    constructor ()
      ensures Valid() && rows == map[] && nextId == 1
    {
      rows := map[];
      nextId := 1;
    }

    /** `add(insertable)`: `INSERT ... RETURNING *`. The key is the next serial
        value. A database failure `fault` is returned as an `Error` carrying its
        message, and then the table is unchanged. */
    method Add(row: R, fault: Option<string>) returns (r: Result<nat, string>)
      requires Valid()
      modifies this
      ensures Valid()
      ensures fault.Some? ==> r == Failure(fault.value) && rows == old(rows) && nextId == old(nextId)
      ensures fault.None? ==> r == Success(old(nextId)) && old(nextId) !in old(rows)
      ensures fault.None? ==> rows == old(rows)[old(nextId) := row] && nextId == old(nextId) + 1
    {
      if fault.Some? {
        return Failure(fault.value);
      }
      r := Success(nextId);
      rows := rows[nextId := row];
      nextId := nextId + 1;
    }

    /** `delete(primaryKey)`: removes the row with that key, if any. */
    method Delete(id: nat)
      requires Valid()
      modifies this
      ensures Valid()
      ensures rows == old(rows) - {id} && nextId == old(nextId)
    {
      rows := rows - {id};
    }

    /** `get(primaryKey)`: the row with that key, or nothing. */
    function Get(id: nat): (r: Option<R>)
      reads this
      ensures r.Some? <==> id in rows
      ensures r.Some? ==> r.value == rows[id]
    {
      if id in rows then Some(rows[id]) else None
    }

    /** `UPDATE table SET ... WHERE key = id`: changes that row in place, if
        it exists. */
    method UpdateRow(id: nat, change: R -> R)
      requires Valid()
      modifies this
      ensures Valid()
      ensures id in old(rows) ==> rows == old(rows)[id := change(old(rows)[id])]
      ensures id !in old(rows) ==> rows == old(rows)
      ensures nextId == old(nextId)
    {
      if id in rows {
        rows := rows[id := change(rows[id])];
      }
    }

    /** `UPDATE table SET ... WHERE ...`: changes the selected rows in place. */
    method Update(matches: (nat, R) -> bool, change: R -> R)
      requires Valid()
      modifies this
      ensures Valid()
      ensures rows == Updated(old(rows), matches, change) && nextId == old(nextId)
    {
      rows := Updated(rows, matches, change);
    }

    /** Rolling back a transaction: the rows and the serial counter return to
        a state saved before it began. */
    method Restore(saved: map<nat, R>, savedNext: nat)
      requires 0 < savedNext && Bounded(saved, savedNext)
      modifies this
      ensures Valid() && rows == saved && nextId == savedNext
    {
      rows := saved;
      nextId := savedNext;
    }
  }

  /** Deleting by key removes that row only: every other row is kept as it was. */
  lemma DeleteKeepsOthers<R>(rows: map<nat, R>, id: nat, other: nat)
    requires other in rows && other != id
    ensures other in rows - {id} && (rows - {id})[other] == rows[other]
    ensures id !in rows - {id}
  {
  }
}

=== FILE: routes.dfy ===
/** Four routes that tie the repositories together: subscribing to a
    membership, freezing it, logging in and entering a gym. Each first decides,
    without writing anything, whether the request is refused; the decision is
    a function here, and the route is a method that writes the response and
    the tables. */
module Routes {
  import opened Wrappers
  import opened Values
  import opened Tables
  import Zod
  import Decimal
  import Calendar
  import Api
  import Bearer
  import Rows
  import Repository
  import Pricing
  import Sessions
  import Clients
  import Memberships
  import Payments
  import Visits
  import Middleware

  /** The outcome of a route's checks: refused with what it throws, or going
      ahead with what the checks found. */
  datatype Check<T> = Refuse(thrown: Api.Thrown) | Go(value: T)

  /** What a route throws as a plain string. */
  function Says(message: string): Api.Thrown {
    Api.Plain(Str(message))
  }

  /** The membership `revoke` leaves behind: the existing one, if any, expires
      now and is unfrozen. */
  function Revoked(rows: map<nat, Membership>, existing: Option<nat>, now: int): (out: map<nat, Membership>)
    ensures out.Keys == rows.Keys
    ensures forall id :: id in rows && existing != Some(id) ==> out[id] == rows[id]
    ensures existing.Some? && existing.value in rows ==>
      out[existing.value] == rows[existing.value].(expiresAt := now, freezedAt := None)
  {
    if existing.Some? && existing.value in rows then
      rows[existing.value := rows[existing.value].(expiresAt := now, freezedAt := None)]
    else rows
  }

  /** The body of `POST /membership` as the route reads it: the bank card's
      key and the level, present exactly when `Subscribe` accepts the body. */
  function SubscribeRequest(fmts: Zod.Formats, body: Value): (r: Option<(int, Level)>)
    ensures r.Some? <==> Zod.Validate(Memberships.Schemas(Memberships.Subscribe), fmts, body).Success?
    ensures r.Some? ==> (body.Obj? && Lookup(body.fields, "bank_card_id") == Some(Num(r.value.0)) &&
      Lookup(body.fields, "level_type") == Some(Str(Rows.LevelName(r.value.1))))
  {
    Memberships.SubscribeAccepts(fmts, body);
    if Zod.Validate(Memberships.Schemas(Memberships.Subscribe), fmts, body).Success? then
      Some((body.fields["bank_card_id"].n, Rows.LevelOf(body.fields["level_type"].s).value))
    else None
  }

  /** The card is stored and belongs to the client. */
  predicate OwnsCard(cards: map<nat, BankCard>, card: int, clientId: nat) {
    0 <= card && card in cards && cards[card].clientId == clientId
  }

  /** The checks of `POST /membership` (routes/membership/index.post.ts): the
      body, then the bank card (it must exist and be the caller's), then the
      caller's unexpired membership (one of the requested level refuses the
      request; one of another level is to be revoked). Each outcome is stated
      by the condition that leads to it. */
  function SubscribeCheck(fmts: Zod.Formats, body: Value, clientId: nat, cards: map<nat, BankCard>,
                          memberships: map<nat, Membership>, bound: nat, now: int)
    : (c: Check<(nat, Level, Option<nat>)>)
    ensures SubscribeRequest(fmts, body).None? ==>
      c == Refuse(Api.ZodError(Zod.Validate(Memberships.Schemas(Memberships.Subscribe), fmts, body).error))
    ensures var req := SubscribeRequest(fmts, body);
      c == Refuse(Says("Not found")) <==> req.Some? && (req.value.0 < 0 || req.value.0 !in cards)
    ensures var req := SubscribeRequest(fmts, body);
      c == Refuse(Says("Unauthorized")) <==>
        req.Some? && 0 <= req.value.0 && req.value.0 in cards && cards[req.value.0].clientId != clientId
    ensures c.Refuse? && Api.StatusCode(c.thrown) == 401 <==> c == Refuse(Says("Unauthorized"))
    ensures var req := SubscribeRequest(fmts, body);
      var existing := Memberships.GetAny(memberships, bound, clientId, now);
      c == Refuse(Says("Already subscribed")) <==>
        req.Some? && OwnsCard(cards, req.value.0, clientId) &&
        existing.Some? && memberships[existing.value].levelType == req.value.1
    ensures var req := SubscribeRequest(fmts, body);
      var existing := Memberships.GetAny(memberships, bound, clientId, now);
      c.Go? <==> (req.Some? && OwnsCard(cards, req.value.0, clientId) &&
        !(existing.Some? && memberships[existing.value].levelType == req.value.1))
    ensures var req := SubscribeRequest(fmts, body);
      c.Go? ==> req.Some? && c.value == (req.value.0 as nat, req.value.1, Memberships.GetAny(memberships, bound, clientId, now))
  {
    var v := Zod.Validate(Memberships.Schemas(Memberships.Subscribe), fmts, body);
    if v.Failure? then Refuse(Api.ZodError(v.error))
    else
      Memberships.SubscribeAccepts(fmts, body);
      var n := body.fields["bank_card_id"].n;
      if n < 0 || n !in cards then Refuse(Says("Not found"))
      else if cards[n].clientId != clientId then Refuse(Says("Unauthorized"))
      else
        var level := Rows.LevelOf(body.fields["level_type"].s).value;
        var existing := Memberships.GetAny(memberships, bound, clientId, now);
        if existing.Some? && memberships[existing.value].levelType == level then Refuse(Says("Already subscribed"))
        else Go((n as nat, level, existing))
  }

  /** The body of a successful subscription. */
  function SubscribedBody(id: nat, m: Membership): (v: Value)
    ensures v.Obj? && "success" in v.fields && v.fields["success"] == Bool(true)
  {
    Obj(map["success" := Bool(true), "subscription" := Rows.MembershipValue(id, m)])
  }

  /** `POST /membership`: refused as `SubscribeCheck` says, with nothing
      written; otherwise the caller's membership of another level is revoked
      and the subscription transaction runs. If it fails the revocation stays,
      the other tables are as before, and the failure is the 400 response. */
  method Subscribe(res: Api.Response, fmts: Zod.Formats, body: Value, clientId: nat, cards: map<nat, BankCard>,
                   payments: Repository.Table<PaymentHistory>, memberships: Repository.Table<Membership>,
                   links: Repository.Table<MembershipPaymentHistory>, now: int, faults: Payments.Faults)
    requires payments.Valid() && memberships.Valid() && links.Valid()
    modifies res, payments, memberships, links
    ensures payments.Valid() && memberships.Valid() && links.Valid()
    ensures var c := SubscribeCheck(fmts, body, clientId, cards, old(memberships.rows), old(memberships.nextId), now);
      c.Refuse? ==>
        res.status == Api.StatusCode(c.thrown) && res.body == Some(Api.ErrorBody(c.thrown)) &&
        payments.rows == old(payments.rows) && memberships.rows == old(memberships.rows) &&
        links.rows == old(links.rows)
    ensures var c := SubscribeCheck(fmts, body, clientId, cards, old(memberships.rows), old(memberships.nextId), now);
      c.Go? && faults.Failed() ==>
        res.status == 400 && res.body == Some(Api.ErrorBody(Api.Error(faults.Reason()))) &&
        payments.rows == old(payments.rows) && links.rows == old(links.rows) &&
        memberships.rows == Revoked(old(memberships.rows), c.value.2, now)
    ensures var c := SubscribeCheck(fmts, body, clientId, cards, old(memberships.rows), old(memberships.nextId), now);
      c.Go? && !faults.Failed() ==>
        var m := Membership(clientId, c.value.1, now, now + Payments.MembershipDays * Calendar.DAY, None);
        res.status == old(res.status) && res.body == Some(SubscribedBody(old(memberships.nextId), m)) &&
        memberships.rows == Revoked(old(memberships.rows), c.value.2, now)[old(memberships.nextId) := m] &&
        payments.rows == old(payments.rows)[old(payments.nextId) :=
          PaymentHistory(clientId, c.value.0, Pricing.MembershipPrice(c.value.1), now, now, false)] &&
        links.rows == old(links.rows)[old(links.nextId) :=
          MembershipPaymentHistory(clientId, old(payments.nextId), old(memberships.nextId), now)]
  {
    var c := SubscribeCheck(fmts, body, clientId, cards, memberships.rows, memberships.nextId, now);
    if c.Refuse? {
      res.ThrowError(c.thrown);
      return;
    }
    var (card, level, existing) := c.value;
    if existing.Some? {
      Memberships.Revoke(memberships, existing.value, now);
    }
    var subscription := Payments.MembershipSubscribe(payments, memberships, links, clientId, card, level, now, faults);
    var isError := res.AssertError(subscription);
    if isError {
      return;
    }
    res.Json(SubscribedBody(subscription.value, memberships.rows[subscription.value]));
  }

  /** The membership a `POST /membership/freeze` body names: the number of
      its all-digit `membership_id`, present exactly when `Freeze` accepts the
      body. */
  function FreezeRequest(fmts: Zod.Formats, body: Value): (r: Option<nat>)
    ensures r.Some? <==> Zod.Validate(Memberships.Schemas(Memberships.Freeze), fmts, body).Success?
    ensures r.Some? ==> (body.Obj? && "membership_id" in body.fields && body.fields["membership_id"].Str? &&
      Decimal.IsDigits(body.fields["membership_id"].s) && Decimal.Value(body.fields["membership_id"].s) == r.value)
  {
    Memberships.FreezeNeedsDigits(fmts, body);
    if Zod.Validate(Memberships.Schemas(Memberships.Freeze), fmts, body).Success? then
      Some(Decimal.Value(body.fields["membership_id"].s))
    else None
  }

  /** The checks of `POST /membership/freeze`: the body, then the membership
      it names (it must exist, be the caller's and expire strictly after now).
      A membership that is already frozen is not refused. Each outcome is
      stated by the condition that leads to it. */
  function FreezeCheck(fmts: Zod.Formats, body: Value, clientId: nat, memberships: map<nat, Membership>, now: int)
    : (c: Check<nat>)
    ensures FreezeRequest(fmts, body).None? ==>
      c == Refuse(Api.ZodError(Zod.Validate(Memberships.Schemas(Memberships.Freeze), fmts, body).error))
    ensures var id := FreezeRequest(fmts, body);
      c == Refuse(Says("Not found")) <==> id.Some? && id.value !in memberships
    ensures var id := FreezeRequest(fmts, body);
      c == Refuse(Says("Unauthorized")) <==>
        id.Some? && id.value in memberships && memberships[id.value].clientId != clientId
    ensures var id := FreezeRequest(fmts, body);
      c == Refuse(Says("Membership expired")) <==>
        id.Some? && id.value in memberships && memberships[id.value].clientId == clientId &&
        memberships[id.value].expiresAt <= now
    ensures var id := FreezeRequest(fmts, body);
      c.Go? <==> (id.Some? && id.value in memberships && memberships[id.value].clientId == clientId &&
        now < memberships[id.value].expiresAt)
    ensures c.Go? ==> FreezeRequest(fmts, body) == Some(c.value)
  {
    var v := Zod.Validate(Memberships.Schemas(Memberships.Freeze), fmts, body);
    if v.Failure? then Refuse(Api.ZodError(v.error))
    else
      Memberships.FreezeNeedsDigits(fmts, body);
      var id := Decimal.Value(body.fields["membership_id"].s);
      if id !in memberships then Refuse(Says("Not found"))
      else if memberships[id].clientId != clientId then Refuse(Says("Unauthorized"))
      else if memberships[id].expiresAt <= now then Refuse(Says("Membership expired"))
      else Go(id)
  }

  /** The body of a successful freeze: the updated rows. */
  function FrozenBody(frozen: seq<(nat, Membership)>): (v: Value)
    ensures v.Obj? && "freeze" in v.fields && v.fields["freeze"].Arr? && |v.fields["freeze"].items| == |frozen|
  {
    Obj(map["success" := Bool(true),
            "freeze" := Arr(seq(|frozen|, i requires 0 <= i < |frozen| => Rows.MembershipValue(frozen[i].0, frozen[i].1)))])
  }

  /** `POST /membership/freeze`: refused as `FreezeCheck` says, with nothing
      written; otherwise the membership is frozen now and sent back. */
  method Freeze(res: Api.Response, fmts: Zod.Formats, body: Value, clientId: nat,
                memberships: Repository.Table<Membership>, now: int)
    requires memberships.Valid()
    modifies res, memberships
    ensures memberships.Valid() && memberships.nextId == old(memberships.nextId)
    ensures var c := FreezeCheck(fmts, body, clientId, old(memberships.rows), now);
      c.Refuse? ==>
        res.status == Api.StatusCode(c.thrown) && res.body == Some(Api.ErrorBody(c.thrown)) &&
        memberships.rows == old(memberships.rows)
    ensures var c := FreezeCheck(fmts, body, clientId, old(memberships.rows), now);
      c.Go? ==>
        var m := old(memberships.rows)[c.value].(freezedAt := Some(now));
        memberships.rows == old(memberships.rows)[c.value := m] &&
        res.status == old(res.status) && res.body == Some(FrozenBody([(c.value, m)]))
  {
    var c := FreezeCheck(fmts, body, clientId, memberships.rows, now);
    if c.Refuse? {
      res.ThrowError(c.thrown);
      return;
    }
    var frozen := Memberships.FreezeAt(memberships, c.value, now);
    res.Json(FrozenBody(frozen));
  }

  /** A membership expiring exactly now is still the caller's unexpired
      membership for `getAny`, yet the freeze route calls it expired. */
  lemma ExpiringNowCannotFreeze(fmts: Zod.Formats, body: Value, clientId: nat, memberships: map<nat, Membership>,
                                now: int)
    requires Zod.Validate(Memberships.Schemas(Memberships.Freeze), fmts, body).Success?
    requires var id := Decimal.Value(body.fields["membership_id"].s);
      id in memberships && memberships[id].clientId == clientId && memberships[id].expiresAt == now
    ensures Memberships.Unexpired(memberships[Decimal.Value(body.fields["membership_id"].s)], now)
    ensures FreezeCheck(fmts, body, clientId, memberships, now) == Refuse(Says("Membership expired"))
  {
    Memberships.FreezeNeedsDigits(fmts, body);
  }

  /** Freezing is not refused for a frozen membership; freezing it again
      restarts the frozen time, so a later unfreeze gives back only the time
      since the second freeze. */
  lemma RefreezeRestartsFrozenTime(fmts: Zod.Formats, body: Value, clientId: nat, memberships: map<nat, Membership>,
                                   first: int, now: int, later: int)
    requires FreezeCheck(fmts, body, clientId, memberships, first).Go?
    requires first < now < memberships[FreezeCheck(fmts, body, clientId, memberships, first).value].expiresAt
    requires now <= later
    ensures var id := FreezeCheck(fmts, body, clientId, memberships, first).value;
      var once := memberships[id := memberships[id].(freezedAt := Some(first))];
      var twice := once[id := once[id].(freezedAt := Some(now))];
      FreezeCheck(fmts, body, clientId, once, now) == Go(id) &&
      Memberships.Thawed(twice[id], twice[id], later).expiresAt < Memberships.Thawed(once[id], once[id], later).expiresAt
  {
    var id := FreezeCheck(fmts, body, clientId, memberships, first).value;
    Memberships.FreezeNeedsDigits(fmts, body);
  }

  /** The e-mail address and password of a `POST /client/login` body,
      present exactly when `SignIn` accepts the body. */
  function LoginRequest(fmts: Zod.Formats, body: Value): (r: Option<(string, string)>)
    ensures r.Some? <==> Zod.Validate(Clients.Schemas(Clients.SignIn), fmts, body).Success?
    ensures r.Some? ==> (body.Obj? && Lookup(body.fields, "email_address") == Some(Str(r.value.0)) &&
      Lookup(body.fields, "password") == Some(Str(r.value.1)))
  {
    Clients.SignInAccepts(fmts, body);
    if Zod.Validate(Clients.Schemas(Clients.SignIn), fmts, body).Success? then
      Some((body.fields["email_address"].s, body.fields["password"].s))
    else None
  }

  /** The checks of `POST /client/login`: the body, then the client with that
      e-mail address, then the password's hash against the stored one. Each
      outcome is stated by the condition that leads to it. */
  function LoginCheck(env: Sessions.Env, fmts: Zod.Formats, body: Value, clients: map<nat, Client>, bound: nat)
    : (c: Check<nat>)
    ensures LoginRequest(fmts, body).None? ==>
      c == Refuse(Api.ZodError(Zod.Validate(Clients.Schemas(Clients.SignIn), fmts, body).error))
    ensures var req := LoginRequest(fmts, body);
      c == Refuse(Says("Not found")) <==> req.Some? && Clients.GetByEmail(clients, bound, req.value.0).None?
    ensures var req := LoginRequest(fmts, body);
      Repository.Bounded(clients, bound) ==>
        (c == Refuse(Says("Not found")) <==>
          req.Some? && forall id :: id in clients ==> clients[id].emailAddress != req.value.0)
    ensures var req := LoginRequest(fmts, body);
      c == Refuse(Says("Incorrect password")) <==>
        req.Some? && Clients.GetByEmail(clients, bound, req.value.0).Some? &&
        clients[Clients.GetByEmail(clients, bound, req.value.0).value].passwordHash != Sessions.HashPassword(env, req.value.1)
    ensures var req := LoginRequest(fmts, body);
      c.Go? <==>
        req.Some? && Clients.GetByEmail(clients, bound, req.value.0).Some? &&
        clients[Clients.GetByEmail(clients, bound, req.value.0).value].passwordHash == Sessions.HashPassword(env, req.value.1)
    ensures c.Go? ==> (c.value in clients && LoginRequest(fmts, body).Some? &&
      clients[c.value].emailAddress == LoginRequest(fmts, body).value.0 &&
      clients[c.value].passwordHash == Sessions.HashPassword(env, LoginRequest(fmts, body).value.1))
  {
    var v := Zod.Validate(Clients.Schemas(Clients.SignIn), fmts, body);
    if v.Failure? then Refuse(Api.ZodError(v.error))
    else
      Clients.SignInAccepts(fmts, body);
      var passwordHash := Sessions.HashPassword(env, body.fields["password"].s);
      var client := Clients.GetByEmail(clients, bound, body.fields["email_address"].s);
      if client.None? then Refuse(Says("Not found"))
      else if clients[client.value].passwordHash != passwordHash then Refuse(Says("Incorrect password"))
      else Go(client.value)
  }

  /** Under the unique e-mail constraint, the client registered with the
      address is the one that logs in when its password is right, and is told
      the password is wrong otherwise. */
  lemma CorrectCredentialsLogIn(env: Sessions.Env, fmts: Zod.Formats, body: Value, clients: map<nat, Client>,
                                bound: nat, id: nat)
    requires Clients.UniqueEmails(clients) && Repository.Bounded(clients, bound)
    requires LoginRequest(fmts, body).Some?
    requires id in clients && clients[id].emailAddress == LoginRequest(fmts, body).value.0
    ensures clients[id].passwordHash == Sessions.HashPassword(env, LoginRequest(fmts, body).value.1) ==>
      LoginCheck(env, fmts, body, clients, bound) == Go(id)
    ensures clients[id].passwordHash != Sessions.HashPassword(env, LoginRequest(fmts, body).value.1) ==>
      LoginCheck(env, fmts, body, clients, bound) == Refuse(Says("Incorrect password"))
  {
  }

  /** The body of a successful login: the session without `client_id` and the
      client without `password_hash`. */
  function LoggedInBody(sessionId: nat, session: Session, clientId: nat, client: Client): (v: Value)
    ensures v.Obj? && "session" in v.fields && "client" in v.fields
    ensures v.fields["client"].Obj? && "password_hash" !in v.fields["client"].fields
    ensures v.fields["session"].Obj? && "client_id" !in v.fields["session"].fields
  {
    Obj(map["success" := Bool(true),
            "session" := Rows.Without(Rows.SessionValue(sessionId, session), "client_id"),
            "client" := Rows.Without(Rows.ClientValue(clientId, client), "password_hash")])
  }

  /** `POST /client/login`: refused as `LoginCheck` says, with nothing
      written; otherwise a session is created for the client. A failure to
      create it (its token already taken, or the insert failing) is the 400
      response; otherwise the session and the client are sent. */
  method Login(res: Api.Response, env: Sessions.Env, fmts: Zod.Formats, body: Value, clients: map<nat, Client>,
               clientBound: nat, sessions: Repository.Table<Session>, now: int, fault: Option<string>)
    requires sessions.Valid() && Sessions.UniqueTokens(sessions.rows)
    modifies res, sessions
    ensures sessions.Valid() && Sessions.UniqueTokens(sessions.rows)
    ensures var c := LoginCheck(env, fmts, body, clients, clientBound);
      c.Refuse? ==>
        res.status == Api.StatusCode(c.thrown) && res.body == Some(Api.ErrorBody(c.thrown)) &&
        sessions.rows == old(sessions.rows)
    ensures var c := LoginCheck(env, fmts, body, clients, clientBound);
      c.Go? ==>
        var jwt := Sessions.YieldJWT(env, clients, c.value, now, Calendar.DaysLater(now, Sessions.SessionDays)).value;
        (Sessions.TokenTaken(old(sessions.rows), jwt) ==>
          res.status == 400 && res.body == Some(Api.ErrorBody(Api.Error(Sessions.DuplicateToken))) &&
          sessions.rows == old(sessions.rows)) &&
        (!Sessions.TokenTaken(old(sessions.rows), jwt) && fault.Some? ==>
          res.status == 400 && res.body == Some(Api.ErrorBody(Api.Error(fault.value))) &&
          sessions.rows == old(sessions.rows)) &&
        (!Sessions.TokenTaken(old(sessions.rows), jwt) && fault.None? ==>
          var session := Session(c.value, jwt, false, now, now + Sessions.SessionDays * Calendar.DAY);
          sessions.rows == old(sessions.rows)[old(sessions.nextId) := session] &&
          res.status == old(res.status) &&
          res.body == Some(LoggedInBody(old(sessions.nextId), session, c.value, clients[c.value])))
  {
    var c := LoginCheck(env, fmts, body, clients, clientBound);
    if c.Refuse? {
      res.ThrowError(c.thrown);
      return;
    }
    var session := Sessions.Create(env, sessions, clients, c.value, now, fault);
    var isError := res.AssertError(session);
    if isError {
      return;
    }
    res.Json(LoggedInBody(session.value, sessions.rows[session.value], c.value, clients[c.value]));
  }

  /** JavaScript truthiness of an optional number: present and not 0. */
  predicate Truthy(v: Option<Value>) {
    v.Some? && v.value.Num? && v.value.n != 0
  }

  /** `req.body.client_id ?? res.locals.client.client_id`: the body's client
      whenever it is present, 0 included. */
  function VisitTarget(fields: map<string, Value>, caller: nat): (target: int)
    requires "client_id" in fields ==> fields["client_id"].Num?
    ensures "client_id" !in fields ==> target == caller
    ensures "client_id" in fields ==> Num(target) == fields["client_id"]
  {
    if "client_id" in fields then fields["client_id"].n else caller
  }

  /** The foreign-key violation of an insert into `visit_history` whose client
      or gym key cannot exist; the client's constraint is checked first. */
  function ForeignKeyViolation(column: string): string {
    "insert or update on table \"visit_history\" violates foreign key constraint \"visit_history_" + column + "_fkey\""
  }

  /** The checks of `POST /gym/visit`: the body, then, when it names a client
      (a truthy `client_id`), that the caller is an administrator. The visit
      goes to the target client and the gym. Each outcome is stated by the
      condition that leads to it. */
  function VisitCheck(fmts: Zod.Formats, body: Value, caller: nat, staff: Option<Sessions.Staff>)
    : (c: Check<(int, int)>)
    ensures c.Go? ==> (Zod.Validate(Visits.Schemas(Visits.SchemaKey.Enter), fmts, body).Success? &&
      (Truthy(Lookup(body.fields, "client_id")) ==> Middleware.IsAdmin(staff)) &&
      "gym_id" in body.fields && Num(c.value.1) == body.fields["gym_id"] && c.value.0 == VisitTarget(body.fields, caller))
    ensures (Zod.Validate(Visits.Schemas(Visits.SchemaKey.Enter), fmts, body).Success? &&
      Truthy(Lookup(body.fields, "client_id")) && !Middleware.IsAdmin(staff)) <==> c == Refuse(Says("Unauthorized"))
    ensures Zod.Validate(Visits.Schemas(Visits.SchemaKey.Enter), fmts, body).Failure? ==>
      c == Refuse(Api.ZodError(Zod.Validate(Visits.Schemas(Visits.SchemaKey.Enter), fmts, body).error))
    ensures c.Go? <==> (Zod.Validate(Visits.Schemas(Visits.SchemaKey.Enter), fmts, body).Success? &&
      (Truthy(Lookup(body.fields, "client_id")) ==> Middleware.IsAdmin(staff)))
  {
    var v := Zod.Validate(Visits.Schemas(Visits.SchemaKey.Enter), fmts, body);
    if v.Failure? then Refuse(Api.ZodError(v.error))
    else
      Visits.EnterAccepts(fmts, body);
      if Truthy(Lookup(body.fields, "client_id")) && !Middleware.IsAdmin(staff) then Refuse(Says("Unauthorized"))
      else Go((VisitTarget(body.fields, caller), body.fields["gym_id"].n))
  }

  /** A `client_id` of 0 is falsy, so anyone may send it; yet `??` keeps it,
      and the visit is for client 0 rather than for the caller. */
  lemma ZeroClientIdTargetsClientZero(fmts: Zod.Formats, gymId: int, caller: nat, staff: Option<Sessions.Staff>)
    ensures var body := Obj(map["client_id" := Num(0), "gym_id" := Num(gymId)]);
      VisitCheck(fmts, body, caller, staff) == Go((0, gymId))
  {
    var body := Obj(map["client_id" := Num(0), "gym_id" := Num(gymId)]);
    Visits.EnterAccepts(fmts, body);
  }

  /** The body of a successful entry: the visit without `client_id`. */
  function EnteredBody(id: nat, visit: VisitHistory): (v: Value)
    ensures v.Obj? && "visit_history" in v.fields && v.fields["visit_history"].Obj?
    ensures "client_id" !in v.fields["visit_history"].fields
  {
    Obj(map["success" := Bool(true), "visit_history" := Rows.Without(Rows.VisitValue(id, visit), "client_id")])
  }

  /** The insert of the visit for `clientId` at `gymId`: a negative key
      breaks a foreign key (the client's first); otherwise `enter` runs, and
      its refusal or failure is the 400 response. */
  method EnterVisit(res: Api.Response, visits: Repository.Table<VisitHistory>, clientId: int, gymId: int, now: int,
                    fault: Option<string>)
    requires visits.Valid() && Visits.OneOpen(visits.rows)
    modifies res, visits
    ensures visits.Valid() && Visits.OneOpen(visits.rows)
    ensures clientId < 0 || gymId < 0 ==>
      res.status == 400 && visits.rows == old(visits.rows) &&
      res.body == Some(Api.ErrorBody(Api.Error(ForeignKeyViolation(if clientId < 0 then "client_id" else "gym_id"))))
    ensures clientId >= 0 && gymId >= 0 && Visits.InGym(old(visits.rows), gymId, clientId) ==>
      res.status == 400 && res.body == Some(Api.ErrorBody(Api.Error(Visits.AlreadyInGym))) &&
      visits.rows == old(visits.rows)
    ensures clientId >= 0 && gymId >= 0 && !Visits.InGym(old(visits.rows), gymId, clientId) && fault.Some? ==>
      res.status == 400 && res.body == Some(Api.ErrorBody(Api.Error(fault.value))) &&
      visits.rows == old(visits.rows)
    ensures clientId >= 0 && gymId >= 0 && !Visits.InGym(old(visits.rows), gymId, clientId) && fault.None? ==>
      var visit := VisitHistory(clientId, gymId, now, None);
      visits.rows == old(visits.rows)[old(visits.nextId) := visit] &&
      res.status == old(res.status) && res.body == Some(EnteredBody(old(visits.nextId), visit))
  {
    if clientId < 0 || gymId < 0 {
      var isError := res.AssertError<nat>(Failure(ForeignKeyViolation(if clientId < 0 then "client_id" else "gym_id")));
      return;
    }
    var visit := Visits.EnterGym(visits, gymId as nat, clientId as nat, now, fault);
    var isError := res.AssertError(visit);
    if isError {
      return;
    }
    res.Json(EnteredBody(visit.value, visits.rows[visit.value]));
  }

  /** `POST /gym/visit`: refused as `VisitCheck` says, with nothing written,
      where `staff` is what `getEmployee` gives for the request's token;
      otherwise the visit is entered as `EnterVisit` says for the target
      client and the gym. */
  method Visit(res: Api.Response, fmts: Zod.Formats, body: Value, caller: nat, staff: Option<Sessions.Staff>,
               visits: Repository.Table<VisitHistory>, now: int, fault: Option<string>)
    requires visits.Valid() && Visits.OneOpen(visits.rows)
    modifies res, visits
    ensures visits.Valid() && Visits.OneOpen(visits.rows)
    ensures var c := VisitCheck(fmts, body, caller, staff);
      c.Refuse? ==>
        res.status == Api.StatusCode(c.thrown) && res.body == Some(Api.ErrorBody(c.thrown)) &&
        visits.rows == old(visits.rows)
    ensures var c := VisitCheck(fmts, body, caller, staff);
      c.Go? && (c.value.0 < 0 || c.value.1 < 0) ==>
        res.status == 400 && visits.rows == old(visits.rows) &&
        res.body == Some(Api.ErrorBody(Api.Error(ForeignKeyViolation(if c.value.0 < 0 then "client_id" else "gym_id"))))
    ensures var c := VisitCheck(fmts, body, caller, staff);
      c.Go? && c.value.0 >= 0 && c.value.1 >= 0 && !Visits.InGym(old(visits.rows), c.value.1, c.value.0) &&
      fault.None? ==>
        var visit := VisitHistory(c.value.0, c.value.1, now, None);
        visits.rows == old(visits.rows)[old(visits.nextId) := visit] &&
        res.status == old(res.status) && res.body == Some(EnteredBody(old(visits.nextId), visit))
    ensures var c := VisitCheck(fmts, body, caller, staff);
      c.Go? && c.value.0 >= 0 && c.value.1 >= 0 && (Visits.InGym(old(visits.rows), c.value.1, c.value.0) ||
      fault.Some?) ==>
        res.status == 400 && visits.rows == old(visits.rows) &&
        res.body == Some(Api.ErrorBody(Api.Error(
          if Visits.InGym(old(visits.rows), c.value.1, c.value.0) then Visits.AlreadyInGym else fault.value)))
  {
    var c := VisitCheck(fmts, body, caller, staff);
    if c.Refuse? {
      res.ThrowError(c.thrown);
      return;
    }
    EnterVisit(res, visits, c.value.0, c.value.1, now, fault);
  }
}

=== FILE: rows.dfy ===
/** Rows as the JSON objects the routes send, the enum names, and the client
    row without its password hash. */
module Rows {
  import opened Wrappers
  import opened Values
  import opened Tables

  /** The `level_type` labels, in declaration order. */
  const LevelNames: seq<string> := ["SIMPLE", "INFINITY", "PREMIUM"]

  function LevelName(l: Level): (s: string)
    ensures s in LevelNames
  {
    match l
    case SIMPLE => "SIMPLE"
    case INFINITY => "INFINITY"
    case PREMIUM => "PREMIUM"
  }

  /** The level a label names, if any. */
  function LevelOf(s: string): (l: Option<Level>)
    ensures l.Some? <==> s in LevelNames
    ensures l.Some? ==> LevelName(l.value) == s
  {
    if s == "SIMPLE" then Some(SIMPLE)
    else if s == "INFINITY" then Some(INFINITY)
    else if s == "PREMIUM" then Some(PREMIUM)
    else None
  }

  lemma LevelNameRoundTrip(l: Level)
    ensures LevelOf(LevelName(l)) == Some(l)
  {
  }

  /** The `employee_type` labels, in declaration order. */
  const EmployeeTypeNames: seq<string> := ["ADMIN", "INSTRUCTOR", "TRAINER"]

  function EmployeeTypeName(t: EmployeeType): (s: string)
    ensures s in EmployeeTypeNames
  {
    match t
    case ADMIN => "ADMIN"
    case INSTRUCTOR => "INSTRUCTOR"
    case TRAINER => "TRAINER"
  }

  function EmployeeTypeOf(s: string): (t: Option<EmployeeType>)
    ensures t.Some? <==> s in EmployeeTypeNames
    ensures t.Some? ==> EmployeeTypeName(t.value) == s
  {
    if s == "ADMIN" then Some(ADMIN)
    else if s == "INSTRUCTOR" then Some(INSTRUCTOR)
    else if s == "TRAINER" then Some(TRAINER)
    else None
  }

  /** A client row without `password_hash`, as the joins select it. */
  datatype PublicClient = PublicClient(
    clientId: nat,
    firstName: string,
    lastName: string,
    patronymic: Option<string>,
    profilePictureUrl: string,
    emailAddress: string,
    phoneNumber: string,
    createdAt: int)

  function Public(id: nat, c: Client): PublicClient {
    PublicClient(id, c.firstName, c.lastName, c.patronymic, c.profilePictureUrl,
                 c.emailAddress, c.phoneNumber, c.createdAt)
  }

  /** Dropping the hash keeps everything else: two rows with the same public
      view differ at most in their hash. */
  lemma PublicKeepsTheRest(id: nat, c1: Client, c2: Client)
    requires Public(id, c1) == Public(id, c2)
    ensures c1 == c2.(passwordHash := c1.passwordHash)
  {
  }

  function OptionalTime(t: Option<int>): Value {
    if t.Some? then Time(t.value) else Null
  }

  function OptionalText(s: Option<string>): Value {
    if s.Some? then Str(s.value) else Null
  }

  /** `delete object[key]` */
  function Without(v: Value, key: string): (r: Value)
    ensures v.Obj? ==> r.Obj? && r.fields.Keys == v.fields.Keys - {key}
    ensures v.Obj? ==> forall k :: k in r.fields ==> r.fields[k] == v.fields[k]
    ensures !v.Obj? ==> r == v
  {
    if v.Obj? then Obj(v.fields - {key}) else v
  }

  function ClientValue(id: nat, c: Client): (v: Value)
    ensures v.Obj? && "password_hash" in v.fields
    ensures "client_id" in v.fields && v.fields["client_id"] == Num(id)
    ensures "created_at" in v.fields && v.fields["created_at"] == Time(c.createdAt)
    ensures "trainer_appointment_id" !in v.fields && "employee_id" !in v.fields
  {
    Obj(map[
      "client_id" := Num(id),
      "first_name" := Str(c.firstName),
      "last_name" := Str(c.lastName),
      "patronymic" := OptionalText(c.patronymic),
      "profile_picture_url" := Str(c.profilePictureUrl),
      "email_address" := Str(c.emailAddress),
      "phone_number" := Str(c.phoneNumber),
      "password_hash" := Str(c.passwordHash),
      "created_at" := Time(c.createdAt)])
  }

  function SessionValue(id: nat, s: Session): (v: Value)
    ensures v.Obj? && "client_id" in v.fields
  {
    Obj(map[
      "session_id" := Num(id),
      "client_id" := Num(s.clientId),
      "jwt" := Str(s.jwt),
      "revoked" := Bool(s.revoked),
      "created_at" := Time(s.createdAt),
      "expires_at" := Time(s.expiresAt)])
  }

  function MembershipValue(id: nat, m: Membership): (v: Value)
    ensures v.Obj? && "membership_id" in v.fields && v.fields["membership_id"] == Num(id)
  {
    Obj(map[
      "membership_id" := Num(id),
      "client_id" := Num(m.clientId),
      "level_type" := Str(LevelName(m.levelType)),
      "created_at" := Time(m.createdAt),
      "expires_at" := Time(m.expiresAt),
      "freezed_at" := OptionalTime(m.freezedAt)])
  }

  function VisitValue(id: nat, v: VisitHistory): (r: Value)
    ensures r.Obj? && "client_id" in r.fields
  {
    Obj(map[
      "visit_history_id" := Num(id),
      "client_id" := Num(v.clientId),
      "gym_id" := Num(v.gymId),
      "entered_at" := Time(v.enteredAt),
      "left_at" := OptionalTime(v.leftAt)])
  }

  function EmployeeValue(id: nat, e: Employee): (v: Value)
    ensures v.Obj? && "employee_id" in v.fields && v.fields["employee_id"] == Num(id)
    ensures "trainer_appointment_id" !in v.fields
  {
    Obj(map[
      "employee_id" := Num(id),
      "client_id" := Num(e.clientId),
      "employee_type" := Str(EmployeeTypeName(e.employeeType)),
      "hired_at" := Time(e.hiredAt),
      "left_at" := OptionalTime(e.leftAt)])
  }

  function AppointmentValue(id: nat, a: TrainerAppointment): (v: Value)
    ensures v.Obj? && "trainer_appointment_id" in v.fields && v.fields["trainer_appointment_id"] == Num(id)
    ensures "employee_id" in v.fields && v.fields["employee_id"] == Num(a.employeeId)
  {
    Obj(map[
      "trainer_appointment_id" := Num(id),
      "client_id" := Num(a.clientId),
      "employee_id" := Num(a.employeeId),
      "gym_id" := Num(a.gymId),
      "payment_history_id" := Num(a.paymentHistoryId),
      "created_at" := Time(a.createdAt),
      "appointed_at" := Time(a.appointedAt),
      "ends_at" := Time(a.endsAt),
      "revoked" := Bool(a.revoked)])
  }
}

=== FILE: session.dfy ===
/** Sessions: the signed token handed out at login (a JWS compact serialisation,
    section 7.1 of RFC 7515, signed with HS512, section 3.2 of RFC 7518), the
    password hash, and the session table with its validity rule. */
module Sessions {
  import opened Wrappers
  import opened Values
  import Base64
  import Zod
  import Calendar
  import Tables
  import Repository

  /** The calls into Node that the scheme relies on, taken as given functions:
      `JSON.stringify`, UTF-8 encoding (`Buffer.from(string)`), the
      HMAC-SHA512 digest of a text under a key, and the secret `SALT`. */
  datatype Env = Env(
    stringify: Value -> string,
    utf8: string -> seq<Base64.byte>,
    hmac: (string, string) -> seq<Base64.byte>,
    salt: string)

  /** A session lasts 30 calendar days. */
  const SessionDays: int := 30

  /** A lower-case hexadecimal digit. */
  function HexDigit(d: nat): (c: char)
    requires d < 16
  {
    if d < 10 then '0' + d as char else 'a' + (d - 10) as char
  }

  /** `digest("hex")`: two lower-case hexadecimal digits per byte. */
  function Hex(b: seq<Base64.byte>): (s: string)
    ensures |s| == 2 * |b|
    ensures forall i :: 0 <= i < |b| ==> s[2 * i] == HexDigit(b[i] as nat / 16) && s[2 * i + 1] == HexDigit(b[i] as nat % 16)
  {
    seq(2 * |b|, k requires 0 <= k < 2 * |b| =>
      if k % 2 == 0 then HexDigit(b[k / 2] as nat / 16) else HexDigit(b[k / 2] as nat % 16))
  }

  lemma HexDigitInjective(d1: nat, d2: nat)
    requires d1 < 16 && d2 < 16 && HexDigit(d1) == HexDigit(d2)
    ensures d1 == d2
  {
  }

  /** Distinct digests have distinct hexadecimal texts. */
  lemma HexInjective(b1: seq<Base64.byte>, b2: seq<Base64.byte>)
    requires Hex(b1) == Hex(b2)
    ensures b1 == b2
  {
    forall i | 0 <= i < |b1|
      ensures b1[i] == b2[i]
    {
      HexDigitInjective(b1[i] as nat / 16, b2[i] as nat / 16);
      HexDigitInjective(b1[i] as nat % 16, b2[i] as nat % 16);
    }
  }

  /** `hashPassword(password)`: the hex HMAC-SHA512 of the password under the
      secret. */
  function HashPassword(env: Env, password: string): (h: string)
    ensures |h| == 2 * |env.hmac(env.salt, password)|
  {
    Hex(env.hmac(env.salt, password))
  }

  /** Comparing stored hashes compares the digests: two passwords hash alike
      exactly when their digests agree. */
  lemma SameHashSameDigest(env: Env, p1: string, p2: string)
    ensures HashPassword(env, p1) == HashPassword(env, p2) <==> env.hmac(env.salt, p1) == env.hmac(env.salt, p2)
  {
    if HashPassword(env, p1) == HashPassword(env, p2) {
      HexInjective(env.hmac(env.salt, p1), env.hmac(env.salt, p2));
    }
  }

  /** The JOSE header `{ alg: "HS512", typ: "JWT" }`. */
  function Header(): Value {
    Obj(map["alg" := Str("HS512"), "typ" := Str("JWT")])
  }

  /** The claims: the client's id, the session's creation and expiry, and the
      client's first name and picture. */
  function Payload(clientId: nat, client: Tables.Client, createdAt: int, expiresAt: int): Value {
    Obj(map[
      "client_id" := Num(clientId),
      "created_at" := Time(createdAt),
      "expires_at" := Time(expiresAt),
      "first_name" := Str(client.firstName),
      "profile_picture_url" := Str(client.profilePictureUrl)])
  }

  /** `Buffer.from(JSON.stringify(v)).toString("base64url")` */
  function Segment(env: Env, v: Value): (s: string)
    ensures '.' !in s
  {
    Base64.NoDot(env.utf8(env.stringify(v)));
    Base64.Encode(env.utf8(env.stringify(v)))
  }

  /** The signature segment over `signingInput`. */
  function Signature(env: Env, signingInput: string): (s: string)
    ensures '.' !in s
  {
    Base64.NoDot(env.hmac(env.salt, signingInput));
    Base64.Encode(env.hmac(env.salt, signingInput))
  }

  /** `yieldJWT(client_id, createdAt, expiresAt)`: header, payload and signature
      joined by dots. The client is looked up first; for a missing client the
      lookup's `undefined` makes reading `client.client_id` throw. */
  function YieldJWT(env: Env, clients: map<nat, Tables.Client>, clientId: nat, createdAt: int, expiresAt: int)
    : (r: Result<string, string>)
    ensures r.Success? <==> clientId in clients
  {
    if clientId !in clients then Failure("TypeError: Cannot read properties of undefined (reading 'client_id')")
    else
      var h := Segment(env, Header());
      var p := Segment(env, Payload(clientId, clients[clientId], createdAt, expiresAt));
      Success(h + "." + p + "." + Signature(env, h + "." + p))
  }

  /** `token.split(sep)` */
  function Split(s: string, sep: char): (parts: seq<string>)
    ensures |parts| >= 1
  {
    if |s| == 0 then [""]
    else
      var rest := Split(s[1..], sep);
      if s[0] == sep then [""] + rest else [[s[0]] + rest[0]] + rest[1..]
  }

  /** A text without the separator is one part. */
  lemma {:induction false} SplitWhole(a: string, sep: char)
    requires sep !in a
    ensures Split(a, sep) == [a]
  {
    if |a| > 0 {
      SplitWhole(a[1..], sep);
      assert [a[0]] + a[1..] == a;
    }
  }

  /** A leading part without the separator splits off. */
  lemma {:induction false} SplitFront(a: string, sep: char, b: string)
    requires sep !in a
    ensures Split(a + [sep] + b, sep) == [a] + Split(b, sep)
  {
    if |a| == 0 {
      assert a + [sep] + b == [sep] + b;
      assert ([sep] + b)[1..] == b;
    } else {
      SplitFront(a[1..], sep, b);
      assert (a + [sep] + b)[1..] == a[1..] + [sep] + b;
      assert [a[0]] + a[1..] == a;
    }
  }

  /** Section 5.2 of RFC 7515, for this key and algorithm: three parts, the
      last of which is the signature of the first two. */
  predicate Verifies(env: Env, token: string) {
    var parts := Split(token, '.');
    |parts| == 3 && parts[2] == Signature(env, parts[0] + "." + parts[1])
  }

  /** A token splits on `"."` into exactly its three segments: the fixed header,
      the payload, and the signature over both. */
  lemma TokenSegments(env: Env, clients: map<nat, Tables.Client>, clientId: nat, createdAt: int, expiresAt: int)
    requires clientId in clients
    ensures var h := Segment(env, Header());
      var p := Segment(env, Payload(clientId, clients[clientId], createdAt, expiresAt));
      Split(YieldJWT(env, clients, clientId, createdAt, expiresAt).value, '.')
        == [h, p, Signature(env, h + "." + p)]
  {
    var h := Segment(env, Header());
    var p := Segment(env, Payload(clientId, clients[clientId], createdAt, expiresAt));
    var s := Signature(env, h + "." + p);
    assert h + "." + p + "." + s == h + ['.'] + (p + ['.'] + s);
    SplitFront(h, '.', p + ['.'] + s);
    SplitFront(p, '.', s);
    SplitWhole(s, '.');
  }

  /** Every issued token verifies under the server's key. */
  lemma IssuedTokensVerify(env: Env, clients: map<nat, Tables.Client>, clientId: nat, createdAt: int, expiresAt: int)
    requires clientId in clients
    ensures Verifies(env, YieldJWT(env, clients, clientId, createdAt, expiresAt).value)
  {
    TokenSegments(env, clients, clientId, createdAt, expiresAt);
  }

  /** The payload segment decodes back to the serialised claims. */
  lemma PayloadDecodes(env: Env, clients: map<nat, Tables.Client>, clientId: nat, createdAt: int, expiresAt: int)
    requires clientId in clients
    ensures var claims := Payload(clientId, clients[clientId], createdAt, expiresAt);
      var parts := Split(YieldJWT(env, clients, clientId, createdAt, expiresAt).value, '.');
      |parts| == 3 && Base64.Decode(parts[1]) == Some(env.utf8(env.stringify(claims)))
  {
    var claims := Payload(clientId, clients[clientId], createdAt, expiresAt);
    var parts := Split(YieldJWT(env, clients, clientId, createdAt, expiresAt).value, '.');
    TokenSegments(env, clients, clientId, createdAt, expiresAt);
    assert parts[1] == Segment(env, claims);
    SegmentDecodes(env, claims);
  }

  /** A segment decodes back to the serialised value. */
  lemma SegmentDecodes(env: Env, v: Value)
    ensures Base64.Decode(Segment(env, v)) == Some(env.utf8(env.stringify(v)))
  {
    Base64.RoundTrip(env.utf8(env.stringify(v)));
  }

  /** The `jwt` column is unique. */
  ghost predicate UniqueTokens(rows: map<nat, Tables.Session>) {
    forall a, b :: a in rows && b in rows && rows[a].jwt == rows[b].jwt ==> a == b
  }

  /** Some session already holds this token. */
  predicate TokenTaken(rows: map<nat, Tables.Session>, jwt: string) {
    exists id | id in rows :: rows[id].jwt == jwt
  }

  datatype SchemaKey = CreateSession

  /** The schema registered under each key; its earliest dates are the
      instant `builtAt` at which it was built. */
  function Schemas(key: SchemaKey, builtAt: int): Zod.Schema {
    match key
    case CreateSession => [
      ("session_id", Zod.Never),
      ("client_id", Zod.Number),
      ("jwt", Zod.Text(1, Some(255), Zod.Any)),
      ("created_at", Zod.DateFrom(builtAt)),
      ("expires_at", Zod.DateFrom(builtAt))]
  }

  /** `session_id: z.never()` refuses even an absent field, so the `Create`
      schema accepts nothing at all. */
  lemma CreateSchemaRejectsAll(fmts: Zod.Formats, builtAt: int, data: Value)
    ensures Zod.Validate(Schemas(CreateSession, builtAt), fmts, data).Failure?
  {
    var schema := Schemas(CreateSession, builtAt);
    if data.Obj? {
      assert !Zod.Accepts(schema[0].1, fmts, Lookup(data.fields, schema[0].0));
    }
  }

  /** `get(jwt)`: the session holding this token (the first), revoked and
      expired ones included; under the unique constraint it is the only one. */
  function GetByToken(rows: map<nat, Tables.Session>, bound: nat, jwt: string): (r: Option<nat>)
    ensures r.Some? ==> r.value in rows && rows[r.value].jwt == jwt
    ensures Repository.Bounded(rows, bound) ==> (r.None? <==> !TokenTaken(rows, jwt))
    ensures UniqueTokens(rows) && r.Some? ==> forall id :: id in rows && rows[id].jwt == jwt ==> id == r.value
  {
    Repository.First(rows, bound, (id: nat, s: Tables.Session) => s.jwt == jwt)
  }

  /** The message of the unique-constraint violation on `jwt`. */
  const DuplicateToken: string := "duplicate key value violates unique constraint \"session_jwt_key\""

  /** `create(client_id)`: a new unrevoked session created now and expiring 30
      days later, under a freshly signed token. A token some session already
      holds violates the unique constraint; a missing client makes the token
      fail; either way, or on a database `fault`, nothing is inserted. The
      source reads the clock twice, once for `createdAt` and once for
      `expiresAt`; both readings are the one instant `now` here. */
  method Create(env: Env, sessions: Repository.Table<Tables.Session>, clients: map<nat, Tables.Client>,
                clientId: nat, now: int, fault: Option<string>)
    returns (r: Result<nat, string>)
    requires sessions.Valid() && UniqueTokens(sessions.rows)
    modifies sessions
    ensures sessions.Valid() && UniqueTokens(sessions.rows)
    ensures r.Success? <==> (clientId in clients && fault.None? &&
      !TokenTaken(old(sessions.rows), YieldJWT(env, clients, clientId, now, Calendar.DaysLater(now, SessionDays)).value))
    ensures r.Success? ==> r.value == old(sessions.nextId)
    ensures r.Success? ==> sessions.rows == old(sessions.rows)[r.value :=
      Tables.Session(clientId, YieldJWT(env, clients, clientId, now, Calendar.DaysLater(now, SessionDays)).value, false, now, now + SessionDays * Calendar.DAY)]
    ensures r.Failure? ==> sessions.rows == old(sessions.rows)
    ensures clientId in clients ==>
      var jwt := YieldJWT(env, clients, clientId, now, Calendar.DaysLater(now, SessionDays)).value;
      (TokenTaken(old(sessions.rows), jwt) ==> r == Failure(DuplicateToken)) &&
      (!TokenTaken(old(sessions.rows), jwt) && fault.Some? ==> r == Failure(fault.value))
  {
    var createdAt := now;
    var expiresAt := Calendar.DaysLater(now, SessionDays);
    var jwt := YieldJWT(env, clients, clientId, createdAt, expiresAt);
    if jwt.Failure? {
      return Failure(jwt.error);
    }
    var failure := if TokenTaken(sessions.rows, jwt.value) then Some(DuplicateToken) else fault;
    r := sessions.Add(Tables.Session(clientId, jwt.value, false, createdAt, expiresAt), failure);
  }

  /** `delete(session_id)`: the session is revoked, not removed. */
  method Revoke(sessions: Repository.Table<Tables.Session>, sessionId: nat)
    requires sessions.Valid() && UniqueTokens(sessions.rows)
    modifies sessions
    ensures sessions.Valid() && UniqueTokens(sessions.rows)
    ensures sessionId in old(sessions.rows) ==>
      sessions.rows == old(sessions.rows)[sessionId := old(sessions.rows)[sessionId].(revoked := true)]
    ensures sessionId !in old(sessions.rows) ==> sessions.rows == old(sessions.rows)
  {
    sessions.UpdateRow(sessionId, (s: Tables.Session) => s.(revoked := true));
  }

  /** The session is usable with this token now: the token matches, it is not
      revoked and it does not expire before now. */
  predicate Usable(s: Tables.Session, jwt: string, now: int) {
    s.jwt == jwt && !s.revoked && !(s.expiresAt < now)
  }

  /** `getClient(jwt)`: the first unrevoked session with this token whose
      client exists; nothing if there is none or if it has expired. */
  function GetClient(sessions: map<nat, Tables.Session>, bound: nat, clients: map<nat, Tables.Client>,
                     jwt: string, now: int): (r: Option<nat>)
    ensures r.Some? ==> r.value in clients
    ensures r.Some? ==> exists id :: id in sessions && Usable(sessions[id], jwt, now) && sessions[id].clientId == r.value
    ensures UniqueTokens(sessions) && Repository.Bounded(sessions, bound) ==>
      (r.None? <==> forall id :: id in sessions && Usable(sessions[id], jwt, now) ==> sessions[id].clientId !in clients)
  {
    var first := Repository.First(sessions, bound,
      (id: nat, s: Tables.Session) => s.jwt == jwt && !s.revoked && s.clientId in clients);
    if first.None? then None
    else
      var s := sessions[first.value];
      if s.expiresAt < now then None else Some(s.clientId)
  }

  /** A session expiring exactly now is still accepted. */
  lemma ExpiringNowIsUsable(s: Tables.Session, now: int)
    requires !s.revoked && s.expiresAt == now
    ensures Usable(s, s.jwt, now)
    ensures !Usable(s, s.jwt, now + 1)
  {
  }

  /** An employee with its client's row, as `getEmployee` joins them. */
  datatype Staff = Staff(clientId: nat, employeeId: nat, employee: Tables.Employee)

  /** `getEmployee(jwt)`: as `getClient`, through an inner join with the
      employee rows of the session's client (their first row). */
  function GetEmployee(sessions: map<nat, Tables.Session>, bound: nat, employees: map<nat, Tables.Employee>,
                       employeeBound: nat, clients: map<nat, Tables.Client>, jwt: string, now: int)
    : (r: Option<Staff>)
    ensures r.Some? ==> (r.value.clientId in clients && r.value.employeeId in employees &&
      employees[r.value.employeeId] == r.value.employee && r.value.employee.clientId == r.value.clientId)
    ensures r.Some? ==> exists id :: id in sessions && Usable(sessions[id], jwt, now) && sessions[id].clientId == r.value.clientId
    ensures UniqueTokens(sessions) && Repository.Bounded(sessions, bound) && Repository.Bounded(employees, employeeBound) ==>
      (r.None? <==> forall id :: id in sessions && Usable(sessions[id], jwt, now) ==>
        sessions[id].clientId !in clients || forall e :: e in employees ==> employees[e].clientId != sessions[id].clientId)
  {
    var isEmployee := (c: nat) => exists e | e in employees :: employees[e].clientId == c;
    var first := Repository.First(sessions, bound,
      (id: nat, s: Tables.Session) => s.jwt == jwt && !s.revoked && s.clientId in clients && isEmployee(s.clientId));
    if first.None? then None
    else
      var s := sessions[first.value];
      var e := Repository.First(employees, employeeBound, (id: nat, e: Tables.Employee) => e.clientId == s.clientId);
      if s.expiresAt < now || e.None? then None
      else Some(Staff(s.clientId, e.value, employees[e.value]))
  }
}

=== FILE: tables.dfy ===
/** The rows of the gym database. A row's serial primary key is not a field: it is
    the key the row is stored under in its table. Timestamps are milliseconds. */
module Tables {
  import opened Wrappers

  datatype Client = Client(
    firstName: string,
    lastName: string,
    patronymic: Option<string>,
    profilePictureUrl: string,
    emailAddress: string,
    phoneNumber: string,
    passwordHash: string,
    createdAt: int)

  datatype Session = Session(
    clientId: nat,
    jwt: string,
    revoked: bool,
    createdAt: int,
    expiresAt: int)

  /** The `level_type` enum. */
  datatype Level = SIMPLE | INFINITY | PREMIUM

  /** `freezed_at` is `None` while the membership is not frozen. */
  datatype Membership = Membership(
    clientId: nat,
    levelType: Level,
    createdAt: int,
    expiresAt: int,
    freezedAt: Option<int>)

  /** The `employee_type` enum. */
  datatype EmployeeType = ADMIN | INSTRUCTOR | TRAINER

  datatype Employee = Employee(
    clientId: nat,
    employeeType: EmployeeType,
    hiredAt: int,
    leftAt: Option<int>)

  datatype BankCard = BankCard(
    clientId: nat,
    cardNumber: string,
    cardholderName: string,
    expiresAt: int,
    cvv: string)

  datatype PaymentHistory = PaymentHistory(
    clientId: nat,
    bankCardId: nat,
    value: int,
    createdAt: int,
    processedAt: int,
    revoked: bool)

  datatype MembershipPaymentHistory = MembershipPaymentHistory(
    clientId: nat,
    paymentHistoryId: nat,
    membershipId: nat,
    createdAt: int)

  datatype Gym = Gym(city: string, street: string, building: string, description: string)

  /** `left_at` is `None` while the client is still in the gym. */
  datatype VisitHistory = VisitHistory(
    clientId: nat,
    gymId: nat,
    enteredAt: int,
    leftAt: Option<int>)

  datatype TrainerAppointment = TrainerAppointment(
    clientId: nat,
    employeeId: nat,
    gymId: nat,
    paymentHistoryId: nat,
    createdAt: int,
    appointedAt: int,
    endsAt: int,
    revoked: bool)

  /** `varchar(n)` widths of the string columns. */
  const NameWidth: nat := 50
  const PatronymicWidth: nat := 64
  const UrlWidth: nat := 255
  const EmailWidth: nat := 255
  const PhoneWidth: nat := 15
  const CardNumberWidth: nat := 20
  const CardholderWidth: nat := 255
  const CvvWidth: nat := 4
  const AddressWidth: nat := 64

  /** A value fits a `varchar(width)` column. */
  predicate Fits(s: string, width: nat) {
    |s| <= width
  }
}

=== FILE: values.dfy ===
/** The JavaScript values that request bodies, responses and validators handle:
    JSON data, plus `Date` objects. Numbers are integers in this model. */
module Values {
  import opened Wrappers

  datatype Value =
    | Null
    | Bool(b: bool)
    | Num(n: int)
    | Str(s: string)
    | Arr(items: seq<Value>)
    | Obj(fields: map<string, Value>)
    /** A `Date` object, as milliseconds since the epoch. */
    | Time(ms: int)

  /** `object[key]`, with `None` for `undefined`. */
  function Lookup(fields: map<string, Value>, key: string): (v: Option<Value>)
    ensures v.Some? <==> key in fields
    ensures v.Some? ==> v.value == fields[key]
  {
    if key in fields then Some(fields[key]) else None
  }

  /** An array of strings. */
  function Strings(ss: seq<string>): (v: Value)
    ensures v.Arr? && |v.items| == |ss|
    ensures forall i :: 0 <= i < |ss| ==> v.items[i] == Str(ss[i])
  {
    Arr(seq(|ss|, i requires 0 <= i < |ss| => Str(ss[i])))
  }
}

=== FILE: visits.dfy ===
/** The visit-history repository: entering and leaving a gym, the visit history
    of a client, and the validation schemas. */
module Visits {
  import opened Wrappers
  import opened Values
  import Zod
  import Decimal
  import opened Tables
  import Repository

  datatype SchemaKey = Enter | Leave | HistoryQuery | HistoryParams

  /** The schema registered under each key. */
  function Schemas(key: SchemaKey): Zod.Schema {
    match key
    case Enter => [("client_id", Zod.Optional(Zod.Number)), ("gym_id", Zod.Number)]
    case Leave => [("client_id", Zod.Optional(Zod.Number)), ("gym_id", Zod.Number)]
    case HistoryQuery => [("range", Zod.Datetimes(2))]
    case HistoryParams => [("client_id", Zod.DigitNumber)]
  }

  /** `Enter` accepts a numeric gym and, optionally, a numeric client. */
  lemma EnterAccepts(fmts: Zod.Formats, data: Value)
    ensures Zod.Validate(Schemas(SchemaKey.Enter), fmts, data).Success? <==>
      (data.Obj? && "gym_id" in data.fields && data.fields["gym_id"].Num? &&
       ("client_id" in data.fields ==> data.fields["client_id"].Num?))
  {
    var schema := Schemas(SchemaKey.Enter);
    if data.Obj? && Zod.AllAccept(schema, fmts, data.fields) {
      assert Zod.Accepts(schema[0].1, fmts, Lookup(data.fields, schema[0].0));
      assert Zod.Accepts(schema[1].1, fmts, Lookup(data.fields, schema[1].0));
    }
  }

  /** `HistoryParams` accepts exactly a digit string and hands on its number. */
  lemma HistoryParamsParsesDigits(fmts: Zod.Formats, data: Value)
    ensures var r := Zod.Validate(Schemas(HistoryParams), fmts, data);
      r.Success? <==> (data.Obj? && "client_id" in data.fields && data.fields["client_id"].Str? &&
        Decimal.IsDigits(data.fields["client_id"].s))
    ensures var r := Zod.Validate(Schemas(HistoryParams), fmts, data);
      r.Success? ==> Lookup(r.value, "client_id") == Some(Num(Decimal.Value(data.fields["client_id"].s)))
  {
    var schema := Schemas(HistoryParams);
    if data.Obj? && Zod.AllAccept(schema, fmts, data.fields) {
      assert Zod.Accepts(schema[0].1, fmts, Lookup(data.fields, schema[0].0));
      assert Zod.FirstNamed(schema, 0);
    }
  }

  /** `HistoryQuery` accepts a `range` of exactly two date-time strings. */
  lemma HistoryQueryNeedsTwoDatetimes(fmts: Zod.Formats, data: Value)
    ensures Zod.Validate(Schemas(HistoryQuery), fmts, data).Success? <==>
      (data.Obj? && "range" in data.fields && data.fields["range"].Arr? && |data.fields["range"].items| == 2 &&
       data.fields["range"].items[0].Str? && fmts.datetime(data.fields["range"].items[0].s) &&
       data.fields["range"].items[1].Str? && fmts.datetime(data.fields["range"].items[1].s))
  {
    var schema := Schemas(HistoryQuery);
    if data.Obj? && Zod.AllAccept(schema, fmts, data.fields) {
      assert Zod.Accepts(schema[0].1, fmts, Lookup(data.fields, schema[0].0));
    }
  }

  /** A visit of this client to this gym. */
  predicate Of(v: VisitHistory, gymId: nat, clientId: nat) {
    v.gymId == gymId && v.clientId == clientId
  }

  /** The visit has not ended. */
  predicate Open(v: VisitHistory) {
    v.leftAt.None?
  }

  /** The client is in the gym: one of its visits there is open. */
  predicate InGym(rows: map<nat, VisitHistory>, gymId: nat, clientId: nat) {
    exists id | id in rows :: Of(rows[id], gymId, clientId) && Open(rows[id])
  }

  /** An open visit is the latest visit of its client to its gym; so there is at
      most one open visit per gym and client. */
  ghost predicate OneOpen(rows: map<nat, VisitHistory>) {
    forall a, b :: a in rows && b in rows && Open(rows[a]) && Of(rows[b], rows[a].gymId, rows[a].clientId) ==> b <= a
  }

  lemma AtMostOneOpen(rows: map<nat, VisitHistory>, a: nat, b: nat)
    requires OneOpen(rows)
    requires a in rows && b in rows && Open(rows[a]) && Open(rows[b])
    requires Of(rows[b], rows[a].gymId, rows[a].clientId)
    ensures a == b
  {
    assert b <= a;
    assert a <= b;
  }

  /** Whether the latest visit of the client to the gym is open tells whether
      the client is in the gym. */
  lemma LatestTellsInGym(rows: map<nat, VisitHistory>, bound: nat, gymId: nat, clientId: nat)
    requires OneOpen(rows) && Repository.Bounded(rows, bound)
    ensures var last := Repository.Last(rows, bound, (id: nat, v: VisitHistory) => Of(v, gymId, clientId));
      InGym(rows, gymId, clientId) <==> last.Some? && Open(rows[last.value])
  {
    var last := Repository.Last(rows, bound, (id: nat, v: VisitHistory) => Of(v, gymId, clientId));
    if InGym(rows, gymId, clientId) {
      var a :| a in rows && Of(rows[a], gymId, clientId) && Open(rows[a]);
      assert last.value <= a;
      assert a <= last.value;
    }
  }

  /** Adding an open visit keeps the invariant when it is the latest row and its
      client was not in its gym. */
  lemma AddOpenKeepsOneOpen(rows: map<nat, VisitHistory>, n: nat, v: VisitHistory)
    requires OneOpen(rows) && Repository.Bounded(rows, n)
    requires Open(v) && !InGym(rows, v.gymId, v.clientId)
    ensures OneOpen(rows[n := v])
  {
    var after := rows[n := v];
    forall a, b | a in after && b in after && Open(after[a]) && Of(after[b], after[a].gymId, after[a].clientId)
      ensures b <= a
    {
      if a != n && b == n {
        assert Of(rows[a], v.gymId, v.clientId);
        assert false;
      }
    }
  }

  /** The message of the refused entry. */
  const AlreadyInGym: string := "Already in the gym"

  /** `enter(gym_id, client_id)`: when the latest visit of the client to the
      gym is open, the entry is refused; otherwise a visit starting now is
      added, unless the insert fails. */
  method EnterGym(visits: Repository.Table<VisitHistory>, gymId: nat, clientId: nat, now: int, fault: Option<string>)
    returns (r: Result<nat, string>)
    requires visits.Valid() && OneOpen(visits.rows)
    modifies visits
    ensures visits.Valid() && OneOpen(visits.rows)
    ensures InGym(old(visits.rows), gymId, clientId) ==>
      r == Failure(AlreadyInGym) && visits.rows == old(visits.rows)
    ensures !InGym(old(visits.rows), gymId, clientId) && fault.Some? ==>
      r == Failure(fault.value) && visits.rows == old(visits.rows)
    ensures !InGym(old(visits.rows), gymId, clientId) && fault.None? ==>
      r == Success(old(visits.nextId)) &&
      visits.rows == old(visits.rows)[old(visits.nextId) := VisitHistory(clientId, gymId, now, None)]
    ensures r.Success? ==> InGym(visits.rows, gymId, clientId)
  {
    var lastVisit := Repository.Last(visits.rows, visits.nextId, (id: nat, v: VisitHistory) => Of(v, gymId, clientId));
    LatestTellsInGym(visits.rows, visits.nextId, gymId, clientId);
    if lastVisit.None? || visits.rows[lastVisit.value].leftAt.Some? {
      var row := VisitHistory(clientId, gymId, now, None);
      AddOpenKeepsOneOpen(visits.rows, visits.nextId, row);
      r := visits.Add(row, fault);
      if r.Success? {
        assert visits.rows[r.value] == row;
      }
      return;
    }
    r := Failure(AlreadyInGym);
  }

  /** Closing the open visits of one client to one gym keeps the invariant. */
  lemma CloseKeepsOneOpen(rows: map<nat, VisitHistory>, after: map<nat, VisitHistory>, gymId: nat, clientId: nat, now: int)
    requires OneOpen(rows) && after.Keys == rows.Keys
    requires forall id :: id in rows && Of(rows[id], gymId, clientId) && Open(rows[id]) ==>
      after[id] == rows[id].(leftAt := Some(now))
    requires forall id :: id in rows && !(Of(rows[id], gymId, clientId) && Open(rows[id])) ==> after[id] == rows[id]
    ensures OneOpen(after)
  {
    forall a, b | a in after && b in after && Open(after[a]) && Of(after[b], after[a].gymId, after[a].clientId)
      ensures b <= a
    {
      assert after[a] == rows[a];
      assert Of(rows[b], rows[a].gymId, rows[a].clientId);
    }
  }

  /** `leave(gym_id, client_id)`: every open visit of the client to the gym ends
      now; no other row changes. The ended visits are returned. */
  method LeaveGym(visits: Repository.Table<VisitHistory>, gymId: nat, clientId: nat, now: int)
    returns (left: seq<(nat, VisitHistory)>)
    requires visits.Valid() && OneOpen(visits.rows)
    modifies visits
    ensures visits.Valid() && OneOpen(visits.rows)
    ensures visits.rows.Keys == old(visits.rows).Keys && visits.nextId == old(visits.nextId)
    ensures forall id :: id in old(visits.rows) && Of(old(visits.rows)[id], gymId, clientId) && Open(old(visits.rows)[id]) ==>
      visits.rows[id] == old(visits.rows)[id].(leftAt := Some(now))
    ensures forall id :: id in old(visits.rows) && !(Of(old(visits.rows)[id], gymId, clientId) && Open(old(visits.rows)[id])) ==>
      visits.rows[id] == old(visits.rows)[id]
    ensures !InGym(visits.rows, gymId, clientId)
    ensures forall k :: 0 <= k < |left| ==>
      left[k].0 in visits.rows && visits.rows[left[k].0] == left[k].1 && Of(left[k].1, gymId, clientId) && left[k].1.leftAt == Some(now)
  {
    var matches := (id: nat, v: VisitHistory) => Of(v, gymId, clientId) && Open(v);
    var change := (v: VisitHistory) => v.(leftAt := Some(now));
    var ended := Repository.Select(visits.rows, visits.nextId, matches);
    ghost var before := visits.rows;
    visits.Update(matches, change);
    CloseKeepsOneOpen(before, visits.rows, gymId, clientId, now);
    left := seq(|ended|, k requires 0 <= k < |ended| => (ended[k].0, change(ended[k].1)));
  }

  /** Deleting a visit keeps the invariant. */
  lemma DeleteKeepsOneOpen(rows: map<nat, VisitHistory>, id: nat)
    requires OneOpen(rows)
    ensures OneOpen(rows - {id})
  {
  }

  /** The four columns `history` selects. */
  datatype VisitSummary = VisitSummary(visitHistoryId: nat, gymId: nat, enteredAt: int, leftAt: Option<int>)

  /** The visit entered within the closed range `from..to`. */
  predicate EnteredWithin(v: VisitHistory, from: int, to: int) {
    from <= v.enteredAt <= to
  }

  /** `history(client_id, range)`: the client's visits entered within the
      range, both ends included, in key order. */
  function History(rows: map<nat, VisitHistory>, bound: nat, clientId: nat, from: int, to: int)
    : (out: seq<VisitSummary>)
    ensures forall k :: 0 <= k < |out| ==>
      var id := out[k].visitHistoryId;
      id in rows && rows[id].clientId == clientId && EnteredWithin(rows[id], from, to) &&
      out[k] == VisitSummary(id, rows[id].gymId, rows[id].enteredAt, rows[id].leftAt)
    ensures forall k, l :: 0 <= k < l < |out| ==> out[k].visitHistoryId < out[l].visitHistoryId
    ensures Repository.Bounded(rows, bound) ==>
      forall id :: id in rows && rows[id].clientId == clientId && EnteredWithin(rows[id], from, to) ==>
        exists k :: 0 <= k < |out| && out[k].visitHistoryId == id
  {
    var selected := Repository.Select(rows, bound,
      (id: nat, v: VisitHistory) => v.clientId == clientId && EnteredWithin(v, from, to));
    var out := seq(|selected|, k requires 0 <= k < |selected| =>
      VisitSummary(selected[k].0, selected[k].1.gymId, selected[k].1.enteredAt, selected[k].1.leftAt));
    assert forall k :: 0 <= k < |out| ==> out[k].visitHistoryId == selected[k].0;
    out
  }
}

=== FILE: wrappers.dfy ===
/** Option and Result, the failure-carrying values that stand for the source's
    `undefined` results and for the `Error` values its repositories return. */
module Wrappers {

  datatype Option<+T> = None | Some(value: T)

  datatype Result<+T, +E> = Success(value: T) | Failure(error: E)
}

=== FILE: zod.dfy ===
/** The part of the Zod validation library the repositories use: object schemas
    whose fields are checked one by one, `safeParse` returning either the parsed
    object or the list of issues, one per failed check. */
module Zod {
  import opened Wrappers
  import opened Values
  import Decimal

  /** Zod's built-in string formats (`email()`, `url()`, `date()`,
      `datetime({ offset: true })`) are regular expressions and a URL parser;
      they are taken here as given predicates. */
  datatype Formats = Formats(
    email: string -> bool,
    url: string -> bool,
    date: string -> bool,
    datetime: string -> bool)

  /** The format a string field is checked against; `Digits` is the regular
      expression `/^\d+$/`. */
  datatype Format = Any | Email | Url | Date | Digits

  datatype Rule =
    /** `z.undefined()`: the field must be absent. */
    | Undefined
    /** `z.never()`: nothing is accepted, not even an absent field. */
    | Never
    /** `z.number()` */
    | Number
    /** `z.string()`, with `.min(min)`, `.max(max)` and a format. */
    | Text(min: nat, max: Option<nat>, format: Format)
    /** `z.string().regex(/^\d+$/).transform(Number)` */
    | DigitNumber
    /** `z.enum(options)` */
    | Enum(options: seq<string>)
    /** `z.date().min(earliest)`: a `Date` no earlier than `earliest`. */
    | DateFrom(earliest: int)
    /** `z.string().datetime({ offset: true }).array().length(n)` */
    | Datetimes(n: nat)
    /** `rule.optional()` */
    | Optional(rule: Rule)

  /** `z.object({...})`: field names and their rules. */
  type Schema = seq<(string, Rule)>

  /** A step of an issue's path: an object key or an array index. */
  datatype PathKey = Key(name: string) | At(index: nat)

  /** A validation issue, located by its path in the data. */
  datatype Issue = Issue(path: seq<PathKey>)

  /** The issue lies under the field `name`. */
  predicate Under(issue: Issue, name: string) {
    |issue.path| > 0 && issue.path[0] == Key(name)
  }

  function FormatHolds(format: Format, fmts: Formats, s: string): bool {
    match format
    case Any => true
    case Email => fmts.email(s)
    case Url => fmts.url(s)
    case Date => fmts.date(s)
    case Digits => Decimal.IsDigits(s)
  }

  /** `min <= |s| <= max` and the format. */
  predicate TextOk(min: nat, max: Option<nat>, format: Format, fmts: Formats, s: string) {
    min <= |s| && (max.Some? ==> |s| <= max.value) && FormatHolds(format, fmts, s)
  }

  /** The rule accepts the field's value (`None` for an absent field). */
  predicate Accepts(rule: Rule, fmts: Formats, v: Option<Value>)
    decreases rule
  {
    match rule
    case Undefined => v.None?
    case Never => false
    case Number => v.Some? && v.value.Num?
    case Text(min, max, format) => v.Some? && v.value.Str? && TextOk(min, max, format, fmts, v.value.s)
    case DigitNumber => v.Some? && v.value.Str? && Decimal.IsDigits(v.value.s)
    case Enum(options) => v.Some? && v.value.Str? && v.value.s in options
    case DateFrom(earliest) => v.Some? && v.value.Time? && earliest <= v.value.ms
    case Datetimes(n) =>
      v.Some? && v.value.Arr? && |v.value.items| == n
      && forall i :: 0 <= i < n ==> v.value.items[i].Str? && fmts.datetime(v.value.items[i].s)
    case Optional(inner) => v.None? || Accepts(inner, fmts, v)
  }

  /** The value a rule produces for an accepted field: the input itself, except
      that `DigitNumber` turns the digit string into its number. */
  function Output(rule: Rule, v: Option<Value>): (out: Option<Value>)
    decreases rule
    ensures v.None? ==> out.None?
    ensures rule.DigitNumber? && v.Some? && v.value.Str? && Decimal.IsDigits(v.value.s)
      ==> out == Some(Num(Decimal.Value(v.value.s)))
    ensures !rule.DigitNumber? && !rule.Optional? ==> out == v
  {
    match rule
    case DigitNumber =>
      if v.Some? && v.value.Str? && Decimal.IsDigits(v.value.s) then Some(Num(Decimal.Value(v.value.s))) else v
    case Optional(inner) => Output(inner, v)
    case _ => v
  }

  /** Every field of the schema accepts its value. */
  predicate AllAccept(schema: Schema, fmts: Formats, fields: map<string, Value>) {
    forall i :: 0 <= i < |schema| ==> Accepts(schema[i].1, fmts, Lookup(fields, schema[i].0))
  }

  /** One issue per failed check, when `check` fails. */
  function IssueIf(check: bool, path: seq<PathKey>): seq<Issue> {
    if check then [] else [Issue(path)]
  }

  /** The issues of the elements of a `datetime` string array from index
      `from` on: one for each element that is not such a string, at its
      index. */
  function ElementIssues(name: string, fmts: Formats, items: seq<Value>, from: nat): (issues: seq<Issue>)
    requires from <= |items|
    decreases |items| - from
    ensures |issues| == 0 <==> forall i :: from <= i < |items| ==> items[i].Str? && fmts.datetime(items[i].s)
    ensures forall k :: 0 <= k < |issues| ==> Under(issues[k], name)
  {
    if from == |items| then []
    else
      IssueIf(items[from].Str? && fmts.datetime(items[from].s), [Key(name), At(from)])
        + ElementIssues(name, fmts, items, from + 1)
  }

  /** The issues one field gives. A value of the wrong type is one issue; a
      string runs every check of its chain (`min`, `max`, the format) and
      gives one issue per failed check; an array gives one issue for a wrong
      length and one per failing element. */
  function FieldIssues(name: string, rule: Rule, fmts: Formats, v: Option<Value>): (issues: seq<Issue>)
    decreases rule
    ensures |issues| == 0 <==> Accepts(rule, fmts, v)
    ensures forall k :: 0 <= k < |issues| ==> Under(issues[k], name)
  {
    match rule
    case Text(min, max, format) =>
      if v.Some? && v.value.Str? then
        var s := v.value.s;
        IssueIf(min <= |s|, [Key(name)]) + IssueIf(max.None? || |s| <= max.value, [Key(name)])
          + IssueIf(FormatHolds(format, fmts, s), [Key(name)])
      else [Issue([Key(name)])]
    case Datetimes(n) =>
      if v.Some? && v.value.Arr? then
        IssueIf(|v.value.items| == n, [Key(name)]) + ElementIssues(name, fmts, v.value.items, 0)
      else [Issue([Key(name)])]
    case Optional(inner) => if v.None? then [] else FieldIssues(name, inner, fmts, v)
    case _ => IssueIf(Accepts(rule, fmts, v), [Key(name)])
  }

  /** The field at index `i` fails its rule. */
  predicate Rejected(schema: Schema, fmts: Formats, fields: map<string, Value>, i: int) {
    0 <= i < |schema| && !Accepts(schema[i].1, fmts, Lookup(fields, schema[i].0))
  }

  /** The issues of every field, in schema order; there are none exactly when
      every field passes. */
  function Failing(schema: Schema, fmts: Formats, fields: map<string, Value>): (issues: seq<Issue>)
    ensures |issues| == 0 <==> AllAccept(schema, fmts, fields)
  {
    if |schema| == 0 then []
    else
      assert AllAccept(schema, fmts, fields) <==>
        Accepts(schema[0].1, fmts, Lookup(fields, schema[0].0)) && AllAccept(schema[1..], fmts, fields)
      by {
        if Accepts(schema[0].1, fmts, Lookup(fields, schema[0].0)) && AllAccept(schema[1..], fmts, fields) {
          forall i | 1 <= i < |schema| ensures Accepts(schema[i].1, fmts, Lookup(fields, schema[i].0)) {
            assert schema[i] == schema[1..][i - 1];
          }
        }
      }
      FieldIssues(schema[0].0, schema[0].1, fmts, Lookup(fields, schema[0].0)) + Failing(schema[1..], fmts, fields)
  }

  /** The issue lies under a field of the schema that its rule rejects. */
  predicate Located(schema: Schema, fmts: Formats, fields: map<string, Value>, issue: Issue) {
    exists i :: 0 <= i < |schema| && Rejected(schema, fmts, fields, i) && Under(issue, schema[i].0)
  }

  /** Every issue lies under a field its rule rejects. */
  lemma {:induction false} FailingSound(schema: Schema, fmts: Formats, fields: map<string, Value>)
    ensures forall k :: 0 <= k < |Failing(schema, fmts, fields)| ==>
      Located(schema, fmts, fields, Failing(schema, fmts, fields)[k])
  {
    if |schema| > 0 {
      var issues := Failing(schema, fmts, fields);
      var first := FieldIssues(schema[0].0, schema[0].1, fmts, Lookup(fields, schema[0].0));
      var rest := Failing(schema[1..], fmts, fields);
      assert issues == first + rest;
      FailingSound(schema[1..], fmts, fields);
      forall k | 0 <= k < |issues|
        ensures Located(schema, fmts, fields, issues[k])
      {
        if k < |first| {
          assert issues[k] == first[k];
          assert 0 < |schema| && Rejected(schema, fmts, fields, 0) && Under(issues[k], schema[0].0);
        } else {
          assert issues[k] == rest[k - |first|];
          assert Located(schema[1..], fmts, fields, rest[k - |first|]);
          var j :| 0 <= j < |schema[1..]| && Rejected(schema[1..], fmts, fields, j) && Under(rest[k - |first|], schema[1..][j].0);
          assert schema[1..][j] == schema[j + 1];
          assert Rejected(schema, fmts, fields, j + 1);
        }
      }
    } else {
      assert Failing(schema, fmts, fields) == [];
    }
  }

  /** Some issue lies under the field `name`. */
  predicate Reports(issues: seq<Issue>, name: string) {
    exists k :: 0 <= k < |issues| && Under(issues[k], name)
  }

  /** Every field its rule rejects has at least one issue. */
  lemma {:induction false} FailingComplete(schema: Schema, fmts: Formats, fields: map<string, Value>)
    ensures forall i :: Rejected(schema, fmts, fields, i) ==> Reports(Failing(schema, fmts, fields), schema[i].0)
  {
    if |schema| > 0 {
      var issues := Failing(schema, fmts, fields);
      var first := FieldIssues(schema[0].0, schema[0].1, fmts, Lookup(fields, schema[0].0));
      var rest := Failing(schema[1..], fmts, fields);
      assert issues == first + rest;
      FailingComplete(schema[1..], fmts, fields);
      forall i | Rejected(schema, fmts, fields, i)
        ensures Reports(issues, schema[i].0)
      {
        if i == 0 {
          assert issues[0] == first[0];
          assert Under(issues[0], schema[0].0);
        } else {
          assert schema[1..][i - 1] == schema[i];
          assert Rejected(schema[1..], fmts, fields, i - 1);
          assert Reports(rest, schema[i].0);
          var k :| 0 <= k < |rest| && Under(rest[k], schema[i].0);
          assert issues[|first| + k] == rest[k];
        }
      }
    }
  }

  /** The field at index `i` is the first of its name. */
  predicate FirstNamed(schema: Schema, i: int) {
    0 <= i < |schema| && forall j :: 0 <= j < i ==> schema[j].0 != schema[i].0
  }

  /** The parsed object: the schema's fields only (unknown keys are stripped),
      each with its rule's output; absent fields stay absent. */
  function Parsed(schema: Schema, fields: map<string, Value>): (out: map<string, Value>)
    ensures forall k :: k in out ==> exists i :: 0 <= i < |schema| && schema[i].0 == k
    ensures forall i :: FirstNamed(schema, i) ==>
      Lookup(out, schema[i].0) == Output(schema[i].1, Lookup(fields, schema[i].0))
  {
    if |schema| == 0 then map[]
    else
      var rest := Parsed(schema[1..], fields);
      var name := schema[0].0;
      var out := match Output(schema[0].1, Lookup(fields, name))
        case None => rest - {name}
        case Some(v) => rest[name := v];
      assert forall k :: k in rest ==> exists i :: 0 <= i < |schema| && schema[i].0 == k by {
        forall k | k in rest ensures exists i :: 0 <= i < |schema| && schema[i].0 == k {
          var j :| 0 <= j < |schema[1..]| && schema[1..][j].0 == k;
          assert schema[j + 1].0 == k;
        }
      }
      forall i | FirstNamed(schema, i) && i > 0
        ensures Lookup(out, schema[i].0) == Output(schema[i].1, Lookup(fields, schema[i].0))
      {
        assert schema[i] == schema[1..][i - 1];
        assert FirstNamed(schema[1..], i - 1);
      }
      out
  }

  /** `schema.safeParse(data)`: the parsed object, or the issues. A value that
      is not an object fails as a whole (an issue with the empty path). */
  function Validate(schema: Schema, fmts: Formats, data: Value): (r: Result<map<string, Value>, seq<Issue>>)
    ensures r.Success? <==> data.Obj? && AllAccept(schema, fmts, data.fields)
    ensures r.Success? ==> r.value == Parsed(schema, data.fields)
    ensures r.Failure? ==> 0 < |r.error|
  {
    if !data.Obj? then Failure([Issue([])])
    else
      var issues := Failing(schema, fmts, data.fields);
      if |issues| == 0 then Success(Parsed(schema, data.fields)) else Failure(issues)
  }

  /** Convenience view of an accepted text field. */
  predicate HasText(fields: map<string, Value>, key: string, min: nat, max: nat) {
    key in fields && fields[key].Str? && min <= |fields[key].s| <= max
  }
}
